=== FILE: README.md ===
# ghweb-backend news feed, article desk and shop rules in Dafny

This project models the core of the ghweb-backend service, a Node.js/Express
back end for several news sites and a home-goods shop. It covers the
following parts.

- **The feed pipeline.**
  - The keyword-weight relevance scorer (`utils/rankArticle.js`).
  - The three feed blends of `controllers/feed.controller.js`: the general "top six plus score-ordered remainder" feed, and the category and tag feeds with their "first six / mixed block / fresh tail" layout.
  - The cached variant of those blends in `controllers/spf/feed.controller.js`, with its key-value cache and its headline exclusions.
- **The article desk.**
  - The cached desk of `controllers/zasp/article.controller.js` and the uncached desk of `controllers/article.controller.js`, over an in-memory store of articles and a key-value cache. They cover creation, updates, live updates, key events, ending a live article, pagination, look-up and deletion.
  - The article document of `models/article.model.js`: its content validator, the conversion of a text into a live entry, and its two pre-save hooks.
  - The slug, meta-title and meta-description generators that all six content models share.
- **Movies and music.** The streaming-platform flag coercion and URL clearing of the movie and music controllers, and the genre listing.
- **The shop middleware.**
  - The product-status job (`middleware/productCron.js`).
  - The tag-note job (`middleware/tagNoteCron.js`).
  - The discount hooks (`middleware/discountCalculation.js` and `middleware/checkDiscountExpiry.js`).
  - The department/category validator.
  - The request schemas of the authentication routes.

Time is integer milliseconds and is passed in as `now`. Scores and prices are
`real`. The keyword-weight table is a parameter. Whether the cache server is
reachable is a parameter: every cache failure is swallowed, so a read reports
a miss and a write or delete does nothing. Randomly drawn template indices are
also parameters.

Modules, one per file:

- `Js`: the JavaScript string, number and slicing semantics the other modules rely on.
- `ContentItem`: the article record.
- `RankArticle`: the scorer.
- `Sorting`: the stable descending sort.
- `Feed`, `FeedProperties`, `SectionProperties` and `FeedHandlers`: the uncached feeds.
- `KeyValueCache` and `SpfFeed`: the cache and the cached feeds.
- `Derive`: the generators shared by the content models.
- `ArticleModel`, `ArticleStore`, `ArticleDesk` and `Newsroom`: the articles.
- `Media`: movies and music.
- `ProductCron`, `TagNote`, `Discount`, `CategoryValidator` and `AuthSchemas`: the shop middleware.

The model follows the code where the code and its comments differ.

- The mixed block of the category and tag feeds takes `ceil(18*0.45) = 9` fresh items and `floor(18*0.55) = 9` ranked items. Its comments say 8 and 10.
- The mixed block is not de-duplicated, so one article can appear twice.
- The scorer reads `keywords`, not `tags`.
- A `limit` taken from the query keeps JavaScript's slicing rules: a negative slice end drops items from the end (`Js.SliceTo`). So for a limit below 24, the tail count in the meta data can be positive even though no tail item is shown. The model does not require `limit >= 1`.

## Model

| member | source | states |
|---|---|---|
| RankArticle.Rank | utils/rankArticle.js:9-30 | The two loops leave 4.5 times the sum of the table weights whose keyword occurs in the lower-cased "title description" text, plus the weight of every `keywords` entry found in the table. The source credibility argument has no effect. |
| RankArticle.Lookup | utils/rankArticle.js:22-23 | The look-up finds a weight exactly when the table has that exact-case key, and the weight it returns is the one stored with that key. |
| RankArticle.ScoreNonNegative | utils/rankArticle.js:13-27 | If every table weight is non-negative, the score is non-negative. |
| RankArticle.KeywordSumAppend | utils/rankArticle.js:21-25 | The second pass is additive over the `keywords` list. |
| RankArticle.KeywordRepeated | utils/rankArticle.js:21-25 | A repeated keyword adds its weight once per occurrence. |
| RankArticle.UnknownKeywordIgnored | utils/rankArticle.js:21-25 | A keyword missing from the table adds nothing. |
| RankArticle.TextSumAtMostOnce | utils/rankArticle.js:15-19 | The text pass adds each table weight at most once, however often the keyword occurs: its total is at most the sum of the positive weights. |
| RankArticle.ScoreCaseInsensitive | utils/rankArticle.js:11-16 | Lower-casing the title and the description does not change the score. |
| RankArticle.EmptyArticleScoresZero | utils/rankArticle.js:10-13 | An article with no title, no description and no keywords scores 0, provided the table has no blank keyword. |
| Sorting.SortDescSpec | controllers/feed.controller.js:33 | The descending sort keeps the length and the multiset of the list, orders it by non-increasing key, and keeps every run of equal keys in input order (the sort is stable). |
| Feed.ProcessDecays | controllers/feed.controller.js:16-29 | With non-negative weights, the penalty only lowers a score. A processed score lies between 0 and the raw score. It equals the raw score for a fresh article, and is strictly below a positive raw score for a stale one. |
| Feed.ProcessNeverGrowsWithAge | controllers/feed.controller.js:16-29 | Judged at a later time, an article is never fresher and its processed score never grows. |
| Feed.ProcessAll | controllers/feed.controller.js:16-29 | Processing keeps the length and order of the candidates and processes each one. |
| Feed.AsLatest | controllers/feed.controller.js:36-48 | The fresh items placed first are the raw, unscored documents, one entry per document, in order. |
| Feed.AsRanked | controllers/feed.controller.js:43-55 | The ranked entries are the scored items, in order. |
| Feed.CategoryCandidates | controllers/feed.controller.js:88-93 | The category candidates are exactly the stored articles that have a category equal to the requested one, ignoring case. |
| Feed.TagCandidates | controllers/feed.controller.js:205-207 | The tag candidates are exactly the stored articles that have a tag containing the requested tag, ignoring case. |
| FeedProperties.GeneralBlendShape | controllers/feed.controller.js:36-55 | The general feed is the first (up to) two fresh documents followed by every other item in score order, cut to the limit. `latestInTop` is the number of fresh documents placed first. |
| FeedProperties.GeneralBlendLength | controllers/feed.controller.js:40-55 | For distinct candidates and a non-negative limit, the general feed holds min(limit, candidates) entries. |
| FeedProperties.GeneralBlendUnique | controllers/feed.controller.js:40-55 | No article appears twice in the general feed. |
| FeedProperties.GeneralBlendFreshPrefix | controllers/feed.controller.js:36-66 | The first min(2, fresh count) entries are the first fresh documents, in the candidates' order. `latestInTop` equals that count, and `freshCount` is the number of fresh candidates. |
| FeedProperties.FreshDocsMember | controllers/feed.controller.js:36-38 | The fresh documents are exactly the candidates published within 36 hours of now. |
| FeedProperties.FreshDocsNewestFirst | controllers/feed.controller.js:36-38 | A newest-first candidate list gives newest-first fresh documents. |
| FeedProperties.GeneralBlendFreshNewest | controllers/feed.controller.js:13-40 | When the candidates arrive newest first, as the query sorts them, no fresh candidate left out of the head of the feed is newer than one placed there. |
| FeedProperties.GeneralBlendRankedSuffix | controllers/feed.controller.js:43-55 | After the fresh prefix, the entries are exactly the remaining ranked items, in their ranked order, up to the limit. |
| FeedProperties.RankedRestOrder | controllers/feed.controller.js:33-55 | The items after the fresh prefix are in non-increasing score order. For every score, the items with that score keep the input's date order, less the placed documents. |
| FeedProperties.GeneralBlendMember | controllers/feed.controller.js:16-55 | Every entry of the general feed is a fresh candidate document or a candidate processed with the given clock and table. |
| FeedProperties.FreshDocsCount | controllers/feed.controller.js:36-64 | The number of fresh documents equals the number of processed items marked fresh. |
| FeedProperties.FreshDocsAreFresh | controllers/feed.controller.js:36-38 | Every fresh document is a candidate published within 36 hours of now. |
| SectionProperties.FirstSixBlock | controllers/feed.controller.js:120-126 | The first block is the first (up to) 3 fresh items in the candidates' order plus up to 3 of the best-scored items not already chosen. The two groups share no article, and the block is their union re-sorted by date, newest first. |
| SectionProperties.FirstSixLatestNewest | controllers/feed.controller.js:120-126 | When the candidates arrive newest first, no fresh item left out of the first block's fresh picks is newer than one of them. |
| SectionProperties.FirstSixMember | controllers/feed.controller.js:120-126 | Every item of the first block is a chosen fresh item or a chosen ranked item. |
| SectionProperties.FirstSixRankedBest | controllers/feed.controller.js:122-124 | A ranked item of the first block scores at least as high as every other candidate outside the fresh three. |
| SectionProperties.MixedBlock | controllers/feed.controller.js:129-144 | The mixed block takes the first min(9, n) fresh items outside the first block, in their order, and likewise the first min(9, n) ranked items outside it. It keeps both as a multiset union and sorts them by score. |
| SectionProperties.MixedRankedBest | controllers/feed.controller.js:133-144 | A ranked item of the mixed block scores at least as high as every candidate outside the first block that the mixed block's ranked picks leave out. |
| SectionProperties.MixedLatestNewest | controllers/feed.controller.js:129-144 | When the candidates arrive newest first, no fresh item outside the first block that the mixed block leaves out is newer than a fresh pick of the mixed block. |
| SectionProperties.MixedRepeats | controllers/feed.controller.js:141-144 | An article chosen both as fresh and as ranked appears twice in the mixed block. |
| SectionProperties.TailBlock | controllers/feed.controller.js:147-151 | The tail candidates are exactly the fresh candidates that neither block placed. For a limit of at least 24, the tail is the first limit − 24 of them, in order. For a smaller limit, the negative slice end drops the last 24 − limit of them. |
| SectionProperties.StaleOnlyWhenRanked | controllers/feed.controller.js:120-158 | A stale article in the section feed was chosen as a ranked item of the first or the mixed block. |
| SectionProperties.TailHiddenUpTo24 | controllers/feed.controller.js:147-182 | For a limit of at most 24, the feed is the first two blocks cut to the limit. The tail count in the meta data is the number of tail candidates minus (24 − limit), or 0. |
| SectionProperties.SectionBlendFromCandidates | controllers/feed.controller.js:114-158 | Every article of a section feed is a processed candidate. |
| FeedHandlers.GetFeed | controllers/feed.controller.js:6-76 | The total is the number of stored articles. The feed holds min(limit, articles) entries, with a default limit of 10 when the query has none. |
| FeedHandlers.GetFeedByCategory | controllers/feed.controller.js:78-193 | The total counts the category candidates, and every article shown is stored and in the category. |
| FeedHandlers.GetFeedByTags | controllers/feed.controller.js:195-306 | The total counts the tag candidates, and every article shown is stored and carries a tag containing the requested one. |
| FeedHandlers.CategoryIgnoresCase | controllers/feed.controller.js:88-93 | Lower-casing the requested category does not change which articles match. |
| FeedHandlers.TagSubstring | controllers/feed.controller.js:205-207 | A tag that contains the requested tag anywhere makes the article match. |
| KeyValueCache.CacheKey | controllers/spf/feed.controller.js:7-9 | A key is the prefix, then ':', then the parameter values joined with ':'. |
| KeyValueCache.PrefixGlob | controllers/zasp/article.controller.js:26-34 | The pattern `prefix*` matches exactly the keys that start with the prefix. |
| KeyValueCache.LiteralGlob | controllers/zasp/article.controller.js:26-34 | A pattern without `*` matches only the key equal to it. |
| KeyValueCache.Unmatched | controllers/zasp/article.controller.js:26-34 | A pattern delete keeps exactly the entries whose key the pattern does not match, with their values. |
| KeyValueCache.UnmatchedNoMatch | controllers/zasp/article.controller.js:29-31 | A pattern delete with no matching key changes nothing. |
| KeyValueCache.UnmatchedIdempotent | controllers/zasp/article.controller.js:26-34 | Deleting by the same pattern twice is the same as deleting once. |
| KeyValueCache.SweepAppend | controllers/zasp/article.controller.js:36-42 | Deleting by one list of patterns and then by another is the same as deleting by both lists at once. |
| KeyValueCache.Cache.Get | controllers/zasp/article.controller.js:16-24 | A read returns the stored value exactly when the server is reachable and holds the key. Otherwise it reports a miss. |
| KeyValueCache.Cache.Set | controllers/spf/feed.controller.js:11-18 | A write stores the value with its expiry when the server is reachable, and leaves the cache unchanged otherwise. |
| KeyValueCache.Cache.DeleteByPattern | controllers/spf/feed.controller.js:31-41 | The loop removes exactly the keys the glob matches when the server is reachable, and nothing otherwise. |
| KeyValueCache.Cache.DeleteByPatterns | controllers/zasp/article.controller.js:36-42 | Several pattern deletes in a row remove the keys any of the patterns match. |
| SpfFeed.KeyShapes | controllers/spf/feed.controller.js:46-244 | The keys are `feed:main:<limit>`, `feed:category:<category>:<limit>` and `feed:tag:<tag>:<limit>`. |
| SpfFeed.KeyFamiliesDisjoint | controllers/spf/feed.controller.js:46-244 | Keys of the three families never coincide, so one feed is never answered from another's entry. |
| SpfFeed.NonHeadlines | controllers/spf/feed.controller.js:60-62 | The general candidates are exactly the stored articles that are not headlines. |
| SpfFeed.NonCategoryHeadlines | controllers/spf/feed.controller.js:142-145 | The category candidates exclude exactly the category headlines. |
| SpfFeed.Serve | controllers/spf/feed.controller.js:47-112 | The intended cache step (see Findings), used with a working read: a hit answers `cached: true` with the stored payload. A miss answers `cached: false` with the computed payload and stores it for an hour under the same key. |
| SpfFeed.RepeatedRequest | controllers/spf/feed.controller.js:43-119 | With the intended read, while the server is reachable, a second request for the same key is answered from the cache with the first one's payload. When it is unreachable, both requests are computed afresh. |
| SpfFeed.GetFeed | controllers/spf/feed.controller.js:43-119 | The general feed is keyed by its limit (10 when missing or 0), computed from the non-headline articles, and served through the intended cache step. |
| SpfFeed.GetFeedByCategory | controllers/spf/feed.controller.js:121-238 | The category feed is keyed by category and limit (30 by default), computed without category headlines, and served through the intended cache step. |
| SpfFeed.GetFeedByTags | controllers/spf/feed.controller.js:240-359 | The tag feed is keyed by tag and limit (30 by default), with no headline exclusion, and served through the intended cache step. |
| SpfFeed.GetAsWritten | controllers/spf/feed.controller.js:20-29 | The feed cache's read, as written, always reports a miss: a stored value is passed to an undeclared `极JSON`, and the resulting error is answered with null. |
| SpfFeed.ServeAsWritten | controllers/spf/feed.controller.js:47-112 | As written, every request is computed, stored for an hour and answered `cached: false`, whatever the cache holds. |
| SpfFeed.RepeatedRequestAsWritten | controllers/spf/feed.controller.js:43-119 | As written, two requests for the same key in a row are both computed afresh and answered `cached: false`. The second payload replaces the first in the cache. |
| SpfFeed.ExclusionsHold | controllers/spf/feed.controller.js:60-145 | No headline reaches the general feed, and no category headline reaches the category feed. |
| Derive.Slug | models/article.model.js:220-221 | An empty title gives the empty slug. |
| Derive.SlugIsSlug | models/article.model.js:222-229 | A slug uses only `[a-z0-9_-]`, never contains "--", and never starts or ends with '-'. |
| Derive.SlugIdempotent | models/article.model.js:222-229 | Generating a slug from a slug gives the same slug. |
| Derive.MetaTitle | models/article.model.js:204-209 | The meta title is at most 60 characters. It is the cleaned title when that fits, and otherwise a trimmed part of its first 57 characters followed by "...". It ends in "..." exactly when the cleaned title is longer than 60. |
| Derive.CleanTitle | models/article.model.js:206 | Cleaning keeps exactly the letters, digits, white space and '-' of the title. |
| Derive.MetaTitleShortFixed | models/feature.model.js:95-100 | A title that is already short enough is a fixed point of the meta-title generator. |
| Derive.MetaDescription | models/article.model.js:211-218 | The meta description is at most 155 characters. With a description it is a part of the description's first 155 characters, empty only if those are all white space. Without a description it is a prefix of "<title or default noun>. <default blurb>". |
| Derive.MetaDescriptionKeepsShort | models/music.model.js:167-170 | A short description without surrounding white space is its own meta description. |
| Derive.MetaDescriptionIgnoresTitle | models/opinion.model.js:89-91 | With a description, the title and the wording do not matter. |
| Derive.ArticleDefaultDescription | models/article.model.js:215-217 | The article default is "<title or 'Feature'>. Read our detailed feature.". |
| Derive.MusicDefaultDescription | models/music.model.js:171-173 | The music default is "<title or 'Music track'>. Listen now.". |
| Derive.MovieDefaultDescription | models/movie.model.js:163-170 | The movie default is "<title or 'Movie'>. Watch now.". |
| Derive.ReviewDefaultDescription | models/nigpost/review.model.js:104-111 | The review default is "<title or 'Review'>. Read our detailed review.". |
| Derive.FeatureDefaultDescription | models/feature.model.js:102-109 | The feature default is "<title or 'Feature'>. Read our detailed feature.". |
| Derive.OpinionDefaultDescription | models/opinion.model.js:89-96 | The opinion default is "<title or 'Review'>. Read our detailed review.". |
| Derive.Post.PreSave | models/music.model.js:133-146 | A title change regenerates the slug and the meta title, and a description change regenerates the meta description. Nothing else changes, and the regenerated fields obey their bounds. |
| Derive.Post.Retitle | models/movie.model.js:129-142 | Saving a new title always leaves a valid slug. If the description is non-empty, every derived field is consistent with the new title, since a given description makes the title irrelevant to the meta description. |
| ArticleModel.KeyEntries | controllers/zasp/article.controller.js:580-582 | The key events are exactly the entries marked as key. |
| ArticleModel.KeyEntriesAppend | controllers/zasp/article.controller.js:580-582 | The filter keeps order and multiplicity: it distributes over concatenation, and keeps one entry exactly when it is a key event. |
| ArticleModel.EntryFromString | models/article.model.js:155-164 | A text becomes one entry with that text as its detail and `isKey` false. The entry is valid exactly when the title, description and text are non-blank. |
| ArticleModel.ArticleDoc.LiveForm | models/article.model.js:167-187 | A text becomes a single live entry, and a non-empty list of texts becomes one entry per text, in order. Converted entries are not key events. Content that is already entries, or an empty list, is left as it is. |
| ArticleModel.ArticleDoc.PreSaveLive | models/article.model.js:166-195 | When `isLive` is switched on, the content is converted to live entries. When `wasLive` is set, `isLive` is forced off. No other field changes. |
| ArticleModel.ArticleDoc.PreSaveSlug | models/article.model.js:197-202 | A title change recomputes the slug, which is then a valid slug. No other field changes. |
| ArticleModel.GoingLiveValid | models/article.model.js:166-195 | The live content the hook converts a text into is valid exactly when the title, description and text are non-blank. |
| ArticleModel.SaveHooks | models/article.model.js:166-202 | Both hooks together: `wasLive` forces `isLive` off, a new title gets a valid slug, and a text becomes one live entry that is not a key event. |
| ArticleStore.NewArticle | controllers/zasp/article.controller.js:113-144 | A created article carries the request's fields and its category as a list. It starts not having been live, and its content is the request's content or one live entry. |
| ArticleStore.NewArticleFacts | controllers/article.controller.js:81-103 | A live article's content is one entry built from the title, description and content, with `isKey` false. The created article passes the schema validators exactly when the title, description, content and every category are non-blank once trimmed. |
| ArticleStore.BlankCategoryRefused | models/article.model.js:72-78 | A category of spaces passes the early 400 check, but fails the per-element `required` and `trim` validator, so the created article is invalid. |
| ArticleStore.Apply | controllers/zasp/article.controller.js:268-272 | Every field the body gives, slug, content and categories included, replaces the stored one, and every field it leaves out is kept. The id never changes, and an empty body changes nothing. |
| ArticleStore.ApplyIdempotent | controllers/zasp/article.controller.js:268-272 | Applying the same body twice stores the same article as applying it once. |
| ArticleStore.UpdateValidKeepsValid | models/article.model.js:51-64 | Under the intended update validators (non-blank title, description and categories when given, and content valid for the live flag after the update), a valid article stays valid, provided the body does not switch the live flag without sending content. |
| ArticleStore.GoingLiveByUpdateInvalid | controllers/zasp/article.controller.js:268-271 | The excluded case happens: a body that only switches a valid text article live passes the validators and leaves an invalid article, since no hook converts the content on an update. |
| ArticleStore.LiveContentUpdateRefused | models/article.model.js:51-64 | As written, content that passes the update validators is a text, so an update that sends content never leaves a live article valid. |
| ArticleStore.LiveEntriesRefusedExample | models/article.model.js:51-64 | A valid entry sent as the content of a live article fails the validators as written, though the intended validators accept it and the article stays valid. |
| ArticleStore.ClearHeadlines | controllers/zasp/article.controller.js:94-100 | Clearing headlines switches the headline flag off on every article and touches nothing else. |
| ArticleStore.ClearCategoryHeadlines | controllers/zasp/article.controller.js:102-111 | Clearing category headlines switches the flag off on exactly the articles that share a category, and touches nothing else. |
| ArticleStore.ClearHeadlinesKeepsInvariant | controllers/zasp/article.controller.js:94-100 | The store invariant (unique ids, unique slugs, at most one headline) survives the clearing. |
| ArticleStore.RemoveKeepsInvariant | controllers/zasp/article.controller.js:711-731 | Deleting an article keeps the store invariant. |
| ArticleStore.KeyEvents | controllers/zasp/article.controller.js:580-582 | Key events are absent exactly for an article that is not live, and are the key entries of a live article. |
| ArticleStore.UpdateEntry | controllers/zasp/article.controller.js:397-404 | A live update becomes an entry with the given id and time. Its key flag is the request's flag, false by default. It is valid exactly when its three text fields are non-blank. |
| ArticleStore.WithLiveUpdate | controllers/zasp/article.controller.js:397-408 | The append succeeds exactly when the content accepts entries and the result validates. It then adds exactly one entry at the end. |
| ArticleStore.LiveUpdateAccepted | controllers/zasp/article.controller.js:397-406 | A valid entry appended to a valid live article leaves the earlier entries unchanged and the new one last. |
| ArticleStore.MarkedKey | controllers/zasp/article.controller.js:441-452 | Marking fails with 404 exactly when no entry has the id. On success the article still validates. |
| ArticleStore.MarkedKeyOnlyThat | controllers/zasp/article.controller.js:441-452 | Marking sets `isKey` on the first entry with the id and changes no other entry. |
| ArticleStore.Ended | controllers/zasp/article.controller.js:478-482 | Ending a live article makes it not live, marks it as having been live, leaves it without key events, and changes nothing else. |
| ArticleStore.ByDate | controllers/zasp/article.controller.js:528 | The listing order is a permutation of the store, newest first. |
| ArticleStore.CeilDiv | controllers/zasp/article.controller.js:535 | The page count is the ceiling of total divided by limit. |
| ArticleStore.PageNonEmptyIff | controllers/zasp/article.controller.js:514-535 | Page p of size l starts inside the store exactly when p is at most the page count. |
| ArticleStore.ListPayload | controllers/zasp/article.controller.js:512-540 | A page shows the articles at positions skip, skip+1, … of the date order, at most `limit` of them. It reports the total, the page count and the page number, and it is non-empty exactly when the page number is at most the page count. |
| Newsroom.CategoryHeadlineKeys | controllers/zasp/article.controller.js:108-110 | One key `category:headline:<category>` is deleted per category of the article. |
| Newsroom.SiteFamiliesKeep | controllers/zasp/article.controller.js:36-42 | After the site-wide invalidation, exactly the keys outside the `articles:`, `headline:` and `category:` families remain. |
| Newsroom.SweepSubsumed | controllers/zasp/article.controller.js:99-160 | Deletes made earlier inside those families are subsumed by the final site-wide invalidation. |
| Newsroom.ListKeySwept | controllers/zasp/article.controller.js:160-517 | Every cached list page is gone after the site-wide invalidation. |
| Newsroom.DeletedArticleStaysCached | controllers/zasp/article.controller.js:732 | As written, deleting an article leaves its `article:<slug>` entry cached with its old value. |
| Newsroom.DeleteSweepRemovesArticle | controllers/zasp/article.controller.js:707-744 | The corrected delete sweep removes the article's slug and id keys and every list page. |
| Newsroom.CreateCleared | controllers/zasp/article.controller.js:94-111 | Creating a headline clears every headline, and creating a category headline clears the flag on articles sharing a category. Ids and slugs stay, and nothing changes otherwise. |
| Newsroom.RewriteEffects | controllers/zasp/article.controller.js:215-266 | An update cannot unset a current headline or category headline. A newly breaking article expires 30 minutes after now, and an explicit false clears the expiry. `wasLive` forces `isLive` off. A new title or description regenerates its meta field within its bound. The id stays, and a slug, content or category list the body gives is stored as given. |
| Newsroom.UpdateCleared | controllers/zasp/article.controller.js:215-235 | Setting the flags on update clears them elsewhere first, and never switches a headline on. |
| Newsroom.UpdateKeepsInvariant | controllers/zasp/article.controller.js:180-281 | The clearing keeps the store invariant, and so does the update whenever the slug it gives belongs to no other article. |
| Newsroom.ClearingKeyedToStoredCategories | controllers/zasp/article.controller.js:225-234 | The category-headline clearing looks at the stored categories, not the new ones: an update that moves an article into another category as its headline leaves that category's current headline in place, so the category has two. |
| Newsroom.Newsroom.CreateArticle | controllers/zasp/article.controller.js:44-178 | A missing field gives 400 and changes nothing. Otherwise the flags are cleared first. A valid article with a fresh slug is appended and the three site families are swept. An invalid article (including a category that is blank once trimmed) or a taken slug gives 400, keeps the clearing, and sweeps only the early keys. |
| Newsroom.Newsroom.UpdateArticle | controllers/zasp/article.controller.js:180-296 | An unknown slug gives 404 and changes nothing. Otherwise the flags are cleared first. A body that fails the update validators as they run (where given content must be a non-blank text, even for a live article) gives 500, and a slug that another article has gives 400; both keep the clearing and sweep only the early keys. Otherwise the rewritten body is applied, and the per-article keys, the list pages and the three families are swept. |
| Newsroom.Newsroom.AddLiveUpdate | controllers/zasp/article.controller.js:360-427 | A missing field gives 400, an unknown article 404, an article that is not live 400, and a failed save 500. Otherwise exactly one entry is appended and the article's keys are swept. Failures change nothing. |
| Newsroom.Newsroom.MarkAsKeyEvent | controllers/zasp/article.controller.js:429-472 | An unknown article gives 404, as does a missing entry. Otherwise that entry is marked and the article's keys are swept. Failures change nothing. |
| Newsroom.Newsroom.EndLive | controllers/zasp/article.controller.js:474-508 | An unknown article gives 404. Otherwise the article is ended and its keys are swept. |
| Newsroom.Newsroom.DeleteArticle | controllers/zasp/article.controller.js:707-744 | An unknown article gives 404. Otherwise it is removed from the store and the corrected sweep runs, so no cached `article:<slug>` entry survives. |
| Newsroom.Newsroom.GetArticles | controllers/zasp/article.controller.js:510-555 | Page 1 and limit 10 are the defaults. A hit answers with the cached page. A miss answers with the computed page and caches it under `articles:list:<page>:<limit>` for five days. A negative skip gives 500. |
| Newsroom.Newsroom.GetArticleById | controllers/zasp/article.controller.js:557-602 | A hit answers from the cache. A miss answers 404 for an unknown slug, or the article with its key events, cached for an hour. |
| Newsroom.DeleteThenRead | controllers/zasp/article.controller.js:557-744 | With the corrected sweep, reading an article after deleting it gives 404. |
| ArticleDesk.DeskRewriteEffects | controllers/article.controller.js:222-248 | On update, `wasLive` forces `isLive` off, a title regenerates the meta title, and a description regenerates the meta description from the new title or the stored one. The category-headline flag and the breaking expiry are kept, since this schema has neither field. A slug, content or category list the body gives is stored as given. |
| ArticleDesk.DeskCleared | controllers/article.controller.js:222-227 | Any update with a truthy headline flag clears every headline first. |
| ArticleDesk.DeskUpdateKeepsInvariant | controllers/article.controller.js:222-253 | The clearing keeps the store invariant, and so does the update whenever the slug it gives belongs to no other article. |
| ArticleDesk.IndexOfIdOrSlug | controllers/article.controller.js:442-444 | The look-up finds the first article whose id or slug equals the key, or reports that none does. |
| ArticleDesk.Desk.CreateArticle | controllers/article.controller.js:4-173 | A missing field gives 400 and changes nothing. Otherwise a headline clears every other headline, and a valid article with a fresh slug is appended. An invalid article (including a category that is blank once trimmed) or a taken slug gives 400. It is never a category headline. |
| ArticleDesk.Desk.UpdateArticle | controllers/article.controller.js:175-273 | An unknown id gives 404. Otherwise the headlines are cleared first when asked. A body that fails the update validators as they run (where given content must be a non-blank text, even for a live article) gives 500, and a slug that another article has gives 400, both keeping the clearing. Otherwise the rewritten body is applied. A truthy headline flag leaves the updated article as the only headline. |
| ArticleDesk.Desk.AddLiveUpdate | controllers/article.controller.js:275-337 | The error codes are 400, 404, 400 and 500 in the source's order. Otherwise exactly one entry is appended, and failures change nothing. |
| ArticleDesk.Desk.MarkAsKeyEvent | controllers/article.controller.js:339-377 | The matched entry only is marked, or 404 is returned. |
| ArticleDesk.Desk.EndLive | controllers/article.controller.js:379-408 | The article is ended (not live, was live), or 404 is returned. |
| ArticleDesk.Desk.GetArticles | controllers/article.controller.js:410-437 | Pagination has page 1 and limit 10 as defaults, over the date order. |
| ArticleDesk.Desk.GetArticleById | controllers/article.controller.js:439-472 | The look-up is by id or slug, and key events are present exactly for live articles. |
| Media.FlagAfter | controllers/movie.controller.js:159-163 | A truthy flag becomes the boolean "is exactly true or 'true'" (so 'false' becomes false). A falsy flag is left as it is. |
| Media.MovieKeysAsWritten | controllers/movie.controller.js:148-158 | The movie loop builds the schema's key pairs except for YouTube, whose URL key is `youTubeUrl` instead of `youtubeUrl`. |
| Media.MusicKeysMatchSchema | controllers/music.controller.js:152-162 | All five music key pairs match the schema fields. |
| Media.NormalisePlatforms | controllers/music.controller.js:159-171 | The loop computes the normalised body. |
| Media.NormalisedEffect | controllers/movie.controller.js:155-167 | After the loop, each platform's flag is normalised, and its URL is undefined unless the flag is exactly true. |
| Media.NormalisedFrame | controllers/movie.controller.js:155-167 | The loop leaves every key outside the platform keys unchanged. |
| Media.YoutubeUrlKeptAsWritten | controllers/movie.controller.js:152-165 | As written, the movie loop never clears `youtubeUrl`. |
| Media.YoutubeUrlKeptExample | controllers/movie.controller.js:152-165 | A body with `isYouTube: 'false'` keeps its `youtubeUrl`. |
| Media.SchemaUrlsCleared | models/movie.model.js:62-72 | With the schema's key names, the URL of every platform whose flag is not exactly true is cleared. |
| Media.CreatedFlags | controllers/movie.controller.js:54-70 | On create, a flag is true exactly when the value is `true` or 'true'. |
| Media.CreatedUrls | controllers/music.controller.js:54-74 | On create, a URL is kept only when its flag is coerced true, and is undefined otherwise. |
| Media.CreateMedia | controllers/movie.controller.js:4-110 | A missing field gives 400, a failing validation 500, and a taken slug 400. Otherwise the built document is stored. |
| Media.CreatedMedia | controllers/movie.controller.js:71-88 | A created document has rating 0 and empty genre and tags by default, and generated slug and meta fields. |
| Media.FlaggedWithoutUrlRejected | models/movie.model.js:26-90 | A platform flagged true without a URL fails validation. |
| Media.UnflaggedUrlIgnored | models/music.model.js:26-90 | The URL of an unflagged platform does not affect the outcome of a create. |
| Media.UpdateMedia | controllers/music.controller.js:116-200 | An unknown id gives 404. Otherwise the update is the body with its derived fields and the platform normalisation, using the schema's keys. It gives 500 when an update validator fails, and 400 when its slug belongs to another document. |
| Media.UpdateValidatesSentPaths | controllers/movie.controller.js:173-176 | The validators see the required fields and the rating as sent: the update passes exactly when no required field is sent empty and a numeric rating lies in 0..5. The four text fields count as empty after trimming; `releaseYear` and `author`, which have no `trim`, only when empty as sent. |
| Media.AuthorOfSpacesAccepted | models/music.model.js:110-113 | An `author` of spaces passes the update validators, since that path is not trimmed. |
| Media.UpdateTitleSlugTaken | controllers/movie.controller.js:136-190 | A new title whose slug another document has makes the update hit the unique index, which gives 400. |
| Media.UpdateDerived | controllers/movie.controller.js:136-146 | A title regenerates the slug and meta title, and a description regenerates the meta description from the new or the stored title. |
| Media.WithTitleDerived | controllers/movie.controller.js:136-139 | A non-empty title sets the slug and the meta title from it; no other key changes, and without a title the body is unchanged. |
| Media.WithDerivedEffects | controllers/movie.controller.js:136-146 | Only the slug, the meta title and the meta description are written. Each comes from the new title, or from the description with the new or the stored title, and each is kept when its source field is absent. |
| Media.UpdateKeepsOtherKeys | controllers/music.controller.js:140-171 | The update leaves every key that is neither a platform key nor a derived key unchanged. |
| Media.TaggedWith | controllers/music.controller.js:264-269 | The genre listing's candidates are exactly the stored tracks that carry the genre as a tag. |
| Media.GenrePage | controllers/music.controller.js:257-279 | A genre page shows the tracks at positions skip, skip+1, … of the tagged tracks sorted newest first, min(limit, what is left) of them. It reports the total and the page count. |
| Media.GenrePageShows | controllers/music.controller.js:257-279 | A genre page shows only stored tracks carrying the genre, newest first, and it is non-empty exactly when the page number is at most the page count. |
| Media.ByGenre | controllers/music.controller.js:257-289 | A page before the first gives a negative skip, which the store refuses: 500. Any other page is answered with the genre page. |
| ProductCron.PromotionMapSpec | middleware/productCron.js:45-61 | A product is in the map exactly when an active promotion lists it, and it maps to the thumbnail (or '') of the last such promotion. |
| ProductCron.BuildPromotionMap | middleware/productCron.js:54-61 | The nested loops build that map. |
| ProductCron.DealUpdate | middleware/productCron.js:67-93 | A promoted product in stock gets an update to 'deal' with its mapped thumbnail, exactly when its status or thumbnail differs. |
| ProductCron.NewStatus | middleware/productCron.js:118-175 | The status is 'sold_out' exactly when the quantity is at most 0. It is 'new_arrival' exactly when the product is in stock and was created at most 4 days ago (a missing date never counts). It is 'active' otherwise. |
| ProductCron.ReviewUpdate | middleware/productCron.js:118-146 | A non-promoted product gets an update exactly when its thumbnail is non-empty or its status changes. The update clears the thumbnail only in the first case and writes the status only in the second. |
| ProductCron.DealSettles | middleware/productCron.js:82-85 | After a deal update is applied, the product needs no further deal update. |
| ProductCron.ReviewSettles | middleware/productCron.js:133-138 | After a review update is applied, the product needs no further review update. |
| ProductCron.ReviewCounts | middleware/productCron.js:112-146 | The three counters add up to the number of review updates. |
| ProductCron.UpdatesSpec | middleware/productCron.js:74-146 | Every deal update comes from a promoted product in stock, and every review update from a product outside the map. |
| ProductCron.UpdatesComplete | middleware/productCron.js:74-146 | Every product that needs an update gets one in its phase. |
| ProductCron.PromotedOutOfStockUntouched | middleware/productCron.js:67-107 | A promoted product that is out of stock gets no update in either phase. |
| ProductCron.DealPhase | middleware/productCron.js:74-93 | The loop emits exactly the deal updates, in product order. |
| ProductCron.ReviewPhase | middleware/productCron.js:118-147 | The loop emits exactly the review updates and the matching counters. |
| ProductCron.Cycle | middleware/productCron.js:44-147 | One cycle builds the promotion map, then the deal updates and the review updates with their counters. |
| TagNote.Parts | middleware/tagNoteCron.js:47-61 | A note has at most three parts, each drawn from its own template list. |
| TagNote.PartsSpec | middleware/tagNoteCron.js:50-61 | A status phrase comes first exactly when the status has templates. The shipping phrase and then the returns phrase follow, each only when its flag is set and the status is neither 'deal' nor 'sold_out'. Otherwise only the status phrase can appear. |
| TagNote.NoteFallbackIff | middleware/tagNoteCron.js:63-65 | The note is never empty, and it is the fixed fallback exactly when there are no parts. Otherwise it begins with the first phrase. |
| TagNote.NoteIgnoresStoredNote | middleware/tagNoteCron.js:47-66 | The note does not depend on the stored note. |
| TagNote.GenerateTagNote | middleware/tagNoteCron.js:47-66 | The pushes and the join build exactly the specified note. |
| TagNote.Retag | middleware/tagNoteCron.js:87-95 | A product's note is replaced by the generated one, and the product is unchanged exactly when the stored note already equals it. |
| TagNote.ChangedZeroIff | middleware/tagNoteCron.js:89-95 | The job writes nothing exactly when every stored note already equals its generated note. |
| TagNote.RetaggedSettles | middleware/tagNoteCron.js:85-96 | A second run with the same draws writes nothing and changes nothing. |
| TagNote.UpdateTagNotes | middleware/tagNoteCron.js:85-96 | The loop retags every product in place, counts every product as processed, and counts as updated exactly the products whose note changed. |
| Discount.Round | middleware/discountCalculation.js:8-10 | Rounding returns the whole number within one half of x, with halves rounded up. |
| Discount.PercentOff | middleware/discountCalculation.js:7-10 | The percentage is not finite exactly when the unit price is 0. |
| Discount.PercentOffBounds | middleware/discountCalculation.js:7-10 | For a price between 0 and a positive unit price, the percentage is in 0..100. It is 0 for an undiscounted price and 100 for a free one. |
| Discount.CalculatedSpec | middleware/discountCalculation.js:7-26 | An expired discount (now strictly after the end date) is switched off with price and percentage 0. Otherwise the percentage is computed exactly when a discount with a non-zero price is set, and is 0 otherwise. Unit price and dates never change. |
| Discount.CalculatedIdempotent | middleware/discountCalculation.js:7-26 | Saving twice at the same time is the same as saving once. |
| Discount.CalculatedPercentInRange | middleware/discountCalculation.js:7-26 | A discount priced within the unit price gets a percentage in 0..100. |
| Discount.DiscountedProduct.CalculateDiscount | middleware/discountCalculation.js:5-37 | The hook leaves the document in the specified state and hands over once, without an error. |
| Discount.ResetFinal | middleware/checkDiscountExpiry.js:7-17 | A reset document is final. No later pass resets it at any time, the pass leaves it unchanged, and resetting it again changes nothing. |
| Discount.ExpiryChecked | middleware/checkDiscountExpiry.js:7-16 | A document changes exactly when its discount is on and its end date lies strictly before now, and it never needs resetting afterwards. |
| Discount.AllExpiryChecked | middleware/checkDiscountExpiry.js:5-18 | The pass keeps the list's length and order and checks every document. |
| Discount.AllExpiryCheckedIdempotent | middleware/checkDiscountExpiry.js:7-16 | The pass is idempotent for a fixed now. |
| Discount.ResetAgreesWithHook | middleware/checkDiscountExpiry.js:7-11 | A document the pass resets is also switched off by the pre-save hook. |
| Discount.ResetSurvivesSave | middleware/discountCalculation.js:7-26 | Saving a reset document changes nothing. |
| Discount.CheckDiscountExpiry | middleware/checkDiscountExpiry.js:2-19 | The in-place loop leaves exactly the checked list. |
| CategoryValidator.NormalisedDepartmentUnpadded | middleware/validateCategory.js:33 | The department looked up has no white space at either end, and normalising it again changes nothing. |
| CategoryValidator.ValidateCategory | middleware/validateCategory.js:32-69 | The validator proceeds exactly when the trimmed department has a list containing the category, compared exactly. Otherwise it fails once with the "not iterable" message or the message naming both. |
| CategoryValidator.PaddingIgnored | middleware/validateCategory.js:33 | White space around the department does not change the outcome. |
| CategoryValidator.MissingDepartmentRejected | middleware/validateCategory.js:33-55 | A missing department is the empty one, which has no list. |
| CategoryValidator.StorageAccepted | middleware/validateCategory.js:1-28 | 'Storage' is accepted though the departments list lacks it. |
| CategoryValidator.CaseSensitive | middleware/validateCategory.js:57-66 | Departments and categories are compared case-sensitively. |
| CategoryValidator.MissingCategoryRejected | middleware/validateCategory.js:57-66 | A missing category is rejected, and the message calls it "undefined". |
| AuthSchemas.PhonePrefixesAgree | middleware/authValidator.js:48 | '0' and '+233' are interchangeable prefixes before the same subscriber number. |
| AuthSchemas.PhoneLength | middleware/authValidator.js:48 | A valid number has 10 characters in local form and 13 in international form. |
| AuthSchemas.PhoneExamples | middleware/authValidator.js:47-53 | The message's two examples are valid, and a wrong network digit or a short number is not. |
| AuthSchemas.EmailMatchIff | middleware/authValidator.js:6 | Splitting at the first '@' and the last '.' decides the e-mail pattern exactly. |
| AuthSchemas.EmailSplitUnique | middleware/authValidator.js:6 | A match has a single '@', and its split is the first '@' and the last '.'. |
| AuthSchemas.EmailExamples | middleware/authValidator.js:4-13 | The example address matches, and a one-letter ending or a missing local part does not. |
| AuthSchemas.Required | middleware/authValidator.js:102-127 | Every schema requires a password, and only the login makes e-mail and phone optional. |
| AuthSchemas.PasswordBounds | middleware/authValidator.js:15-120 | Every valid body has a password of 8 to 100 characters. |
| AuthSchemas.LoginNeedsContact | middleware/authValidator.js:127 | A login with only a password is refused. |
| AuthSchemas.SellerExtendsUser | middleware/authValidator.js:56-100 | A valid seller body without its store fields is a valid user body. |
| AuthSchemas.UserBecomesSeller | middleware/authValidator.js:24-100 | A valid user body plus valid store fields is a valid seller body. |
| AuthSchemas.RegisteredCanLogIn | middleware/authValidator.js:102-127 | Registered credentials form a valid login, by e-mail and, for users and sellers, by phone. |

## Left out

- Storage I/O is not modelled: MongoDB queries and bulk writes, Redis, the R2 upload and delete calls, and image uploads. The store is a sequence of records and the cache a map. JSON serialisation is the identity.
- Scheduling is not modelled: node-cron, cursors, batch logging, connection checks and timing logs. One cycle of each job is one call with an explicit `now`.
- The cache's time-to-live is recorded with each entry, but expiry over time is not modelled.
- Glob patterns interpret only `*`. Other glob metacharacters are read literally.
- The category and tag filters are modelled as case-insensitive equality and substring tests. Regular-expression metacharacters in the request are not interpreted.
- Case folding and white space cover ASCII and the JavaScript `\s` set only. Lengths count characters, not UTF-16 code units.
- `parseInt` is a parameter: the parsed value, or none. Prefix parsing of strings such as "12abc" is not modelled.
- `Math.random` in the tag-note job becomes the drawn indices, which are parameters.
- The weight table behind the scorer is not part of this model. It is a parameter.
- Mongoose internals are abstract:
  - dirty tracking becomes explicit "modified" flags;
  - the unique-index error 11000 becomes a set of taken slugs;
  - an ObjectId cast error is not modelled;
  - hooks skipped by `findOneAndUpdate`, and string-to-number casting, are not modelled;
  - the trim setters of the article schema are not modelled.
- Mixed-content change tracking and sub-documents without an `_id` are not modelled.
- `controllers/article.controller.js:203-219` stores a pending Promise as an image URL. Image handling is left out, so this is not modelled.
- Multipart flags of the article controllers are booleans in the model: truthy means `Some(true)`. Only the movie and music controllers coerce strings explicitly, and that coercion is modelled.
- The Joi schemas are modelled as a map from field names to strings. Type checks on non-string values, the extra checks behind `.email()`, error messages and `abortEarly` are not modelled.
- Prototype keys such as "constructor" are not modelled as department or template keys.
- `published_at` is an integer time. The conversion from a date string is not modelled.
- ProductCron.NewStatus: `isNewArrival` reads the clock again. The model uses the cycle's single `now`.
- ProductCron.Cycle: phases 2 and 3 read the products once, as one snapshot. Phase 2 writes only products in the map, and phase 3 reads only products outside it.
- Discount.DiscountedProduct.CalculateDiscount: the `catch` that passes an error to `next` is not reachable with plain numeric fields, so only the success path is modelled. A non-finite percentage is the value `NotFinite`.
- The rating bound 0..5 is checked in `ValidMedia` for movies and music. The review model's rating bound is not modelled, because no modelled operation writes a review.
- The other handlers of the article controllers are not modelled: `getHeadline`, `getCategoryHeadline`, `getSimilarArticles`, `getArticlesByCategory`, and the uncached `deleteArticle`. They are queries and cache plumbing of the same shape as the modelled ones.
- The music and movie handlers other than create, update and the genre listing are not modelled.
- The stored article holds the fields the update handlers and the feeds read. Tags, label, source name and creator are not among them, so an update's values for those fields are not modelled.
- The update validators run without the document bound to `this`, so the content validator reads `this.isLive` as undefined. The model follows that reading; a strict-mode `this` of null, which would make the validator throw, is not modelled.
- Mongoose validates a document before the user `pre('save')` hooks run, so a saved document whose `isLive` was switched on with text content is refused before the hook converts it. The model states what the hooks produce and does not model that refusal of the save.
- Newsroom.Newsroom.UpdateArticle: after a slug change the sweep removes `article:<new slug>` as the source does. The entry cached under the old slug is not removed, and the model leaves it in place too.
- Media.UpdateMedia: the platform URLs' `required` functions read `this`, which an update validator does not bind to the document, so the model does not run them on update. A rating sent as a string is not cast to a number.
- The query's `sort({ published_at: -1 })` is not performed by the model: candidates arrive in the store's order. FeedProperties.GeneralBlendFreshNewest, SectionProperties.FirstSixLatestNewest and SectionProperties.MixedLatestNewest take the newest-first order as a precondition.
- SpfFeed.Serve: states the intended cache, whose hit branch the source as written never reaches (Findings row on controllers/spf/feed.controller.js:24). SpfFeed.ServeAsWritten states what runs.
- SpfFeed.RepeatedRequest: states the intended cache hit on the second request. As written the second request is recomputed and answered `cached: false`, which SpfFeed.RepeatedRequestAsWritten states.
- SpfFeed.GetFeed: specified over the intended cache step, so its hit branch is unreachable in the source as written. As written it always takes the miss branch, which SpfFeed.ServeAsWritten states for the same key and payload.
- SpfFeed.GetFeedByCategory: specified over the intended cache step, so its hit branch is unreachable in the source as written. As written it always takes the miss branch, which SpfFeed.ServeAsWritten states.
- SpfFeed.GetFeedByTags: specified over the intended cache step, so its hit branch is unreachable in the source as written. As written it always takes the miss branch, which SpfFeed.ServeAsWritten states.
- models/zasp/article.model.js is not part of this model. The cached desk uses the same article rules as models/article.model.js.

## Findings

| source | as written | input that shows it | evidently intended | confidence | as-written member | corrected member |
|---|---|---|---|---|---|---|
| controllers/zasp/article.controller.js:732 | `deleteArticle` sweeps only the `articles:*`, `headline:*` and `category:*` families. So the `article:<slug>` entry that `getArticleById` caches survives the delete. | Read article "x" (cached as `article:x`), delete it, then read "x" again: the deleted article is served from the cache for up to an hour. | Delete also sweeps `article:<slug>`, `article:<id>` and the list pages, as `updateArticle` does. | not executed | Newsroom.DeletedArticleStaysCached | Newsroom.DeleteSweepRemovesArticle, Newsroom.Newsroom.DeleteArticle, Newsroom.DeleteThenRead |
| models/article.model.js:51-64 | The content validator reads `this.isLive`, but the update handlers run it as an update validator, where `this` is not the document. So given content must always be a non-blank text. | An update of a live article with body `{content: [<valid entry>]}`: the validator refuses the list and the handler answers 500. | Content sent to a live article is checked against the live-entry schema, using the live flag the article has after the update. | not executed | ArticleStore.LiveContentUpdateRefused, ArticleStore.LiveEntriesRefusedExample | ArticleStore.UpdateValidKeepsValid |
| controllers/spf/feed.controller.js:24 | `getCache` parses a stored value with `极JSON.parse`. That is one undeclared identifier, so the call throws a ReferenceError, and the `catch` answers null. Every feed read is a miss. | Two `GET /feed?limit=10` requests in a row with Redis up: both are computed from the store and answered `cached: false`. | `JSON.parse`: the second request is answered `cached: true` with the first one's payload, as in the zasp controller's `getCache`. | not executed | SpfFeed.GetAsWritten, SpfFeed.ServeAsWritten, SpfFeed.RepeatedRequestAsWritten | SpfFeed.Serve, SpfFeed.RepeatedRequest |
| controllers/movie.controller.js:152-165 | The platform loop builds the URL key `youTubeUrl` from 'youTube', but the schema field is `youtubeUrl`. | An update body `{isYouTube: 'false', youtubeUrl: 'https://youtu.be/x'}` keeps `youtubeUrl`. | The YouTube URL is cleared whenever the flag is not exactly true, as for the other platforms. | not executed | Media.YoutubeUrlKeptAsWritten, Media.YoutubeUrlKeptExample | Media.SchemaUrlsCleared, Media.UpdateMedia |

=== FILE: article_desk.dfy ===
/**
 * The uncached article desk of controllers/article.controller.js: the same
 * store as the cached desk, without a cache and with its own, simpler flag
 * rules. A create here takes no category-headline flag, and an update with
 * a truthy headline flag clears every headline, the updated article's
 * included, before the update sets it again.
 */
module ArticleDesk {
  import opened Js
  import opened ContentItem
  import opened Derive
  import opened ArticleModel
  import opened ArticleStore

  /**
   * The body rewrites of this desk: `wasLive` and the two meta fields. The
   * schema of this desk has no category-headline flag and no breaking
   * expiry, so the store drops both from the body.
   */
  function DeskRewrite(p: Patch, existing: Stored, w: Wording): Patch
  {
    p.(isCategoryHeadline := None,
       breakingExpiresAt := None,
       isLive := if Truthy(p.wasLive) then Some(false) else p.isLive,
       metaTitle := if Given(p.title) then Some(MetaTitle(p.title.value)) else p.metaTitle,
       metaDescription :=
         if Given(p.description)
         then Some(MetaDescription(if Given(p.title) then p.title.value else existing.title, p.description.value, w))
         else p.metaDescription)
  }

  /**
   * What the rewritten body does: `wasLive` takes the article off live, a
   * new title regenerates the meta title, a new description the meta
   * description from the new title or the stored one; the flags are the
   * body's own, so an update can unset a headline here; the slug, content
   * and categories the body gives are stored as given; the two fields the
   * schema lacks keep their stored values.
   */
  lemma DeskRewriteEffects(p: Patch, existing: Stored, w: Wording)
    ensures var a := Apply(existing, DeskRewrite(p, existing, w));
      && (Truthy(p.wasLive) ==> !a.isLive && a.wasLive)
      && (Given(p.title) ==> a.title == p.title.value && a.metaTitle == MetaTitle(p.title.value) && |a.metaTitle| <= MetaTitleMax)
      && (Given(p.description) ==>
            a.metaDescription == MetaDescription(if Given(p.title) then p.title.value else existing.title, p.description.value, w)
            && |a.metaDescription| <= MetaDescriptionMax)
      && a.isHeadline == Pick(p.isHeadline, existing.isHeadline)
      && a.isBreaking == Pick(p.isBreaking, existing.isBreaking)
      && a.isCategoryHeadline == existing.isCategoryHeadline
      && a.breakingExpiresAt == existing.breakingExpiresAt
      && a.id == existing.id
      && a.slug == Pick(p.slug, existing.slug) && a.content == Pick(p.content, existing.content)
      && a.category == Pick(p.category, existing.category)
  {
  }

  /** `updateMany` of the headlines when the body sets the headline flag. */
  function DeskCleared(docs: seq<Stored>, p: Patch): (d: seq<Stored>)
    ensures |d| == |docs|
    ensures Truthy(p.isHeadline) ==> forall i :: 0 <= i < |d| ==> !d[i].isHeadline
    ensures !Truthy(p.isHeadline) ==> d == docs
    ensures forall i :: 0 <= i < |d| ==> d[i].(isHeadline := docs[i].isHeadline) == docs[i]
  {
    if Truthy(p.isHeadline) then ClearHeadlines(docs) else docs
  }

  /**
   * An update keeps the store invariant: the clearing alone keeps it, which
   * is what a refused update leaves, and an accepted update keeps it when
   * the body's slug is no other article's.
   */
  lemma DeskUpdateKeepsInvariant(docs: seq<Stored>, i: nat, p: Patch, w: Wording)
    requires StoreInvariant(docs) && i < |docs|
    ensures StoreInvariant(DeskCleared(docs, p))
    ensures var d := DeskCleared(docs, p);
      !SlugTaken(d, i, p.slug) ==> StoreInvariant(d[i := Apply(docs[i], DeskRewrite(p, docs[i], w))])
    ensures Apply(DeskCleared(docs, p)[i], DeskRewrite(p, docs[i], w)) == Apply(docs[i], DeskRewrite(p, docs[i], w))
  {
    var d := DeskCleared(docs, p);
    var a := Apply(docs[i], DeskRewrite(p, docs[i], w));
    if Truthy(p.isHeadline) {
      ClearHeadlinesKeepsInvariant(docs);
    }
    if !SlugTaken(d, i, p.slug) {
      DeskRewriteEffects(p, docs[i], w);
      assert a.isHeadline ==> forall j :: 0 <= j < |d| && j != i ==> !d[j].isHeadline;
      if p.slug.None? {
        OwnSlugNotTaken(d, i);
      }
      ReplaceKeepsInvariant(d, i, a);
    }
  }

  /** `findOne({ $or: [{ _id: key }, { slug: key }] })`: the first article whose id or slug is the key. */
  function IndexOfIdOrSlug(docs: seq<Stored>, key: string): (r: Option<nat>)
    ensures r.Some? ==> r.value < |docs| && (NatToString(docs[r.value].id) == key || docs[r.value].slug == key)
    ensures r.Some? ==> forall j :: 0 <= j < r.value ==> NatToString(docs[j].id) != key && docs[j].slug != key
    ensures r.None? ==> forall j :: 0 <= j < |docs| ==> NatToString(docs[j].id) != key && docs[j].slug != key
  {
    if docs == [] then None
    else if NatToString(docs[0].id) == key || docs[0].slug == key then Some(0)
    else
      var r := IndexOfIdOrSlug(docs[1..], key);
      if r.Some? then Some(r.value + 1) else None
  }

  /** The request as this handler reads it: the category-headline flag is never taken. */
  function DeskRequest(r: CreateRequest): (q: CreateRequest)
    ensures MissingField(q) <==> MissingField(r)
    ensures !q.isCategoryHeadline && q.isHeadline == r.isHeadline
    ensures q.title == r.title && q.description == r.description && q.content == r.content
  {
    r.(isCategoryHeadline := false)
  }

  class Desk {
    var docs: seq<Stored>
    /** The default wording of the article model's meta description. */
    const wording: Wording

    predicate Valid()
      reads this
    {
      StoreInvariant(docs)
    }

    constructor(wording: Wording)
      ensures docs == [] && this.wording == wording && Valid()
    {
      docs := [];
      this.wording := wording;
    }

    /** A headline request first clears every headline. */
    method ClearForCreate(r: CreateRequest)
      requires Valid()
      modifies this
      ensures Valid()
      ensures docs == (if r.isHeadline then ClearHeadlines(old(docs)) else old(docs))
      ensures |docs| == |old(docs)| && forall i :: 0 <= i < |docs| ==> docs[i].id == old(docs)[i].id
      ensures r.isHeadline ==> forall i :: 0 <= i < |docs| ==> !docs[i].isHeadline
    {
      if r.isHeadline {
        ClearHeadlinesKeepsInvariant(docs);
        docs := ClearHeadlines(docs);
      }
    }

    /**
     * createArticle: 400 on a missing field; a headline first clears every
     * headline; 400 if the article fails validation or its slug is taken
     * (the clearing stays); otherwise it is stored. This handler reads no
     * category-headline flag.
     */
    method CreateArticle(r: CreateRequest, id: nat, entryId: nat) returns (out: Outcome<Stored>)
      requires Valid()
      requires forall i :: 0 <= i < |docs| ==> docs[i].id != id
      modifies this
      ensures Valid()
      ensures MissingField(r) ==> out == Fail(400) && docs == old(docs)
      ensures !MissingField(r) ==>
        var cleared := if r.isHeadline then ClearHeadlines(old(docs)) else old(docs);
        var a := NewArticle(DeskRequest(r), id, entryId, wording);
        && (ValidArticle(a) && IndexOfSlug(cleared, a.slug).None? ==> out == Ok(a) && docs == cleared + [a])
        && (!ValidArticle(a) || IndexOfSlug(cleared, a.slug).Some? ==> out == Fail(400) && docs == cleared)
      ensures out.Ok? ==> !out.value.isCategoryHeadline
    {
      if MissingField(r) {
        return Fail(400);
      }
      ClearForCreate(r);
      var a := NewArticle(DeskRequest(r), id, entryId, wording);
      if !ValidArticle(a) || IndexOfSlug(docs, a.slug).Some? {
        return Fail(400);
      }
      Append(a);
      out := Ok(a);
    }

    /** The `save` of a new article whose id and slug are free and that is the only headline. */
    method Append(a: Stored)
      requires Valid()
      requires forall i :: 0 <= i < |docs| ==> docs[i].id != a.id
      requires IndexOfSlug(docs, a.slug).None?
      requires a.isHeadline ==> forall i :: 0 <= i < |docs| ==> !docs[i].isHeadline
      modifies this
      ensures Valid()
      ensures docs == old(docs) + [a]
    {
      AppendKeepsInvariant(docs, a);
      docs := docs + [a];
    }

    /**
     * updateArticle by id: 404 if none; a truthy headline flag clears every
     * headline; the body is rewritten; 500 if the update validators refuse
     * it and 400 if its slug is another article's (the clearing stays
     * either way); otherwise the article is updated in place.
     */
    method UpdateArticle(id: nat, p: Patch) returns (out: Outcome<Stored>)
      requires Valid()
      modifies this
      ensures Valid()
      ensures IndexOfId(old(docs), id).None? ==> out == Fail(404) && docs == old(docs)
      ensures IndexOfId(old(docs), id).Some? ==>
        var i := IndexOfId(old(docs), id).value;
        var u := DeskRewrite(p, old(docs)[i], wording);
        var a := Apply(old(docs)[i], u);
        var cleared := DeskCleared(old(docs), p);
        var accepted := UpdateValid(u) && !SlugTaken(cleared, i, p.slug);
        && (accepted ==> out == Ok(a) && docs == cleared[i := a])
        && (!UpdateValid(u) ==> out == Fail(500))
        && (UpdateValid(u) && SlugTaken(cleared, i, p.slug) ==> out == Fail(400))
        && (!accepted ==> docs == cleared)
      ensures out.Ok? && Truthy(p.isHeadline) ==>
        out.value.isHeadline && forall j :: 0 <= j < |docs| && docs[j].id != id ==> !docs[j].isHeadline
    {
      var found := IndexOfId(docs, id);
      if found.None? {
        return Fail(404);
      }
      var i := found.value;
      var existing := docs[i];
      if Truthy(p.isHeadline) {
        docs := ClearHeadlines(docs);
      }
      DeskUpdateKeepsInvariant(old(docs), i, p, wording);
      var u := RewriteBody(p, existing);
      if !UpdateValid(u) {
        return Fail(500);
      }
      if SlugTaken(docs, i, u.slug) {
        return Fail(400);
      }
      var a := Apply(docs[i], u);
      docs := docs[i := a];
      out := Ok(a);
    }

    /** The body rewrites of updateArticle, field by field; the stored articles are not touched. */
    method RewriteBody(p: Patch, existing: Stored) returns (u: Patch)
      ensures u == DeskRewrite(p, existing, wording)
    {
      u := p.(isCategoryHeadline := None, breakingExpiresAt := None);
      if Truthy(u.wasLive) {
        u := u.(isLive := Some(false));
      }
      if Given(u.title) {
        u := u.(metaTitle := Some(MetaTitle(u.title.value)));
      }
      if Given(u.description) {
        var t := if Given(u.title) then u.title.value else existing.title;
        u := u.(metaDescription := Some(MetaDescription(t, u.description.value, wording)));
      }
    }

    /**
     * addLiveUpdate: 400 on a missing text, 404 on an unknown article, 400
     * if it is not live, 500 if the save fails; otherwise the entry is
     * appended.
     */
    method AddLiveUpdate(id: nat, lu: LiveUpdate, entryId: nat, now: Millis) returns (out: Outcome<LiveEntry>)
      requires Valid()
      modifies this
      ensures Valid()
      ensures var e := UpdateEntry(lu, entryId, now);
        && (MissingUpdateField(lu) ==> out == Fail(400))
        && (!MissingUpdateField(lu) && IndexOfId(old(docs), id).None? ==> out == Fail(404))
        && (!MissingUpdateField(lu) && IndexOfId(old(docs), id).Some? ==>
              var i := IndexOfId(old(docs), id).value;
              var a := old(docs)[i];
              && (!a.isLive ==> out == Fail(400))
              && (a.isLive && WithLiveUpdate(a, e).Fail? ==> out == Fail(500))
              && (a.isLive && WithLiveUpdate(a, e).Ok? ==> out == Ok(e) && docs == old(docs)[i := WithLiveUpdate(a, e).value]))
      ensures out.Fail? ==> docs == old(docs)
    {
      if MissingUpdateField(lu) {
        return Fail(400);
      }
      var found := IndexOfId(docs, id);
      if found.None? {
        return Fail(404);
      }
      var i := found.value;
      var a := docs[i];
      if !a.isLive {
        return Fail(400);
      }
      var e := UpdateEntry(lu, entryId, now);
      var saved := WithLiveUpdate(a, e);
      if saved.Fail? {
        return Fail(500);
      }
      ReplaceKeepsInvariant(docs, i, saved.value);
      docs := docs[i := saved.value];
      out := Ok(e);
    }

    /** markAsKeyEvent: 404 on an unknown article or entry; otherwise that entry becomes a key event. */
    method MarkAsKeyEvent(id: nat, entryId: nat) returns (out: Outcome<LiveEntry>)
      requires Valid()
      modifies this
      ensures Valid()
      ensures IndexOfId(old(docs), id).None? ==> out == Fail(404)
      ensures IndexOfId(old(docs), id).Some? ==>
        var i := IndexOfId(old(docs), id).value;
        var m := MarkedKey(old(docs)[i], entryId);
        && (m.Fail? ==> out == Fail(m.status))
        && (m.Ok? ==> out.Ok? && out.value.isKey && out.value.id == entryId && docs == old(docs)[i := m.value])
      ensures out.Fail? ==> docs == old(docs)
    {
      var found := IndexOfId(docs, id);
      if found.None? {
        return Fail(404);
      }
      var i := found.value;
      var m := MarkedKey(docs[i], entryId);
      if m.Fail? {
        return Fail(m.status);
      }
      MarkedKeyOnlyThat(docs[i], entryId);
      var k := FirstEntry(docs[i].content.entries, entryId).value;
      ReplaceKeepsInvariant(docs, i, m.value);
      docs := docs[i := m.value];
      out := Ok(m.value.content.entries[k]);
    }

    /** endLiveArticle: 404 on an unknown article; otherwise it is no longer live and was live. */
    method EndLive(id: nat) returns (out: Outcome<Stored>)
      requires Valid()
      modifies this
      ensures Valid()
      ensures IndexOfId(old(docs), id).None? ==> out == Fail(404) && docs == old(docs)
      ensures IndexOfId(old(docs), id).Some? ==>
        var i := IndexOfId(old(docs), id).value;
        out == Ok(Ended(old(docs)[i])) && docs == old(docs)[i := Ended(old(docs)[i])]
    {
      var found := IndexOfId(docs, id);
      if found.None? {
        return Fail(404);
      }
      var i := found.value;
      var a := Ended(docs[i]);
      ReplaceKeepsInvariant(docs, i, a);
      docs := docs[i := a];
      out := Ok(a);
    }

    /**
     * getArticles: page and limit default to 1 and 10 when missing, zero or
     * not numbers; a negative skip is refused by the store with 500.
     */
    method GetArticles(parsedPage: Option<int>, parsedLimit: Option<int>) returns (out: Outcome<Payload>)
      ensures var page := ParsedOr(parsedPage, 1);
        var limit := ParsedOr(parsedLimit, 10);
        && (Skip(page, limit) < 0 ==> out == Fail(500))
        && (0 <= Skip(page, limit) ==> out == Ok(ListPayload(docs, page, limit)))
    {
      var page := ParsedOr(parsedPage, 1);
      var limit := ParsedOr(parsedLimit, 10);
      if Skip(page, limit) < 0 {
        return Fail(500);
      }
      out := Ok(ListPayload(docs, page, limit));
    }

    /**
     * getArticleById: the first article whose id or slug is the key, with
     * its key events; 404 if none, 500 if its key events cannot be read.
     */
    method GetArticleById(key: string) returns (out: Outcome<Payload>)
      ensures IndexOfIdOrSlug(docs, key).None? ==> out == Fail(404)
      ensures IndexOfIdOrSlug(docs, key).Some? ==>
        var a := docs[IndexOfIdOrSlug(docs, key).value];
        && (KeyEvents(a).Fail? ==> out == Fail(500))
        && (KeyEvents(a).Ok? ==> out == Ok(ArticleView(a, KeyEvents(a).value)))
      ensures out.Ok? ==> (out.value.keyEvents.Some? <==> out.value.article.isLive)
    {
      var found := IndexOfIdOrSlug(docs, key);
      if found.None? {
        return Fail(404);
      }
      var a := docs[found.value];
      var events := KeyEvents(a);
      if events.Fail? {
        return Fail(500);
      }
      out := Ok(ArticleView(a, events.value));
    }
  }
}

=== FILE: article_model.dfy ===
/**
 * The article document of models/article.model.js: its `content` field,
 * which is a text for an ordinary article and a list of live entries for a
 * live one, the validator that enforces this, the conversion of a text into
 * a live entry, and the two pre-save hooks (going live, and the slug).
 * Mongoose's dirty tracking is replaced by explicit "modified" flags.
 */
module ArticleModel {
  import opened Js
  import opened ContentItem
  import opened Derive

  /** One entry of a live article; `id` is the sub-document id the store assigns. */
  datatype LiveEntry = LiveEntry(
    id: nat,
    title: string,
    description: string,
    detail: string,
    image: Option<string>,
    publishedAt: Millis,
    isKey: bool)

  /** The mixed `content` field: a text, a list of texts, or a list of live entries. */
  datatype Content =
    | Text(text: string)
    | Texts(items: seq<string>)
    | Entries(entries: seq<LiveEntry>)

  /** The three text fields of a live entry are required and trimmed. */
  predicate ValidEntry(e: LiveEntry)
  {
    Trim(e.title) != "" && Trim(e.description) != "" && Trim(e.detail) != ""
  }

  /**
   * The content validator: a live article needs a list every item of which
   * is a valid live entry (an empty list passes, a text item never does); any
   * other article needs a text that is not blank.
   */
  predicate ValidContent(isLive: bool, content: Content)
  {
    if isLive then
      match content
      case Text(_) => false
      case Texts(items) => items == []
      case Entries(es) => forall i :: 0 <= i < |es| ==> ValidEntry(es[i])
    else
      content.Text? && Trim(content.text) != ""
  }

  /** The entries of a live article that are marked as key events. */
  function KeyEntries(es: seq<LiveEntry>): (r: seq<LiveEntry>)
    ensures |r| <= |es|
    ensures forall e :: e in r <==> e in es && e.isKey
  {
    if es == [] then []
    else (if es[0].isKey then [es[0]] else []) + KeyEntries(es[1..])
  }

  /**
   * The filter keeps order and multiplicity: it distributes over
   * concatenation, and one entry is kept exactly when it is a key event.
   */
  lemma {:induction false} KeyEntriesAppend(a: seq<LiveEntry>, b: seq<LiveEntry>)
    ensures KeyEntries(a + b) == KeyEntries(a) + KeyEntries(b)
    ensures |a| == 1 ==> KeyEntries(a) == (if a[0].isKey then a else [])
  {
    if a != [] {
      assert (a + b)[0] == a[0] && (a + b)[1..] == a[1..] + b;
      KeyEntriesAppend(a[1..], b);
      var head := if a[0].isKey then [a[0]] else [];
      assert head + (KeyEntries(a[1..]) + KeyEntries(b)) == (head + KeyEntries(a[1..])) + KeyEntries(b);
    } else {
      assert a + b == b;
    }
  }

  /**
   * createLiveArticleFromString: a live entry carrying the article's title,
   * description, image and date around the given text, not a key event.
   */
  function EntryFromString(title: string, description: string, image: Option<string>, publishedAt: Millis,
                           text: string, id: nat): (e: LiveEntry)
    ensures e.detail == text && !e.isKey && e.id == id
    ensures ValidEntry(e) <==> Trim(title) != "" && Trim(description) != "" && Trim(text) != ""
  {
    LiveEntry(id, title, description, text, image, publishedAt, false)
  }

  /** The article document as its two pre-save hooks see it. */
  class ArticleDoc {
    var title: string
    var description: string
    var content: Content
    var isLive: bool
    var wasLive: bool
    var slug: string
    var imageUrl: Option<string>
    var publishedAt: Millis

    constructor(title: string, description: string, content: Content, isLive: bool, imageUrl: Option<string>, publishedAt: Millis)
      ensures this.title == title && this.description == description && this.content == content
      ensures this.isLive == isLive && !wasLive && slug == ""
      ensures this.imageUrl == imageUrl && this.publishedAt == publishedAt
    {
      this.title := title;
      this.description := description;
      this.content := content;
      this.isLive := isLive;
      this.wasLive := false;
      this.slug := "";
      this.imageUrl := imageUrl;
      this.publishedAt := publishedAt;
    }

    /** The live form of content this document holds, entry ids counted from firstId. */
    function LiveForm(c: Content, firstId: nat): (r: Content)
      reads this
      ensures c.Text? ==> r.Entries? && |r.entries| == 1 && r.entries[0].detail == c.text
      ensures c.Texts? && c.items != [] ==>
        r.Entries? && |r.entries| == |c.items| && forall i :: 0 <= i < |c.items| ==> r.entries[i].detail == c.items[i]
      ensures r.Entries? && (c.Text? || c.Texts?) ==> forall i :: 0 <= i < |r.entries| ==> !r.entries[i].isKey
      ensures c.Entries? || (c.Texts? && c.items == []) ==> r == c
    {
      match c
      case Text(t) => Entries([EntryFromString(title, description, imageUrl, publishedAt, t, firstId)])
      case Texts(items) =>
        if items == [] then c
        else
          var (t, d, img, at) := (title, description, imageUrl, publishedAt);
          Entries(seq(|items|, i requires 0 <= i < |items| => EntryFromString(t, d, img, at, items[i], firstId + i)))
      case Entries(_) => c
    }

    /**
     * The first pre-save hook: an article that has just gone live has its
     * text (or each text of a list) turned into live entries; an article that
     * has just been marked as formerly live is taken off live, after the
     * conversion.
     */
    method PreSaveLive(isLiveModified: bool, wasLiveModified: bool, firstId: nat)
      modifies this
      ensures content == (if isLiveModified && old(isLive) then old(LiveForm(content, firstId)) else old(content))
      ensures isLive == (old(isLive) && !(wasLiveModified && old(wasLive)))
      ensures title == old(title) && description == old(description) && wasLive == old(wasLive)
      ensures slug == old(slug) && imageUrl == old(imageUrl) && publishedAt == old(publishedAt)
      ensures wasLiveModified && wasLive ==> !isLive
    {
      if isLiveModified && isLive {
        content := LiveForm(content, firstId);
      }
      if wasLiveModified && wasLive {
        isLive := false;
      }
    }

    /** The second pre-save hook: a changed title gives a new slug. */
    method PreSaveSlug(titleModified: bool)
      modifies this
      ensures slug == (if titleModified then Slug(title) else old(slug))
      ensures titleModified ==> IsSlug(slug)
      ensures title == old(title) && description == old(description) && content == old(content)
      ensures isLive == old(isLive) && wasLive == old(wasLive)
      ensures imageUrl == old(imageUrl) && publishedAt == old(publishedAt)
    {
      if titleModified {
        slug := Slug(title);
        SlugIsSlug(title);
      }
    }
  }

  /**
   * An article that goes live with a text ends up with valid live content
   * exactly when its title, description and text are not blank.
   */
  lemma GoingLiveValid(doc: ArticleDoc, t: string, firstId: nat)
    ensures var r := doc.LiveForm(Text(t), firstId);
      ValidContent(true, r) <==> Trim(doc.title) != "" && Trim(doc.description) != "" && Trim(t) != ""
  {
    var r := doc.LiveForm(Text(t), firstId);
    assert r.entries[0] == EntryFromString(doc.title, doc.description, doc.imageUrl, doc.publishedAt, t, firstId);
  }

  /** An article marked as formerly live is not live after the hooks, whatever else changed. */
  method SaveHooks(doc: ArticleDoc, isLiveModified: bool, wasLiveModified: bool, titleModified: bool, firstId: nat)
    modifies doc
    ensures wasLiveModified && doc.wasLive ==> !doc.isLive
    ensures titleModified ==> doc.slug == Slug(doc.title) && IsSlug(doc.slug)
    ensures isLiveModified && old(doc.isLive) && old(doc.content).Text? ==>
      doc.content.Entries? && |doc.content.entries| == 1
      && doc.content.entries[0].detail == old(doc.content).text && !doc.content.entries[0].isKey
  {
    doc.PreSaveLive(isLiveModified, wasLiveModified, firstId);
    doc.PreSaveSlug(titleModified);
  }
}

=== FILE: article_store.dfy ===
/**
 * The article store both article controllers work on
 * (controllers/article.controller.js and controllers/zasp/article.controller.js):
 * the stored document, the create request and the update body, the
 * store-wide flag clearing, the look-ups by id and by slug, and the
 * pagination arithmetic of the article listings.
 */
module ArticleStore {
  import opened Js
  import opened ContentItem
  import opened Sorting
  import opened Derive
  import opened ArticleModel

  /** A stored article. */
  datatype Stored = Stored(
    id: nat,
    slug: string,
    title: string,
    description: string,
    content: Content,
    category: seq<string>,
    isLive: bool,
    wasLive: bool,
    isBreaking: bool,
    breakingExpiresAt: Option<Millis>,
    isHeadline: bool,
    isCategoryHeadline: bool,
    metaTitle: string,
    metaDescription: string,
    publishedAt: Millis,
    imageUrl: Option<string>)

  /** A handler's answer: a value, or the HTTP status of its failure. */
  datatype Outcome<T> = Ok(value: T) | Fail(status: nat)

  /** The `category` of a request: missing, one name, or a list of names. */
  datatype CategoryField = NoCategory | One(name: string) | Many(names: seq<string>)

  /** `!category` is false for any list and for a non-empty name. */
  predicate HasCategory(c: CategoryField)
  {
    c.Many? || (c.One? && c.name != "")
  }

  /** `Array.isArray(category) ? category : [category]`. */
  function CategoryList(c: CategoryField): seq<string>
  {
    match c
    case NoCategory => []
    case One(n) => [n]
    case Many(ns) => ns
  }

  /** The fields of a create request (flags already read as booleans). */
  datatype CreateRequest = CreateRequest(
    title: string,
    description: string,
    content: string,
    category: CategoryField,
    isLive: bool,
    isBreaking: bool,
    isHeadline: bool,
    isCategoryHeadline: bool,
    publishedAt: Option<Millis>,
    imageUrl: Option<string>,
    contentImageUrl: Option<string>)

  /** The 400 check of both createArticle handlers. */
  predicate MissingField(r: CreateRequest)
  {
    r.title == "" || r.description == "" || r.content == "" || r.publishedAt.None? || !HasCategory(r.category)
  }

  /** Every text of a list is non-blank once trimmed: `required` and `trim` on each category. */
  predicate NonBlankAll(names: seq<string>)
  {
    forall i :: 0 <= i < |names| ==> Trim(names[i]) != ""
  }

  /**
   * What the schema demands of a saved article: a title and description,
   * content that fits `isLive`, and no category that is blank once trimmed.
   */
  predicate ValidArticle(a: Stored)
  {
    Trim(a.title) != "" && Trim(a.description) != "" && ValidContent(a.isLive, a.content)
    && NonBlankAll(a.category)
  }

  /** The content a create stores: one live entry, or the text itself. */
  function NewContent(r: CreateRequest, entryId: nat): (c: Content)
    requires !MissingField(r)
    ensures ValidContent(r.isLive, c) <==>
      Trim(r.content) != "" && (r.isLive ==> Trim(r.title) != "" && Trim(r.description) != "")
  {
    var image := if r.contentImageUrl.Some? then r.contentImageUrl else r.imageUrl;
    if r.isLive then
      var e := EntryFromString(r.title, r.description, image, r.publishedAt.value, r.content, entryId);
      assert [e][0] == e;
      assert ValidContent(true, Entries([e])) <==> ValidEntry(e);
      Entries([e])
    else Text(r.content)
  }

  /**
   * The article a create builds: live content is one entry made of the
   * title, description and content with the content image falling back to
   * the thumbnail; the category is always a list; the slug comes from the
   * pre-save hook and the meta fields from the generators.
   */
  function NewArticle(r: CreateRequest, id: nat, entryId: nat, w: Wording): (a: Stored)
    requires !MissingField(r)
    ensures a.id == id && a.title == r.title && a.description == r.description && a.category == CategoryList(r.category)
    ensures a.isLive == r.isLive && !a.wasLive && a.isHeadline == r.isHeadline && a.isCategoryHeadline == r.isCategoryHeadline
    ensures a.content == NewContent(r, entryId)
  {
    Stored(id, Slug(r.title), r.title, r.description, NewContent(r, entryId), CategoryList(r.category),
           r.isLive, false, r.isBreaking, None, r.isHeadline, r.isCategoryHeadline,
           MetaTitle(r.title), MetaDescription(r.title, r.description, w), r.publishedAt.value, r.imageUrl)
  }

  /**
   * What a create stores: live content is one entry made of the title,
   * description and content, not a key event, with the content image falling
   * back to the thumbnail; other content is the text itself; the slug is a
   * slug, the meta fields fit their bounds, and the article passes the
   * validators exactly when title, description, content and every category
   * are not blank.
   */
  lemma NewArticleFacts(r: CreateRequest, id: nat, entryId: nat, w: Wording)
    requires !MissingField(r)
    ensures var a := NewArticle(r, id, entryId, w);
      && (a.isLive ==>
            a.content.Entries? && |a.content.entries| == 1
            && a.content.entries[0].detail == r.content && !a.content.entries[0].isKey
            && a.content.entries[0].image == (if r.contentImageUrl.Some? then r.contentImageUrl else r.imageUrl))
      && (!a.isLive ==> a.content == Text(r.content))
      && IsSlug(a.slug) && |a.metaTitle| <= MetaTitleMax && |a.metaDescription| <= MetaDescriptionMax
      && (ValidArticle(a) <==>
            Trim(r.title) != "" && Trim(r.description) != "" && Trim(r.content) != ""
            && NonBlankAll(CategoryList(r.category)))
  {
    SlugIsSlug(r.title);
  }

  /** A category of spaces passes the early 400 check but fails the per-element validator. */
  lemma BlankCategoryRefused(r: CreateRequest, id: nat, entryId: nat, w: Wording)
    requires !MissingField(r) && r.category == One("   ")
    ensures !ValidArticle(NewArticle(r, id, entryId, w))
  {
    var spaces := "   ";
    assert forall i :: 0 <= i < |spaces| ==> IsSpace(spaces[i]);
    assert Trim(spaces) == "";
    assert [spaces][0] == spaces;
  }

  /**
   * An update body: each field is absent or given (flags already read as
   * booleans). The whole request body reaches the store, so the slug, the
   * content and the categories can be given as well.
   */
  datatype Patch = Patch(
    title: Option<string>,
    description: Option<string>,
    slug: Option<string>,
    content: Option<Content>,
    category: Option<seq<string>>,
    isLive: Option<bool>,
    wasLive: Option<bool>,
    isBreaking: Option<bool>,
    breakingExpiresAt: Option<Option<Millis>>,
    isHeadline: Option<bool>,
    isCategoryHeadline: Option<bool>,
    metaTitle: Option<string>,
    metaDescription: Option<string>,
    publishedAt: Option<Millis>)

  /** The body that names no field. */
  const EmptyPatch := Patch(None, None, None, None, None, None, None, None, None, None, None, None, None, None)

  /** A flag of the body that is given and true. */
  predicate Truthy(o: Option<bool>)
  {
    o == Some(true)
  }

  /** A text of the body that is given and not empty. */
  predicate Given(o: Option<string>)
  {
    o.Some? && o.value != ""
  }

  function Pick<T>(o: Option<T>, current: T): T
  {
    if o.Some? then o.value else current
  }

  /**
   * The stored article after an update with the body: the given fields
   * replace the stored ones, and the id never changes.
   */
  function Apply(a: Stored, u: Patch): (r: Stored)
    ensures r.id == a.id && r.imageUrl == a.imageUrl
    ensures u == EmptyPatch ==> r == a
    ensures u.slug.None? ==> r.slug == a.slug
    ensures u.slug.Some? ==> r.slug == u.slug.value
    ensures u.content.None? ==> r.content == a.content
    ensures u.content.Some? ==> r.content == u.content.value
    ensures u.category.None? ==> r.category == a.category
    ensures u.category.Some? ==> r.category == u.category.value
    ensures u.isHeadline.None? ==> r.isHeadline == a.isHeadline
    ensures u.isCategoryHeadline.None? ==> r.isCategoryHeadline == a.isCategoryHeadline
  {
    a.(title := Pick(u.title, a.title),
       description := Pick(u.description, a.description),
       slug := Pick(u.slug, a.slug),
       content := Pick(u.content, a.content),
       category := Pick(u.category, a.category),
       isLive := Pick(u.isLive, a.isLive),
       wasLive := Pick(u.wasLive, a.wasLive),
       isBreaking := Pick(u.isBreaking, a.isBreaking),
       breakingExpiresAt := Pick(u.breakingExpiresAt, a.breakingExpiresAt),
       isHeadline := Pick(u.isHeadline, a.isHeadline),
       isCategoryHeadline := Pick(u.isCategoryHeadline, a.isCategoryHeadline),
       metaTitle := Pick(u.metaTitle, a.metaTitle),
       metaDescription := Pick(u.metaDescription, a.metaDescription),
       publishedAt := Pick(u.publishedAt, a.publishedAt))
  }

  /** Sending the same body twice stores the same article as sending it once. */
  lemma ApplyIdempotent(a: Stored, u: Patch)
    ensures Apply(Apply(a, u), u) == Apply(a, u)
  {
  }

  /**
   * The update validators as they run: only on the paths the body names,
   * with `this` not bound to the document. A given title or description may
   * not be blank, nor may any given category. The content validator reads
   * `this.isLive`, which is undefined there, so given content must be a
   * non-blank text whatever the article's live flag.
   */
  predicate UpdateValid(u: Patch)
  {
    (u.title.Some? ==> Trim(u.title.value) != "")
    && (u.description.Some? ==> Trim(u.description.value) != "")
    && (u.category.Some? ==> NonBlankAll(u.category.value))
    && (u.content.Some? ==> ValidContent(false, u.content.value))
  }

  /**
   * As written, content sent to a live article is never valid for it: the
   * validators accept only a text, and a live article's content must be
   * entries. So a list of valid entries sent to a live article is refused.
   */
  lemma LiveContentUpdateRefused(a: Stored, u: Patch)
    requires UpdateValid(u) && u.content.Some? && Apply(a, u).isLive
    ensures !ValidArticle(Apply(a, u))
  {
  }

  /**
   * A concrete case: one valid entry sent as the content of a live article
   * fails the validators as written, though the intended validators accept
   * it and the article it would store is valid.
   */
  lemma LiveEntriesRefusedExample(a: Stored, e: LiveEntry)
    requires a.isLive && ValidEntry(e)
    ensures var u := EmptyPatch.(content := Some(Entries([e])));
      && !UpdateValid(u)
      && IntendedUpdateValid(a, u)
      && (ValidArticle(a) ==> ValidArticle(Apply(a, u)))
  {
  }

  /**
   * The update validators as the content validator evidently intends them:
   * given content must fit the live flag the article has after the update.
   */
  predicate IntendedUpdateValid(a: Stored, u: Patch)
  {
    (u.title.Some? ==> Trim(u.title.value) != "")
    && (u.description.Some? ==> Trim(u.description.value) != "")
    && (u.category.Some? ==> NonBlankAll(u.category.value))
    && (u.content.Some? ==> ValidContent(Pick(u.isLive, a.isLive), u.content.value))
  }

  /**
   * Under the intended validators a valid article stays valid, provided the
   * body does not switch the live flag without sending content: no hook
   * converts the content on an update.
   */
  lemma UpdateValidKeepsValid(a: Stored, u: Patch)
    requires ValidArticle(a) && IntendedUpdateValid(a, u)
    requires u.isLive.None? || u.content.Some?
    ensures ValidArticle(Apply(a, u))
  {
  }

  /**
   * The excluded case happens: a body that only switches a text article
   * live passes both the written and the intended validators and leaves an
   * invalid article.
   */
  lemma GoingLiveByUpdateInvalid(a: Stored)
    requires ValidArticle(a) && !a.isLive
    ensures var u := EmptyPatch.(isLive := Some(true));
      UpdateValid(u) && IntendedUpdateValid(a, u) && !ValidArticle(Apply(a, u))
  {
  }

  /** The unique index on `slug`: another article than the one at i already has the slug the body gives. */
  predicate SlugTaken(docs: seq<Stored>, i: nat, slug: Option<string>)
  {
    slug.Some? && exists j | 0 <= j < |docs| :: j != i && docs[j].slug == slug.value
  }

  /** `updateMany({ isHeadline: true }, { $set: { isHeadline: false } })`. */
  function ClearHeadlines(docs: seq<Stored>): (r: seq<Stored>)
    ensures |r| == |docs|
    ensures forall i :: 0 <= i < |r| ==> !r[i].isHeadline && r[i].(isHeadline := docs[i].isHeadline) == docs[i]
  {
    seq(|docs|, i requires 0 <= i < |docs| => docs[i].(isHeadline := false))
  }

  /** Some category of a is one of cats. */
  predicate SharesCategory(a: Stored, cats: seq<string>)
  {
    exists c :: c in a.category && c in cats
  }

  /** `updateMany({ category: { $in: cats }, isCategoryHeadline: true }, { $set: { isCategoryHeadline: false } })`. */
  function ClearCategoryHeadlines(docs: seq<Stored>, cats: seq<string>): (r: seq<Stored>)
    ensures |r| == |docs|
    ensures forall i :: 0 <= i < |r| ==>
      (r[i].isCategoryHeadline <==> docs[i].isCategoryHeadline && !SharesCategory(docs[i], cats))
      && r[i].(isCategoryHeadline := docs[i].isCategoryHeadline) == docs[i]
  {
    seq(|docs|, i requires 0 <= i < |docs| =>
      if SharesCategory(docs[i], cats) then docs[i].(isCategoryHeadline := false) else docs[i])
  }

  /** `findById`: the position of the article with the id. */
  function IndexOfId(docs: seq<Stored>, id: nat): (r: Option<nat>)
    ensures r.Some? ==> r.value < |docs| && docs[r.value].id == id && forall j :: 0 <= j < r.value ==> docs[j].id != id
    ensures r.None? ==> forall j :: 0 <= j < |docs| ==> docs[j].id != id
  {
    if docs == [] then None
    else if docs[0].id == id then Some(0)
    else
      var r := IndexOfId(docs[1..], id);
      if r.Some? then Some(r.value + 1) else None
  }

  /** `findOne({ slug })`: the position of the article with the slug. */
  function IndexOfSlug(docs: seq<Stored>, slug: string): (r: Option<nat>)
    ensures r.Some? ==> r.value < |docs| && docs[r.value].slug == slug && forall j :: 0 <= j < r.value ==> docs[j].slug != slug
    ensures r.None? ==> forall j :: 0 <= j < |docs| ==> docs[j].slug != slug
  {
    if docs == [] then None
    else if docs[0].slug == slug then Some(0)
    else
      var r := IndexOfSlug(docs[1..], slug);
      if r.Some? then Some(r.value + 1) else None
  }

  predicate UniqueIds(docs: seq<Stored>)
  {
    forall i, j :: 0 <= i < j < |docs| ==> docs[i].id != docs[j].id
  }

  /** The unique index on `slug`. */
  predicate UniqueSlugs(docs: seq<Stored>)
  {
    forall i, j :: 0 <= i < j < |docs| ==> docs[i].slug != docs[j].slug
  }

  /** At most one article is the headline. */
  predicate OneHeadline(docs: seq<Stored>)
  {
    forall i, j :: 0 <= i < |docs| && 0 <= j < |docs| && docs[i].isHeadline && docs[j].isHeadline ==> i == j
  }

  /** The invariant both stores keep. */
  predicate StoreInvariant(docs: seq<Stored>)
  {
    UniqueIds(docs) && UniqueSlugs(docs) && OneHeadline(docs)
  }

  /** Appending an article with a new id and slug keeps the invariant, provided it is the only headline. */
  lemma AppendKeepsInvariant(docs: seq<Stored>, a: Stored)
    requires StoreInvariant(docs)
    requires forall i :: 0 <= i < |docs| ==> docs[i].id != a.id && docs[i].slug != a.slug
    requires a.isHeadline ==> forall i :: 0 <= i < |docs| ==> !docs[i].isHeadline
    ensures StoreInvariant(docs + [a])
  {
  }

  /** Changing flags and text fields, but neither ids nor slugs, keeps ids and slugs unique. */
  lemma SameKeysKeepUnique(docs: seq<Stored>, r: seq<Stored>)
    requires UniqueIds(docs) && UniqueSlugs(docs)
    requires |r| == |docs|
    requires forall i :: 0 <= i < |r| ==> r[i].id == docs[i].id && r[i].slug == docs[i].slug
    ensures UniqueIds(r) && UniqueSlugs(r)
  {
  }

  /** After clearing, no article is the headline and nothing else has changed. */
  lemma ClearHeadlinesKeepsInvariant(docs: seq<Stored>)
    requires StoreInvariant(docs)
    ensures StoreInvariant(ClearHeadlines(docs))
    ensures forall i :: 0 <= i < |docs| ==> !ClearHeadlines(docs)[i].isHeadline
  {
    SameKeysKeepUnique(docs, ClearHeadlines(docs));
  }

  /** Clearing category headlines touches neither ids, slugs nor headlines. */
  lemma ClearCategoryKeepsInvariant(docs: seq<Stored>, cats: seq<string>)
    requires StoreInvariant(docs)
    ensures StoreInvariant(ClearCategoryHeadlines(docs, cats))
  {
    var r := ClearCategoryHeadlines(docs, cats);
    SameKeysKeepUnique(docs, r);
    assert forall i :: 0 <= i < |r| ==> r[i].isHeadline == docs[i].isHeadline;
  }

  /** The store with the article at position i removed. */
  function RemoveAt(docs: seq<Stored>, i: nat): (r: seq<Stored>)
    requires i < |docs|
    ensures |r| == |docs| - 1
    ensures forall a :: a in r ==> a in docs
    ensures UniqueIds(docs) ==> forall j :: 0 <= j < |r| ==> r[j].id != docs[i].id
  {
    docs[..i] + docs[i + 1..]
  }

  /** Deleting an article keeps the invariant. */
  lemma RemoveKeepsInvariant(docs: seq<Stored>, i: nat)
    requires StoreInvariant(docs) && i < |docs|
    ensures StoreInvariant(RemoveAt(docs, i))
  {
    var r := RemoveAt(docs, i);
    assert forall j :: 0 <= j < |r| ==> r[j] == (if j < i then docs[j] else docs[j + 1]);
  }

  /**
   * `isLive ? content.filter(item => item.isKey) : null`: the key events of
   * a live article, none for one that is not live. A live article whose
   * content is a text has no `filter` and the handler fails with 500; text
   * items of a list carry no flag and are left out.
   */
  function KeyEvents(a: Stored): (r: Outcome<Option<seq<LiveEntry>>>)
    ensures !a.isLive <==> r == Ok(None)
    ensures a.isLive && a.content.Entries? ==>
      r.Ok? && r.value.Some? && forall e :: e in r.value.value <==> e in a.content.entries && e.isKey
    ensures a.isLive && a.content.Texts? ==> r == Ok(Some([]))
    ensures r.Fail? <==> a.isLive && a.content.Text?
  {
    if !a.isLive then Ok(None)
    else
      match a.content
      case Text(_) => Fail(500)
      case Texts(_) => Ok(Some([]))
      case Entries(es) => Ok(Some(KeyEntries(es)))
  }

  /** The body of a live update (the flag already read as a boolean). */
  datatype LiveUpdate = LiveUpdate(title: string, description: string, detail: string, image: Option<string>, isKey: bool)

  /** The 400 check of addLiveUpdate. */
  predicate MissingUpdateField(u: LiveUpdate)
  {
    u.title == "" || u.description == "" || u.detail == ""
  }

  /** The entry a live update appends: stamped with the time of the request, not a key event unless flagged. */
  function UpdateEntry(u: LiveUpdate, entryId: nat, now: Millis): (e: LiveEntry)
    ensures e.id == entryId && e.publishedAt == now && e.isKey == u.isKey && e.detail == u.detail
    ensures ValidEntry(e) <==> Trim(u.title) != "" && Trim(u.description) != "" && Trim(u.detail) != ""
  {
    LiveEntry(entryId, u.title, u.description, u.detail, u.image, now, u.isKey)
  }

  /** The live entries a content holds; none for a text or a list of texts. */
  function EntriesOf(c: Content): seq<LiveEntry>
  {
    if c.Entries? then c.entries else []
  }

  /**
   * `article.save()`: the validators run, and an article that fails them is
   * not stored; the handler answers 500.
   */
  function Saved(a: Stored): (r: Outcome<Stored>)
    ensures r.Ok? <==> ValidArticle(a)
    ensures r.Ok? ==> r.value == a
    ensures r.Fail? ==> r.status == 500
  {
    if ValidArticle(a) then Ok(a) else Fail(500)
  }

  /**
   * `article.content.push(update)`: the list grows by the entry at its end.
   * A text has no `push`, and a list of texts with an entry added can never
   * pass the validator, so neither gives content to save.
   */
  function Pushed(c: Content, e: LiveEntry): (r: Option<Content>)
    ensures r.Some? <==> c.Entries? || c == Texts([])
    ensures r.Some? ==> r.value == Entries(EntriesOf(c) + [e])
  {
    match c
    case Text(_) => None
    case Texts(items) =>
      if items == [] then
        assert EntriesOf(c) + [e] == [e];
        Some(Entries([e]))
      else None
    case Entries(es) => Some(Entries(es + [e]))
  }

  /** The push followed by `save()`; every failure is a 500. */
  function WithLiveUpdate(a: Stored, e: LiveEntry): (r: Outcome<Stored>)
    ensures r.Ok? <==> Pushed(a.content, e).Some? && ValidArticle(a.(content := Pushed(a.content, e).value))
    ensures r.Ok? ==> r.value == a.(content := Entries(EntriesOf(a.content) + [e])) && ValidArticle(r.value)
    ensures r.Fail? ==> r.status == 500
  {
    var c := Pushed(a.content, e);
    if c.None? then Fail(500) else Saved(a.(content := c.value))
  }

  /** Only the content changed, so only the content validator can decide. */
  lemma ValidWithContent(a: Stored, c: Content)
    requires ValidArticle(a)
    requires ValidContent(a.isLive, c)
    ensures ValidArticle(a.(content := c))
  {
  }

  /**
   * A live article that satisfies the validators takes any live update whose
   * three texts are not blank, and keeps every earlier entry in place.
   */
  lemma LiveUpdateAccepted(a: Stored, e: LiveEntry)
    requires a.isLive && ValidArticle(a) && ValidEntry(e)
    ensures WithLiveUpdate(a, e).Ok?
    ensures var es := WithLiveUpdate(a, e).value.content.entries;
      |es| == |EntriesOf(a.content)| + 1 && es[..|es| - 1] == EntriesOf(a.content) && es[|es| - 1] == e
  {
    var old_ := EntriesOf(a.content);
    var es := old_ + [e];
    assert a.content.Entries? || a.content == Texts([]);
    assert es[..|es| - 1] == old_;
    forall i | 0 <= i < |es| ensures ValidEntry(es[i]) {
      if i < |old_| {
        assert es[i] == a.content.entries[i];
      }
    }
    ValidWithContent(a, Entries(es));
  }

  /** `content.findIndex(item => item._id == updateId)`: the first entry with the id. */
  function FirstEntry(es: seq<LiveEntry>, entryId: nat): (r: Option<nat>)
    ensures r.Some? ==> r.value < |es| && es[r.value].id == entryId && forall j :: 0 <= j < r.value ==> es[j].id != entryId
    ensures r.None? ==> forall j :: 0 <= j < |es| ==> es[j].id != entryId
  {
    if es == [] then None
    else if es[0].id == entryId then Some(0)
    else
      var r := FirstEntry(es[1..], entryId);
      if r.Some? then Some(r.value + 1) else None
  }

  /**
   * markAsKeyEvent on a found article: 404 when no entry has the id, 500 when
   * the content is a text or a list of texts (neither has entry ids),
   * otherwise the first entry with the id becomes a key event and the
   * article is saved.
   */
  function MarkedKey(a: Stored, entryId: nat): (r: Outcome<Stored>)
    ensures r == Fail(404) <==> a.content == Texts([]) || (a.content.Entries? && FirstEntry(a.content.entries, entryId).None?)
    ensures r.Fail? ==> r.status == 404 || r.status == 500
    ensures r.Ok? ==> a.content.Entries? && FirstEntry(a.content.entries, entryId).Some? && ValidArticle(r.value)
  {
    match a.content
    case Text(_) => Fail(500)
    case Texts(items) => if items == [] then Fail(404) else Fail(500)
    case Entries(es) =>
      var k := FirstEntry(es, entryId);
      if k.None? then Fail(404)
      else Saved(a.(content := Entries(es[k.value := es[k.value].(isKey := true)])))
  }

  /**
   * Marking changes the one entry found, and nothing else: it becomes a key
   * event and, on a live article, shows among the key events.
   */
  lemma MarkedKeyOnlyThat(a: Stored, entryId: nat)
    requires MarkedKey(a, entryId).Ok?
    ensures var r := MarkedKey(a, entryId).value;
      var k := FirstEntry(a.content.entries, entryId).value;
      && r == a.(content := r.content) && r.content.Entries?
      && |r.content.entries| == |a.content.entries|
      && r.content.entries[k] == a.content.entries[k].(isKey := true)
      && (forall j :: 0 <= j < |r.content.entries| && j != k ==> r.content.entries[j] == a.content.entries[j])
      && (r.isLive ==> KeyEvents(r).Ok? && r.content.entries[k] in KeyEvents(r).value.value)
  {
  }

  /** endLiveArticle: `{ isLive: false, wasLive: true }`, without validators. */
  function Ended(a: Stored): (r: Stored)
    ensures !r.isLive && r.wasLive && KeyEvents(r) == Ok(None)
    ensures r.(isLive := a.isLive, wasLive := a.wasLive) == a
  {
    a.(isLive := false, wasLive := true)
  }

  /**
   * Rewriting the article at position i keeps the invariant when its id
   * stays, its slug is not another article's, and it becomes the headline
   * only when no other article is.
   */
  lemma ReplaceKeepsInvariant(docs: seq<Stored>, i: nat, b: Stored)
    requires StoreInvariant(docs) && i < |docs|
    requires b.id == docs[i].id && !SlugTaken(docs, i, Some(b.slug))
    requires b.isHeadline ==> forall j :: 0 <= j < |docs| && j != i ==> !docs[j].isHeadline
    ensures StoreInvariant(docs[i := b])
  {
    var r := docs[i := b];
    forall j, k | 0 <= j < k < |r|
      ensures r[j].slug != r[k].slug
    {
      if j != i && k != i {
        assert r[j] == docs[j] && r[k] == docs[k];
      }
    }
  }

  /** The slug of the article at i is no other article's when slugs are unique. */
  lemma OwnSlugNotTaken(docs: seq<Stored>, i: nat)
    requires UniqueSlugs(docs) && i < |docs|
    ensures !SlugTaken(docs, i, Some(docs[i].slug))
  {
  }

  /** `sort({ published_at: -1 })`, ties in store order. */
  function PublishedKey(a: Stored): real
  {
    a.publishedAt as real
  }

  /** The store newest first: a permutation of it, in non-increasing date order. */
  function ByDate(docs: seq<Stored>): (r: seq<Stored>)
    ensures |r| == |docs| && multiset(r) == multiset(docs)
    ensures forall i, j :: 0 <= i < j < |r| ==> r[i].publishedAt >= r[j].publishedAt
  {
    SortDescPermutes(docs, PublishedKey);
    SortDescSorted(docs, PublishedKey);
    SortDesc(docs, PublishedKey)
  }

  /** `Math.ceil(total / limit)` for a non-zero limit. */
  function CeilDiv(total: nat, limit: int): (r: int)
    requires limit != 0
    ensures 0 < limit ==> 0 <= r && total <= r * limit && (r == 0 || (r - 1) * limit < total)
    ensures 0 < limit ==> (r == 0 <==> total == 0)
    ensures limit < 0 ==> r <= 0
  {
    if 0 < limit then (total + limit - 1) / limit else -(total / -limit)
  }

  /** `skip(skip).limit(limit)` of the store's query: a negative limit counts as its absolute value. */
  function Window<T>(s: seq<T>, skip: nat, limit: int): (r: seq<T>)
    requires limit != 0
    ensures |r| == (var n := if limit < 0 then -limit else limit;
                    var avail := if skip < |s| then |s| - skip else 0;
                    if n < avail then n else avail)
    ensures forall i :: 0 <= i < |r| ==> skip + i < |s| && r[i] == s[skip + i]
  {
    var n := if limit < 0 then -limit else limit;
    var from := if skip < |s| then skip else |s|;
    Take(s[from..], n)
  }

  /** `(page - 1) * limit`: the number of articles before the page. */
  function Skip(page: int, limit: int): int
  {
    (page - 1) * limit
  }

  /** A window with a positive limit is empty exactly when it starts past the end. */
  lemma WindowEmpty<T>(s: seq<T>, skip: nat, limit: int)
    requires 1 <= limit
    ensures Window(s, skip, limit) != [] <==> skip < |s|
    ensures |Window(s, skip, limit)| <= limit
  {
  }

  lemma MulMono(a: int, b: int, l: nat)
    requires a <= b
    ensures a * l <= b * l
  {
  }

  /**
   * For page and limit from 1 up, a page holds articles exactly when its
   * number is at most the reported number of pages.
   */
  lemma PageNonEmptyIff(total: nat, page: int, limit: int)
    requires 1 <= page && 1 <= limit
    ensures Skip(page, limit) < total <==> page <= CeilDiv(total, limit)
  {
    var c := CeilDiv(total, limit);
    if page <= c {
      MulMono(page - 1, c - 1, limit);
    } else {
      MulMono(c, page - 1, limit);
    }
  }

  /** What a read answers: a listing page, or one article with its key events. */
  datatype Payload =
    | ListPage(results: nat, total: nat, totalPages: int, currentPage: int, articles: seq<Stored>)
    | ArticleView(article: Stored, keyEvents: Option<seq<LiveEntry>>)

  /**
   * The listing page: the articles newest first, skipped and cut to the
   * limit, with the total and the number of pages `ceil(total / limit)`.
   */
  function ListPayload(docs: seq<Stored>, page: int, limit: int): (p: Payload)
    requires limit != 0 && 0 <= Skip(page, limit)
    ensures p.ListPage? && p.results == |p.articles| && p.total == |docs| && p.currentPage == page
    ensures p.totalPages == CeilDiv(|docs|, limit)
    ensures forall i :: 0 <= i < |p.articles| ==> Skip(page, limit) + i < |docs| && p.articles[i] == ByDate(docs)[Skip(page, limit) + i]
    ensures 1 <= limit ==> |p.articles| <= limit
    ensures 1 <= page && 1 <= limit ==> (p.articles != [] <==> page <= p.totalPages)
  {
    var sorted := ByDate(docs);
    var skip: nat := Skip(page, limit);
    var articles := Window(sorted, skip, limit);
    assert 1 <= page && 1 <= limit ==> (articles != [] <==> page <= CeilDiv(|docs|, limit)) by {
      if 1 <= page && 1 <= limit {
        PageNonEmptyIff(|docs|, page, limit);
        WindowEmpty(sorted, skip, limit);
      }
    }
    assert 1 <= limit ==> |articles| <= limit by {
      if 1 <= limit {
        WindowEmpty(sorted, skip, limit);
      }
    }
    ListPage(|articles|, |docs|, CeilDiv(|docs|, limit), page, articles)
  }
}

=== FILE: auth_schemas.dfy ===
/**
 * The request-body schemas of the authentication routes
 * (middleware/authValidator.js): the Ghanaian phone pattern, the e-mail
 * pattern, the length bounds, and which fields each schema requires. A
 * body is a map from the schema's field names to string values; a field
 * outside the schema is refused, as the object schemas do by default.
 */
module AuthSchemas {
  import opened Js

  /** `[245]`: the first digit of the subscriber number. */
  predicate NetworkDigit(c: char)
  {
    c == '2' || c == '4' || c == '5'
  }

  /** `[245][0-9]{8}` matched by the whole of t. */
  predicate SubscriberNumber(t: string)
  {
    |t| == 9 && NetworkDigit(t[0]) && forall i :: 1 <= i < 9 ==> IsDigit(t[i])
  }

  /** `^(?:\+233|0)[245][0-9]{8}$`. */
  predicate IsPhone(s: string)
  {
    (|s| >= 1 && s[0] == '0' && SubscriberNumber(s[1..]))
    || (|s| >= 4 && s[..4] == "+233" && SubscriberNumber(s[4..]))
  }

  /** A valid number has ten characters in the local form and thirteen in the international one. */
  lemma PhoneLength(s: string)
    requires IsPhone(s)
    ensures s[0] == '0' ==> |s| == 10
    ensures s[0] != '0' ==> |s| == 13 && s[0] == '+'
  {
  }

  /** The two prefixes are interchangeable: the same subscriber number is valid under both or neither. */
  lemma PhonePrefixesAgree(t: string)
    ensures IsPhone("0" + t) <==> IsPhone("+233" + t)
  {
    var local, international := "0" + t, "+233" + t;
    assert local[0] == '0' && local[1..] == t;
    assert |local| < 4 || local[..4] != "+233" by {
      if |local| >= 4 {
        assert local[..4][0] == '0';
      }
    }
    assert international[0] == '+';
    assert international[..4] == "+233" && international[4..] == t;
  }

  /** The two examples of the error message are valid; a wrong network digit or a short number is not. */
  lemma PhoneExamples()
    ensures IsPhone("0241234567")
    ensures IsPhone("+233241234567")
    ensures !IsPhone("0341234567")
    ensures !IsPhone("024123456")
  {
    assert "0241234567"[1..] == "241234567";
    assert "+233241234567"[..4] == "+233" && "+233241234567"[4..] == "241234567";
  }

  /** `[a-zA-Z0-9._%+-]`. */
  predicate LocalChar(c: char)
  {
    IsAsciiLetter(c) || IsDigit(c) || c == '.' || c == '_' || c == '%' || c == '+' || c == '-'
  }

  /** `[a-zA-Z0-9.-]`. */
  predicate DomainChar(c: char)
  {
    IsAsciiLetter(c) || IsDigit(c) || c == '.' || c == '-'
  }

  /**
   * `^[a-zA-Z0-9._%+-]+@[a-zA-Z0-9.-]+\.[a-zA-Z]{2,}$` matched with the
   * '@' at `at` and the escaped '.' at `dot`.
   */
  predicate EmailSplit(s: string, at: int, dot: int)
  {
    0 < at && at + 1 < dot && dot + 2 < |s|
    && (forall i :: 0 <= i < at ==> LocalChar(s[i]))
    && s[at] == '@'
    && (forall i :: at < i < dot ==> DomainChar(s[i]))
    && s[dot] == '.'
    && (forall i :: dot < i < |s| ==> IsAsciiLetter(s[i]))
  }

  /** The pattern matches the whole string in some way. */
  predicate IsEmail(s: string)
  {
    exists at, dot | 0 <= at < dot < |s| :: EmailSplit(s, at, dot)
  }

  /** The first index of c in s. */
  function FirstIndex(s: string, c: char): (r: Option<nat>)
    ensures r.Some? ==> r.value < |s| && s[r.value] == c && forall i :: 0 <= i < r.value ==> s[i] != c
    ensures r.None? ==> forall i :: 0 <= i < |s| ==> s[i] != c
  {
    if s == [] then None
    else if s[0] == c then Some(0)
    else
      var r := FirstIndex(s[1..], c);
      if r.Some? then Some(r.value + 1) else None
  }

  /** The last index of c in s. */
  function LastIndex(s: string, c: char): (r: Option<nat>)
    ensures r.Some? ==> r.value < |s| && s[r.value] == c && forall i :: r.value < i < |s| ==> s[i] != c
    ensures r.None? ==> forall i :: 0 <= i < |s| ==> s[i] != c
  {
    if s == [] then None
    else if s[|s| - 1] == c then Some(|s| - 1)
    else LastIndex(s[..|s| - 1], c)
  }

  /** A decision procedure for the pattern: split at the first '@' and the last '.'. */
  function EmailMatch(s: string): bool
  {
    var at := FirstIndex(s, '@');
    var dot := LastIndex(s, '.');
    at.Some? && dot.Some? && EmailSplit(s, at.value, dot.value)
  }

  /**
   * The first '@' and the last '.' are the only split the pattern can
   * use: a local part holds no '@', and the final letters hold no '.'.
   */
  lemma EmailSplitUnique(s: string, at: int, dot: int)
    requires EmailSplit(s, at, dot)
    ensures FirstIndex(s, '@') == Some(at)
    ensures LastIndex(s, '.') == Some(dot)
    ensures forall i :: 0 <= i < |s| && i != at ==> s[i] != '@'
  {
    assert forall i :: 0 <= i < at ==> s[i] != '@';
    assert forall i :: dot < i < |s| ==> s[i] != '.';
    assert forall i :: at < i < |s| ==> s[i] != '@';
  }

  /** The decision procedure accepts exactly the strings the pattern matches. */
  lemma EmailMatchIff(s: string)
    ensures EmailMatch(s) <==> IsEmail(s)
  {
    if IsEmail(s) {
      var at, dot :| EmailSplit(s, at, dot);
      EmailSplitUnique(s, at, dot);
    }
  }

  /** The example of the error message matches; a one-letter ending or a missing local part does not. */
  lemma EmailExamples()
    ensures IsEmail("example@domain.com")
    ensures !IsEmail("a@b.c")
    ensures !IsEmail("@domain.com")
  {
    assert EmailSplit("example@domain.com", 7, 14);
    EmailMatchIff("a@b.c");
    EmailMatchIff("@domain.com");
  }

  datatype Field = Name | Email | Password | Phone | StoreName | Address
  datatype Schema = Admin | User | Seller | Login

  type Body = map<Field, string>

  /** The keys each schema declares. */
  function Keys(schema: Schema): set<Field>
  {
    match schema
    case Admin => {Email, Password}
    case User => {Name, Email, Password, Phone}
    case Seller => {Name, Email, Password, StoreName, Address, Phone}
    case Login => {Email, Phone, Password}
  }

  /** The keys each schema requires; the login's e-mail and phone are optional. */
  function Required(schema: Schema): (r: set<Field>)
    ensures r <= Keys(schema) && Password in r
  {
    if schema == Login then {Password} else Keys(schema)
  }

  /** The rule of one field: lengths 2..50 for names, 8..100 for passwords, and the two patterns. */
  predicate FieldValid(f: Field, v: string)
  {
    match f
    case Name => 2 <= |v| <= 50
    case StoreName => 2 <= |v| <= 50
    case Address => 2 <= |v| <= 50
    case Password => 8 <= |v| <= 100
    case Email => IsEmail(v)
    case Phone => IsPhone(v)
  }

  /** A body passes the schema: no foreign key, every present value valid, every required key present, and a login names an e-mail or a phone. */
  predicate Valid(schema: Schema, b: Body)
  {
    b.Keys <= Keys(schema)
    && (forall f :: f in b ==> FieldValid(f, b[f]))
    && Required(schema) <= b.Keys
    && (schema == Login ==> Email in b || Phone in b)
  }

  /** Every schema requires a password of 8 to 100 characters. */
  lemma PasswordBounds(schema: Schema, b: Body)
    requires Valid(schema, b)
    ensures Password in b && 8 <= |b[Password]| <= 100
  {
    assert Password in Required(schema);
  }

  /** A login needs an e-mail or a phone besides the password. */
  lemma LoginNeedsContact(password: string)
    ensures !Valid(Login, map[Password := password])
  {
    assert Email !in map[Password := password];
  }

  /** A seller body without its store fields is a valid user body. */
  lemma SellerExtendsUser(b: Body)
    requires Valid(Seller, b)
    ensures Valid(User, b - {StoreName, Address})
  {
  }

  /** A valid user body plus valid store fields is a valid seller body. */
  lemma UserBecomesSeller(b: Body, store: string, address: string)
    requires Valid(User, b) && 2 <= |store| <= 50 && 2 <= |address| <= 50
    ensures Valid(Seller, b[StoreName := store][Address := address])
  {
  }

  /** The credentials a user or seller registered with form a valid login, as does an admin body. */
  lemma RegisteredCanLogIn(schema: Schema, b: Body)
    requires schema != Login && Valid(schema, b)
    ensures Valid(Login, map[Email := b[Email], Password := b[Password]])
    ensures Valid(Login, map[Phone := b[Phone], Password := b[Password]]) <== schema != Admin
  {
    assert Email in Required(schema) && Password in Required(schema);
    if schema != Admin {
      assert Phone in Required(schema);
    }
  }
}

=== FILE: cache.dfy ===
/**
 * The key-value cache helpers shared by controllers/spf/feed.controller.js
 * and controllers/zasp/article.controller.js: `generateCacheKey`,
 * `getCache`, `setCache` and `deleteCacheByPattern`. The store is a map
 * from keys to stored values with their time-to-live; whether the store
 * can be reached is a parameter of each call, and every failure is
 * swallowed. Serialisation to JSON and back is the identity here.
 */
module KeyValueCache {
  import opened Js

  /** A stored value and the expiry, in seconds, it was written with. */
  datatype Entry<V> = Entry(value: V, ttl: nat)

  /** `${prefix}:${Object.values(params).join(':')}`. */
  function CacheKey(prefix: string, values: seq<string>): (key: string)
    ensures prefix + ":" <= key
    ensures |key| == |prefix| + 1 + |Join(values, ":")|
    ensures key[|prefix| + 1..] == Join(values, ":")
  {
    prefix + ":" + Join(values, ":")
  }

  /**
   * The glob of the store's key listing, with `*` standing for any run of
   * characters and every other character standing for itself.
   */
  predicate Glob(pattern: string, key: string)
    decreases |pattern| + |key|
  {
    if pattern == [] then key == []
    else if pattern[0] == '*' then Glob(pattern[1..], key) || (key != [] && Glob(pattern, key[1..]))
    else key != [] && pattern[0] == key[0] && Glob(pattern[1..], key[1..])
  }

  predicate NoStar(s: string)
  {
    forall i :: 0 <= i < |s| ==> s[i] != '*'
  }

  lemma {:induction false} StarMatchesAll(key: string)
    ensures Glob("*", key)
  {
    if key != [] {
      StarMatchesAll(key[1..]);
    }
  }

  /** A pattern `prefix*` matches exactly the keys that start with `prefix`. */
  lemma {:induction false} PrefixGlob(prefix: string, key: string)
    requires NoStar(prefix)
    ensures Glob(prefix + "*", key) <==> prefix <= key
  {
    if prefix == [] {
      assert prefix + "*" == "*";
      StarMatchesAll(key);
    } else {
      assert (prefix + "*")[1..] == prefix[1..] + "*";
      if key != [] {
        PrefixGlob(prefix[1..], key[1..]);
      }
    }
  }

  /** A pattern without `*` matches only itself. */
  lemma {:induction false} LiteralGlob(pattern: string, key: string)
    requires NoStar(pattern)
    ensures Glob(pattern, key) <==> pattern == key
  {
    if pattern != [] && key != [] {
      LiteralGlob(pattern[1..], key[1..]);
      if pattern[0] == key[0] && pattern[1..] == key[1..] {
        assert pattern == [pattern[0]] + pattern[1..];
        assert key == [key[0]] + key[1..];
      }
    }
  }

  /** A pattern that starts with a literal part only matches keys that start with that part. */
  lemma {:induction false} GlobLiteralPrefix(lit: string, rest: string, key: string)
    requires NoStar(lit)
    requires Glob(lit + rest, key)
    ensures lit <= key
  {
    if lit != [] {
      assert (lit + rest)[0] == lit[0];
      assert (lit + rest)[1..] == lit[1..] + rest;
      GlobLiteralPrefix(lit[1..], rest, key[1..]);
      assert key == [key[0]] + key[1..];
    }
  }

  /** The entries of m whose keys the pattern does not match. */
  function Unmatched<V>(m: map<string, Entry<V>>, pattern: string): (r: map<string, Entry<V>>)
    ensures forall k :: k in r <==> k in m && !Glob(pattern, k)
    ensures forall k :: k in r ==> r[k] == m[k]
  {
    map k | k in m && !Glob(pattern, k) :: m[k]
  }

  /** The store after deleting by each pattern in turn. */
  function Sweep<V>(m: map<string, Entry<V>>, patterns: seq<string>): (r: map<string, Entry<V>>)
    ensures forall k :: k in r <==> k in m && Untouched(patterns, k)
    ensures forall k :: k in r ==> r[k] == m[k]
  {
    if patterns == [] then m
    else
      var r := Sweep(Unmatched(m, patterns[0]), patterns[1..]);
      assert forall k :: k in r <==> k in m && Untouched(patterns, k) by {
        forall k
          ensures k in r <==> k in m && Untouched(patterns, k)
        {
          if k in m && !Glob(patterns[0], k) && forall i :: 0 <= i < |patterns| - 1 ==> !Glob(patterns[1..][i], k) {
            forall i | 0 <= i < |patterns| ensures !Glob(patterns[i], k) {
              if i > 0 {
                assert patterns[i] == patterns[1..][i - 1];
              }
            }
          }
        }
      }
      r
  }

  /** No pattern of the list matches the key. */
  predicate Untouched(patterns: seq<string>, key: string)
  {
    forall i :: 0 <= i < |patterns| ==> !Glob(patterns[i], key)
  }

  lemma UntouchedAppend(a: seq<string>, b: seq<string>, key: string)
    ensures Untouched(a + b, key) <==> Untouched(a, key) && Untouched(b, key)
  {
    if Untouched(a, key) && Untouched(b, key) {
      forall i | 0 <= i < |a + b| ensures !Glob((a + b)[i], key) {
        if i >= |a| {
          assert (a + b)[i] == b[i - |a|];
        }
      }
    }
    if Untouched(a + b, key) {
      forall i | 0 <= i < |a| ensures !Glob(a[i], key) {
        assert (a + b)[i] == a[i];
      }
      forall i | 0 <= i < |b| ensures !Glob(b[i], key) {
        assert (a + b)[|a| + i] == b[i];
      }
    }
  }

  /** Two sweeps in a row are one sweep by both lists of patterns. */
  lemma {:induction false} SweepAppend<V>(m: map<string, Entry<V>>, a: seq<string>, b: seq<string>)
    ensures Sweep(Sweep(m, a), b) == Sweep(m, a + b)
  {
    var l := Sweep(Sweep(m, a), b);
    var r := Sweep(m, a + b);
    forall k ensures k in l <==> k in r {
      assert k in l <==> k in m && Untouched(a, k) && Untouched(b, k);
      assert k in r <==> k in m && Untouched(a + b, k);
      UntouchedAppend(a, b, k);
    }
    assert l == r;
  }

  /** A pattern matches itself, so a delete by a key with no special meaning removes that key. */
  lemma {:induction false} GlobSelf(p: string)
    ensures Glob(p, p)
  {
    if p != [] {
      GlobSelf(p[1..]);
      if p[0] == '*' {
        assert Glob(p, p[1..]);
      }
    }
  }

  /** Sweeping by `p*` for literal prefixes p keeps exactly the keys that start with none of them. */
  lemma SweepPrefixes<V>(m: map<string, Entry<V>>, prefixes: seq<string>, key: string)
    requires forall i :: 0 <= i < |prefixes| ==> NoStar(prefixes[i])
    ensures key in Sweep(m, seq(|prefixes|, i requires 0 <= i < |prefixes| => prefixes[i] + "*")) <==>
      key in m && forall i :: 0 <= i < |prefixes| ==> !(prefixes[i] <= key)
  {
    var patterns := seq(|prefixes|, i requires 0 <= i < |prefixes| => prefixes[i] + "*");
    forall i | 0 <= i < |prefixes| ensures Glob(patterns[i], key) <==> prefixes[i] <= key {
      PrefixGlob(prefixes[i], key);
    }
  }

  class Cache<V> {
    var entries: map<string, Entry<V>>

    constructor()
      ensures entries == map[]
    {
      entries := map[];
    }

    /** The value stored under key, or nothing on a miss or when the store is out of reach. */
    function Lookup(key: string, reachable: bool): (r: Option<V>)
      reads this
      ensures r.Some? <==> reachable && key in entries
      ensures r.Some? ==> r.value == entries[key].value
    {
      if reachable && key in entries then Some(entries[key].value) else None
    }

    /** getCache: a read that changes nothing. */
    method Get(key: string, reachable: bool) returns (r: Option<V>)
      ensures r.Some? <==> reachable && key in entries
      ensures r.Some? ==> r.value == entries[key].value
      ensures r == Lookup(key, reachable)
    {
      if !reachable {
        return None;
      }
      if key in entries {
        r := Some(entries[key].value);
      } else {
        r := None;
      }
    }

    /** setCache: stores value under key with the given expiry; a failure leaves the store as it was. */
    method Set(key: string, value: V, ttl: nat, reachable: bool)
      modifies this
      ensures reachable ==> entries == old(entries)[key := Entry(value, ttl)]
      ensures !reachable ==> entries == old(entries)
    {
      if reachable {
        entries := entries[key := Entry(value, ttl)];
      }
    }

    /**
     * deleteCacheByPattern: lists the keys the pattern matches and removes
     * them, one by one; with no match nothing is removed.
     */
    method DeleteByPattern(pattern: string, reachable: bool)
      modifies this
      ensures reachable ==> entries == Unmatched(old(entries), pattern)
      ensures !reachable ==> entries == old(entries)
    {
      if !reachable {
        return;
      }
      var matched := set k | k in entries && Glob(pattern, k);
      ghost var before := entries;
      while matched != {}
        invariant matched <= before.Keys
        invariant forall k :: k in entries <==> k in before && !(Glob(pattern, k) && k !in matched)
        invariant forall k :: k in entries ==> entries[k] == before[k]
        invariant forall k :: k in matched ==> Glob(pattern, k)
        decreases |matched|
      {
        var k :| k in matched;
        entries := entries - {k};
        matched := matched - {k};
      }
      assert entries == Unmatched(before, pattern);
    }

    /** Several pattern deletes, one after the other; a failure leaves the store as it was. */
    method DeleteByPatterns(patterns: seq<string>, reachable: bool)
      modifies this
      ensures reachable ==> entries == Sweep(old(entries), patterns)
      ensures !reachable ==> entries == old(entries)
    {
      for i := 0 to |patterns|
        invariant reachable ==> Sweep(entries, patterns[i..]) == Sweep(old(entries), patterns)
        invariant !reachable ==> entries == old(entries)
      {
        assert patterns[i..][1..] == patterns[i + 1..];
        DeleteByPattern(patterns[i], reachable);
      }
      assert patterns[|patterns|..] == [];
    }
  }

  /** Removing by a pattern twice removes nothing more the second time. */
  lemma UnmatchedIdempotent<V>(m: map<string, Entry<V>>, pattern: string)
    ensures Unmatched(Unmatched(m, pattern), pattern) == Unmatched(m, pattern)
  {
  }

  /** A delete whose pattern matches no key leaves the store unchanged. */
  lemma UnmatchedNoMatch<V>(m: map<string, Entry<V>>, pattern: string)
    requires forall k :: k in m ==> !Glob(pattern, k)
    ensures Unmatched(m, pattern) == m
  {
  }
}

=== FILE: category_validator.dfy ===
/**
 * The department/category validator run before a product is saved
 * (middleware/validateCategory.js): the department is trimmed and looked up
 * in the category table, and the category must be one of that
 * department's categories. Every path hands over to the next middleware
 * exactly once, with or without an error; the result `Next` is that one call.
 */
module CategoryValidator {
  import opened Js

  datatype Next = Proceed | Fail(message: string)

  /** The `departments` list. The validator never consults it. */
  function Departments(): seq<string>
  {
    ["Bedding", "Bath, Rugs & Towels", "Window Treatments", "Table & Kitchen Linens", "Decor"]
  }

  /** `departmentCategories[department]` when that is an array; any other key has no list. */
  function CategoriesOf(department: string): Option<seq<string>>
  {
    if department == "Bedding" then
      Some(["Bedsheet", "Pillow", "Cushions", "Pillowcase", "Blanket & Throws", "Valances", "Duvet covers"])
    else if department == "Bath, Rugs & Towels" then
      Some(["Doormat", "Kitchen mats", "Towels", "Bath & Pedestal mats", "Hallway Runners"])
    else if department == "Window Treatments" then
      Some(["Curtains", "Blinds", "Shades"])
    else if department == "Table & Kitchen Linens" then
      Some(["Table Cloths", "Napkins", "Runners"])
    else if department == "Storage" then
      Some(["Shoe rack", "Shoe storage", "Closet accessories", "Clothes rack"])
    else if department == "Decor" then
      Some(["Wall Art", "Mirror", "Vases", "Lamps"])
    else None
  }

  /** `(this.department || '').trim()`: a missing or empty department becomes ''. */
  function NormalisedDepartment(department: Option<string>): (r: string)
    ensures department.None? ==> r == ""
    ensures department.Some? ==> r == Trim(department.value)
  {
    if department.Some? then Trim(department.value) else ""
  }

  /**
   * The department looked up has no white space at either end, and
   * normalising it again changes nothing: padding never reaches the table.
   */
  lemma NormalisedDepartmentUnpadded(department: Option<string>)
    ensures var d := NormalisedDepartment(department);
      (d == [] || (!IsSpace(d[0]) && !IsSpace(d[|d| - 1]))) && NormalisedDepartment(Some(d)) == d
  {
    var d := NormalisedDepartment(department);
    TrimUnpadded(d);
  }

  /** A value as a template literal shows it: a missing category reads "undefined". */
  function Shown(v: Option<string>): string
  {
    if v.Some? then v.value else "undefined"
  }

  /** The category is an exact, case-sensitive member of the list. */
  predicate Listed(category: Option<string>, list: seq<string>)
  {
    category.Some? && category.value in list
  }

  /** The validator's single hand-over. */
  function ValidateCategory(department: Option<string>, category: Option<string>): (r: Next)
    ensures var d := NormalisedDepartment(department);
      r == Proceed <==> CategoriesOf(d).Some? && Listed(category, CategoriesOf(d).value)
    ensures var d := NormalisedDepartment(department);
      CategoriesOf(d).None? ==> r == Fail("Categories for department " + d + " are not iterable")
    ensures var d := NormalisedDepartment(department);
      CategoriesOf(d).Some? && !Listed(category, CategoriesOf(d).value) ==>
        r == Fail(Shown(category) + " is not a valid category for department " + d)
  {
    var d := NormalisedDepartment(department);
    var list := CategoriesOf(d);
    if list.None? then Fail("Categories for department " + d + " are not iterable")
    else if !Listed(category, list.value) then Fail(Shown(category) + " is not a valid category for department " + d)
    else Proceed
  }

  /** Trimming twice is trimming once. */
  lemma TrimIdempotent(s: string)
    ensures Trim(Trim(s)) == Trim(s)
  {
    TrimUnpadded(Trim(s));
  }

  /** White space around the department does not change the outcome. */
  lemma PaddingIgnored(department: string, category: Option<string>)
    ensures ValidateCategory(Some(department), category) == ValidateCategory(Some(Trim(department)), category)
  {
    TrimIdempotent(department);
  }

  /** A missing department is the empty one, and it has no category list. */
  lemma MissingDepartmentRejected(category: Option<string>)
    ensures ValidateCategory(None, category) == Fail("Categories for department  are not iterable")
    ensures ValidateCategory(None, category) == ValidateCategory(Some(""), category)
  {
    TrimUnpadded("");
  }

  /** 'Storage' is accepted with its own categories, though the `departments` list leaves it out. */
  lemma StorageAccepted()
    ensures "Storage" !in Departments()
    ensures ValidateCategory(Some("Storage"), Some("Shoe rack")) == Proceed
  {
    TrimUnpadded("Storage");
  }

  /** Department names and categories are compared case-sensitively. */
  lemma CaseSensitive()
    ensures ValidateCategory(Some("Decor"), Some("Mirror")) == Proceed
    ensures ValidateCategory(Some("Decor"), Some("mirror")).Fail?
    ensures ValidateCategory(Some("decor"), Some("Mirror")).Fail?
  {
    TrimUnpadded("Decor");
    TrimUnpadded("decor");
  }

  /** A missing category is never accepted, and the message calls it "undefined". */
  lemma MissingCategoryRejected(department: Option<string>)
    requires CategoriesOf(NormalisedDepartment(department)).Some?
    ensures ValidateCategory(department, None)
      == Fail("undefined" + " is not a valid category for department " + NormalisedDepartment(department))
  {
  }
}

=== FILE: content_item.dfy ===
/**
 * The read model of a stored news article, as the feed assembler and the
 * relevance scorer see it.
 */
module ContentItem {

  /** Milliseconds since the epoch. */
  type Millis = int

  datatype Article = Article(
    id: string,
    title: string,
    description: string,
    /** The schema has no `keywords` field, so a stored article always has none here. */
    keywords: seq<string>,
    tags: seq<string>,
    categories: seq<string>,
    publishedAt: Millis,
    isHeadline: bool,
    isCategoryHeadline: bool)
}

=== FILE: derive.dfy ===
/**
 * The derived fields every content model computes from its title and
 * description: the URL slug (`generateSlug`), the search-engine title
 * (`generateMetaTitle`) and description (`generateMetaDescription`), and the
 * pre-save hook that refreshes them when the title or description changes.
 * The six model files share these definitions word for word; only the
 * default wording of the meta description differs, and it is a parameter.
 */
module Derive {
  import opened Js

  /** `\w`: an ASCII letter, a digit or '_'. */
  predicate IsWordChar(c: char)
  {
    IsAsciiLetter(c) || IsDigit(c) || c == '_'
  }

  /** The characters a slug may hold. */
  predicate SlugChar(c: char)
  {
    IsAsciiLower(c) || IsDigit(c) || c == '_' || c == '-'
  }

  predicate NoDoubleDash(s: string)
  {
    forall i :: 0 <= i < |s| - 1 ==> !(s[i] == '-' && s[i + 1] == '-')
  }

  /** What `generateSlug` promises of its result. */
  predicate IsSlug(s: string)
  {
    (forall i :: 0 <= i < |s| ==> SlugChar(s[i]))
    && NoDoubleDash(s)
    && (s != [] ==> s[0] != '-' && s[|s| - 1] != '-')
  }

  /** s without its leading run of characters satisfying `IsSpace`. */
  function DropSpaces(s: string): (r: string)
    ensures |r| <= |s|
    ensures r == s[|s| - |r|..]
    ensures r != [] ==> !IsSpace(r[0])
  {
    if s != [] && IsSpace(s[0]) then DropSpaces(s[1..]) else s
  }

  /** `.replace(/\s+/g, '-')`: each run of white space becomes one '-'. */
  function DashSpaces(s: string): (r: string)
    ensures forall c :: c in r ==> c == '-' || (c in s && !IsSpace(c))
    decreases |s|
  {
    if s == [] then []
    else if IsSpace(s[0]) then "-" + DashSpaces(DropSpaces(s[1..]))
    else [s[0]] + DashSpaces(s[1..])
  }

  /** `.replace(/[^\w\-]+/g, '')`: every character other than `\w` and '-' is removed. */
  function KeepWord(s: string): (r: string)
    ensures forall c :: c in r <==> c in s && (IsWordChar(c) || c == '-')
  {
    if s == [] then []
    else (if IsWordChar(s[0]) || s[0] == '-' then [s[0]] else []) + KeepWord(s[1..])
  }

  /** `.replace(/^-+/, '')`: the leading dashes are removed. */
  function DropDashes(s: string): (r: string)
    ensures |r| <= |s|
    ensures r == s[|s| - |r|..]
    ensures r != [] ==> r[0] != '-'
  {
    if s != [] && s[0] == '-' then DropDashes(s[1..]) else s
  }

  /** `.replace(/\-\-+/g, '-')`: each run of dashes becomes one. */
  function CollapseDashes(s: string): (r: string)
    ensures forall c :: c in r ==> c in s
    ensures r == [] <==> s == []
    ensures r != [] ==> (r[0] == '-' <==> s[0] == '-')
    ensures NoDoubleDash(r)
    decreases |s|
  {
    if s == [] then []
    else if s[0] == '-' then "-" + CollapseDashes(DropDashes(s[1..]))
    else [s[0]] + CollapseDashes(s[1..])
  }

  /** `.replace(/-+$/, '')`: the trailing dashes are removed. */
  function DropTrailingDashes(s: string): (r: string)
    ensures r <= s
    ensures r != [] ==> r[|r| - 1] != '-'
  {
    if s != [] && s[|s| - 1] == '-' then DropTrailingDashes(s[..|s| - 1]) else s
  }

  /** generateSlug: lower-case, dashes for white space, word characters only, single dashes, none at the ends. */
  function Slug(title: string): (slug: string)
    ensures title == "" ==> slug == ""
  {
    if title == "" then ""
    else DropTrailingDashes(DropDashes(CollapseDashes(KeepWord(DashSpaces(Lower(title))))))
  }

  lemma NoDoubleDashSuffix(s: string, k: nat)
    requires NoDoubleDash(s) && k <= |s|
    ensures NoDoubleDash(s[k..])
  {
    assert forall i :: 0 <= i < |s| - k ==> s[k..][i] == s[k + i];
  }

  lemma NoDoubleDashPrefix(s: string, r: string)
    requires NoDoubleDash(s) && r <= s
    ensures NoDoubleDash(r)
  {
    assert forall i :: 0 <= i < |r| ==> r[i] == s[i];
  }

  /** Every slug uses only [a-z0-9_-], never holds "--" and neither starts nor ends with '-'. */
  lemma SlugIsSlug(title: string)
    ensures IsSlug(Slug(title))
  {
    if title != "" {
      var kept := KeepWord(DashSpaces(Lower(title)));
      KeptAreSlugChars(title);
      TrimDashesIsSlug(CollapseDashes(kept));
    }
  }

  /** After lower-casing, dashing and filtering, only slug characters remain. */
  lemma KeptAreSlugChars(title: string)
    ensures forall c :: c in KeepWord(DashSpaces(Lower(title))) ==> SlugChar(c)
  {
    var lowered := Lower(title);
    assert forall c :: c in lowered ==> !IsAsciiUpper(c);
  }

  /** Trimming the dashes at both ends of a collapsed string of slug characters gives a slug. */
  lemma TrimDashesIsSlug(collapsed: string)
    requires forall c :: c in collapsed ==> SlugChar(c)
    requires NoDoubleDash(collapsed)
    ensures IsSlug(DropTrailingDashes(DropDashes(collapsed)))
  {
    var front := DropDashes(collapsed);
    NoDoubleDashSuffix(collapsed, |collapsed| - |front|);
    var slug := DropTrailingDashes(front);
    NoDoubleDashPrefix(front, slug);
    forall i | 0 <= i < |slug| ensures SlugChar(slug[i]) {
      assert slug[i] == front[i] == collapsed[|collapsed| - |front| + i];
      assert collapsed[|collapsed| - |front| + i] in collapsed;
    }
    if slug != [] {
      assert slug[0] == front[0];
    }
  }

  lemma {:induction false} DashSpacesNoSpace(s: string)
    requires forall i :: 0 <= i < |s| ==> !IsSpace(s[i])
    ensures DashSpaces(s) == s
  {
    if s != [] {
      DashSpacesNoSpace(s[1..]);
    }
  }

  lemma {:induction false} KeepWordAllWord(s: string)
    requires forall i :: 0 <= i < |s| ==> IsWordChar(s[i]) || s[i] == '-'
    ensures KeepWord(s) == s
  {
    if s != [] {
      KeepWordAllWord(s[1..]);
    }
  }

  lemma {:induction false} CollapseSingleDashes(s: string)
    requires NoDoubleDash(s)
    ensures CollapseDashes(s) == s
  {
    if s != [] {
      NoDoubleDashSuffix(s, 1);
      CollapseSingleDashes(s[1..]);
      if s[0] == '-' {
        assert DropDashes(s[1..]) == s[1..];
      }
    }
  }

  /** A slug is left as it is, so generating a slug twice changes nothing more. */
  lemma SlugOfSlug(s: string)
    requires IsSlug(s)
    ensures Slug(s) == s
  {
    if s != "" {
      assert Lower(s) == s;
      DashSpacesNoSpace(s);
      KeepWordAllWord(s);
      CollapseSingleDashes(s);
    }
  }

  lemma SlugIdempotent(title: string)
    ensures Slug(Slug(title)) == Slug(title)
  {
    SlugIsSlug(title);
    SlugOfSlug(Slug(title));
  }

  /** The characters `generateMetaTitle` keeps: `[a-zA-Z0-9\s-]`. */
  predicate TitleChar(c: char)
  {
    IsAsciiLetter(c) || IsDigit(c) || IsSpace(c) || c == '-'
  }

  /** `.replace(/[^a-zA-Z0-9\s-]/g, '')`. */
  function CleanTitle(s: string): (r: string)
    ensures |r| <= |s|
    ensures forall c :: c in r <==> c in s && TitleChar(c)
  {
    if s == [] then []
    else (if TitleChar(s[0]) then [s[0]] else []) + CleanTitle(s[1..])
  }

  const MetaTitleMax: nat := 60
  const MetaTitleCut: nat := 57

  /**
   * generateMetaTitle: the cleaned title when it fits in 60 characters,
   * otherwise its first 57 characters, trimmed, followed by "...".
   */
  function MetaTitle(title: string): (r: string)
    ensures |r| <= MetaTitleMax
    ensures |CleanTitle(title)| <= MetaTitleMax ==> r == CleanTitle(title)
    ensures (|r| >= 3 && r[|r| - 3..] == "...") <==> |CleanTitle(title)| > MetaTitleMax
    ensures |CleanTitle(title)| > MetaTitleMax ==> Contains(CleanTitle(title)[..MetaTitleCut], r[..|r| - 3])
  {
    if title == "" then ""
    else
      var cleaned := CleanTitle(title);
      if |cleaned| <= MetaTitleMax then
        assert |cleaned| >= 3 ==> cleaned[|cleaned| - 1] in cleaned;
        cleaned
      else
        var r := Trim(cleaned[..MetaTitleCut]) + "...";
        assert r[..|r| - 3] == Trim(cleaned[..MetaTitleCut]);
        assert Contains(cleaned[..MetaTitleCut], r[..|r| - 3]);
        r
  }

  /** Removing the characters outside `[a-zA-Z0-9\s-]` a second time removes nothing. */
  lemma {:induction false} CleanTitleIdempotent(s: string)
    ensures CleanTitle(CleanTitle(s)) == CleanTitle(s)
  {
    if s != [] {
      CleanTitleIdempotent(s[1..]);
      if TitleChar(s[0]) {
        var c := CleanTitle(s);
        assert c == [s[0]] + CleanTitle(s[1..]);
        assert c[1..] == CleanTitle(s[1..]);
        assert CleanTitle(c) == [s[0]] + CleanTitle(c[1..]);
      } else {
        assert CleanTitle(s) == CleanTitle(s[1..]);
      }
    }
  }

  /** A meta title that needed no shortening is its own meta title. */
  lemma MetaTitleShortFixed(title: string)
    requires |CleanTitle(title)| <= MetaTitleMax
    ensures MetaTitle(MetaTitle(title)) == MetaTitle(title)
  {
    CleanTitleIdempotent(title);
  }

  /** The default wording of a model's meta description. */
  datatype Wording = Wording(noun: string, blurb: string)

  const MetaDescriptionMax: nat := 155

  /**
   * generateMetaDescription: the first 155 characters of a non-empty
   * description, trimmed; with no description, `<title or noun>. <blurb>`
   * cut to 155 characters.
   */
  function MetaDescription(title: string, description: string, w: Wording): (r: string)
    ensures |r| <= MetaDescriptionMax
    ensures description != "" ==> Contains(Take(description, MetaDescriptionMax), r)
    ensures description != "" ==> (r == [] <==> forall i :: 0 <= i < |Take(description, MetaDescriptionMax)| ==> IsSpace(description[i]))
    ensures description == "" ==> r <= (if title == "" then w.noun else title) + ". " + w.blurb
    ensures description == "" && |(if title == "" then w.noun else title) + ". " + w.blurb| <= MetaDescriptionMax ==>
      r == (if title == "" then w.noun else title) + ". " + w.blurb
  {
    if description != "" then Trim(Take(description, MetaDescriptionMax))
    else Take((if title == "" then w.noun else title) + ". " + (if description == "" then w.blurb else description), MetaDescriptionMax)
  }

  /** A description of at most 155 characters with no white space at its ends is used as it is. */
  lemma MetaDescriptionKeepsShort(title: string, description: string, w: Wording)
    requires description != "" && |description| <= MetaDescriptionMax
    requires !IsSpace(description[0]) && !IsSpace(description[|description| - 1])
    ensures MetaDescription(title, description, w) == description
  {
    TrimUnpadded(description);
  }

  /** Whenever a description is given the title and the wording play no part. */
  lemma MetaDescriptionIgnoresTitle(t1: string, t2: string, description: string, w1: Wording, w2: Wording)
    requires description != ""
    ensures MetaDescription(t1, description, w1) == MetaDescription(t2, description, w2)
  {
  }

  const ArticleWording := Wording("Feature", "Read our detailed feature.")
  const MusicWording := Wording("Music track", "Listen now.")
  const MovieWording := Wording("Movie", "Watch now.")
  const ReviewWording := Wording("Review", "Read our detailed review.")
  const FeatureWording := Wording("Feature", "Read our detailed feature.")
  const OpinionWording := Wording("Review", "Read our detailed review.")

  /** With no description and a short enough title, the default wording is used whole. */
  lemma DefaultDescription(title: string, w: Wording)
    requires |title| + |w.noun| + |w.blurb| + 2 <= MetaDescriptionMax
    ensures MetaDescription(title, "", w) == (if title == "" then w.noun else title) + ". " + w.blurb
  {
    var t := if title == "" then w.noun else title;
    assert |t + ". " + w.blurb| == |t| + 2 + |w.blurb|;
    assert t + ". " + w.blurb == t + (". " + w.blurb);
  }

  /** The default meta description of an article: `<title or 'Feature'>. Read our detailed feature.` */
  lemma ArticleDefaultDescription(title: string)
    requires |title| <= 100
    ensures MetaDescription(title, "", ArticleWording) == (if title == "" then "Feature" else title) + ". " + "Read our detailed feature."
  {
    DefaultDescription(title, ArticleWording);
  }

  /** The default meta description of a music post: `<title or 'Music track'>. Listen now.` */
  lemma MusicDefaultDescription(title: string)
    requires |title| <= 100
    ensures MetaDescription(title, "", MusicWording) == (if title == "" then "Music track" else title) + ". " + "Listen now."
  {
    DefaultDescription(title, MusicWording);
  }

  /** The default meta description of a movie post: `<title or 'Movie'>. Watch now.` */
  lemma MovieDefaultDescription(title: string)
    requires |title| <= 100
    ensures MetaDescription(title, "", MovieWording) == (if title == "" then "Movie" else title) + ". " + "Watch now."
  {
    DefaultDescription(title, MovieWording);
  }

  /** The default meta description of a review: `<title or 'Review'>. Read our detailed review.` */
  lemma ReviewDefaultDescription(title: string)
    requires |title| <= 100
    ensures MetaDescription(title, "", ReviewWording) == (if title == "" then "Review" else title) + ". " + "Read our detailed review."
  {
    DefaultDescription(title, ReviewWording);
  }

  /** A feature uses the article's wording. */
  lemma FeatureDefaultDescription(title: string)
    requires |title| <= 100
    ensures MetaDescription(title, "", FeatureWording) == (if title == "" then "Feature" else title) + ". " + "Read our detailed feature."
  {
    DefaultDescription(title, FeatureWording);
  }

  /** An opinion piece uses the review's wording. */
  lemma OpinionDefaultDescription(title: string)
    requires |title| <= 100
    ensures MetaDescription(title, "", OpinionWording) == (if title == "" then "Review" else title) + ". " + "Read our detailed review."
  {
    DefaultDescription(title, OpinionWording);
  }

  /**
   * A music, movie, review, feature or opinion document as its pre-save
   * hook sees it: the title and description, and the three fields derived
   * from them.
   */
  class Post {
    var title: string
    var description: string
    var slug: string
    var metaTitle: string
    var metaDescription: string
    const wording: Wording

    constructor(title: string, description: string, wording: Wording)
      ensures this.title == title && this.description == description && this.wording == wording
      ensures slug == "" && metaTitle == "" && metaDescription == ""
    {
      this.title := title;
      this.description := description;
      this.wording := wording;
      slug := "";
      metaTitle := "";
      metaDescription := "";
    }

    /** The derived fields agree with the title and description they were computed from. */
    predicate Derived()
      reads this
    {
      slug == Slug(title) && metaTitle == MetaTitle(title) && metaDescription == MetaDescription(title, description, wording)
    }

    /**
     * The pre-save hook: a changed title regenerates the slug and the meta
     * title, a changed description regenerates the meta description (from the
     * title the document holds by then).
     */
    method PreSave(titleModified: bool, descriptionModified: bool)
      modifies this
      ensures title == old(title) && description == old(description)
      ensures slug == (if titleModified then Slug(title) else old(slug))
      ensures metaTitle == (if titleModified then MetaTitle(title) else old(metaTitle))
      ensures metaDescription == (if descriptionModified then MetaDescription(title, description, wording) else old(metaDescription))
      ensures titleModified ==> IsSlug(slug) && |metaTitle| <= MetaTitleMax
      ensures descriptionModified ==> |metaDescription| <= MetaDescriptionMax
      ensures titleModified && descriptionModified ==> Derived()
    {
      if titleModified {
        slug := Slug(title);
        metaTitle := MetaTitle(title);
        SlugIsSlug(title);
      }
      if descriptionModified {
        metaDescription := MetaDescription(title, description, wording);
      }
    }

    /**
     * Assigning the title marks only the title modified; the hook then brings
     * every derived field back in line, the meta description included, since
     * a document's description is required and a given description makes the
     * title irrelevant to it.
     */
    method Retitle(newTitle: string)
      modifies this
      requires Derived()
      ensures title == newTitle && description == old(description)
      ensures old(description) != "" ==> Derived()
      ensures IsSlug(slug)
    {
      title := newTitle;
      PreSave(true, false);
      if description != "" {
        MetaDescriptionIgnoresTitle(old(title), title, description, wording, wording);
      }
    }
  }
}

=== FILE: discount.dfy ===
/**
 * The product discount rules: the pre-save hook that computes the discount
 * percentage and resets an expired discount
 * (middleware/discountCalculation.js), and the post-find pass that resets
 * the expired discounts of a list of documents in place
 * (middleware/checkDiscountExpiry.js). Prices are real numbers; the
 * clock is the parameter `now`.
 */
module Discount {
  import opened Js
  import opened ContentItem

  /**
   * A stored percentage: a whole number, or the non-finite value the
   * division by a zero unit price produces in JavaScript.
   */
  datatype Percentage = Percent(value: int) | NotFinite

  /** The discount fields of a product document. */
  datatype DiscountFields = DiscountFields(
    discount: bool,
    discountPrice: real,
    unitPrice: real,
    percentage: Percentage,
    startDate: Option<Millis>,
    endDate: Option<Millis>)

  /** How the hook hands over to the next middleware. */
  datatype Next = Proceed | ProceedWithError(message: string)

  /** `Math.round` on a finite number: halves round up. */
  function Round(x: real): (n: int)
    ensures n as real - 1.0 / 2.0 <= x < n as real + 1.0 / 2.0
  {
    (x + 1.0 / 2.0).Floor
  }

  /** `Math.round((unit - price) / unit * 100)`. */
  function PercentOff(unit: real, price: real): (r: Percentage)
    ensures r.NotFinite? <==> unit == 0.0
  {
    if unit == 0.0 then NotFinite else Percent(Round((unit - price) / unit * 100.0))
  }

  /** For a price between zero and a positive unit price the percentage lies in 0..100. */
  lemma PercentOffBounds(unit: real, price: real)
    requires 0.0 < unit && 0.0 <= price <= unit
    ensures PercentOff(unit, price).Percent?
    ensures 0 <= PercentOff(unit, price).value <= 100
    ensures price == unit ==> PercentOff(unit, price).value == 0
    ensures price == 0.0 ==> PercentOff(unit, price).value == 100
  {
    var x := (unit - price) / unit * 100.0;
    assert 0.0 <= (unit - price) / unit <= 1.0 by {
      assert (unit - price) / unit * unit == unit - price;
    }
    assert 0.0 <= x <= 100.0;
    if price == 0.0 {
      assert x == 100.0;
      assert (x + 1.0 / 2.0).Floor == 100;
    }
  }

  /** The hook's expiry test: an end date is set and now is strictly after it. */
  predicate ExpiredAt(end: Option<Millis>, now: Millis)
  {
    end.Some? && now > end.value
  }

  /** The document after the pre-save hook. */
  function Calculated(d: DiscountFields, now: Millis): DiscountFields
  {
    var pct := if d.discount && d.discountPrice != 0.0 then PercentOff(d.unitPrice, d.discountPrice) else Percent(0);
    if ExpiredAt(d.endDate, now) then d.(discount := false, discountPrice := 0.0, percentage := Percent(0))
    else d.(percentage := pct)
  }

  /**
   * What the hook leaves: an expired discount is switched off with price
   * and percentage 0; otherwise the percentage is computed from the prices
   * exactly when a discount is set with a non-zero price, and is 0 when it
   * is not. The unit price and the dates are never touched.
   */
  lemma CalculatedSpec(d: DiscountFields, now: Millis)
    ensures var r := Calculated(d, now);
      r.unitPrice == d.unitPrice && r.startDate == d.startDate && r.endDate == d.endDate
    ensures ExpiredAt(d.endDate, now) ==> var r := Calculated(d, now);
      !r.discount && r.discountPrice == 0.0 && r.percentage == Percent(0)
    ensures !ExpiredAt(d.endDate, now) ==> var r := Calculated(d, now);
      r.discount == d.discount && r.discountPrice == d.discountPrice
      && (d.discount && d.discountPrice != 0.0 ==> r.percentage == PercentOff(d.unitPrice, d.discountPrice))
      && (!(d.discount && d.discountPrice != 0.0) ==> r.percentage == Percent(0))
    ensures Calculated(d, now).discount ==> Calculated(d, now).discountPrice == d.discountPrice
  {
  }

  /** Saving twice at the same time gives the same document as saving once. */
  lemma CalculatedIdempotent(d: DiscountFields, now: Millis)
    ensures Calculated(Calculated(d, now), now) == Calculated(d, now)
  {
  }

  /** A discount priced within the unit price gets a percentage in 0..100 unless it has expired. */
  lemma CalculatedPercentInRange(d: DiscountFields, now: Millis)
    requires 0.0 < d.unitPrice && 0.0 <= d.discountPrice <= d.unitPrice
    ensures Calculated(d, now).percentage.Percent?
    ensures 0 <= Calculated(d, now).percentage.value <= 100
  {
    if !ExpiredAt(d.endDate, now) && d.discount && d.discountPrice != 0.0 {
      PercentOffBounds(d.unitPrice, d.discountPrice);
    }
  }

  /** A product document as the pre-save hook sees it: `this`, updated field by field. */
  class DiscountedProduct {
    var discount: bool
    var discountPrice: real
    var unitPrice: real
    var discountPercentage: Percentage
    var discountStartDate: Option<Millis>
    var discountEndDate: Option<Millis>

    function Fields(): DiscountFields
      reads this
    {
      DiscountFields(discount, discountPrice, unitPrice, discountPercentage, discountStartDate, discountEndDate)
    }

    constructor (d: DiscountFields)
      ensures Fields() == d
    {
      discount := d.discount;
      discountPrice := d.discountPrice;
      unitPrice := d.unitPrice;
      discountPercentage := d.percentage;
      discountStartDate := d.startDate;
      discountEndDate := d.endDate;
    }

    /**
     * The hook: computes the percentage, then resets an expired discount,
     * then hands over to the next middleware once, with no error.
     */
    method CalculateDiscount(now: Millis) returns (next: Next)
      modifies this
      ensures Fields() == Calculated(old(Fields()), now)
      ensures next == Proceed
    {
      if discount && discountPrice != 0.0 {
        discountPercentage := PercentOff(unitPrice, discountPrice);
      } else {
        discountPercentage := Percent(0);
      }
      if discountEndDate.Some? && now > discountEndDate.value {
        discount := false;
        discountPrice := 0.0;
        discountPercentage := Percent(0);
      }
      next := Proceed;
    }
  }

  /** The post-find test: a discount is on, an end date is set and it lies strictly before now. */
  predicate ShouldReset(d: DiscountFields, now: Millis)
  {
    d.discount && d.endDate.Some? && d.endDate.value < now
  }

  /** The reset of one document: no discount, price and percentage 0, both dates cleared. */
  function Reset(d: DiscountFields): (r: DiscountFields)
    ensures !r.discount && r.discountPrice == 0.0 && r.percentage == Percent(0)
    ensures r.startDate.None? && r.endDate.None?
    ensures r.unitPrice == d.unitPrice
  {
    d.(discount := false, discountPrice := 0.0, percentage := Percent(0), startDate := None, endDate := None)
  }

  /**
   * A reset document is final: no later pass resets it again at any time,
   * the pass leaves it as it is, and resetting it again changes nothing.
   */
  lemma ResetFinal(d: DiscountFields, now: Millis)
    ensures !ShouldReset(Reset(d), now)
    ensures ExpiryChecked(Reset(d), now) == Reset(d)
    ensures Reset(Reset(d)) == Reset(d)
  {
  }

  /** One document after the post-find pass. */
  function ExpiryChecked(d: DiscountFields, now: Millis): (r: DiscountFields)
    ensures r != d <==> ShouldReset(d, now)
    ensures !ShouldReset(r, now)
  {
    if ShouldReset(d, now) then Reset(d) else d
  }

  /** The list after the post-find pass: same length and order, each document checked. */
  function AllExpiryChecked(ds: seq<DiscountFields>, now: Millis): (r: seq<DiscountFields>)
    ensures |r| == |ds|
    ensures forall i :: 0 <= i < |ds| ==> r[i] == ExpiryChecked(ds[i], now)
  {
    seq(|ds|, i requires 0 <= i < |ds| => ExpiryChecked(ds[i], now))
  }

  /** The pass is idempotent for a fixed now. */
  lemma AllExpiryCheckedIdempotent(ds: seq<DiscountFields>, now: Millis)
    ensures AllExpiryChecked(AllExpiryChecked(ds, now), now) == AllExpiryChecked(ds, now)
  {
  }

  /** A document the pass resets is already in the state the pre-save hook would leave it in. */
  lemma ResetSurvivesSave(d: DiscountFields, now: Millis)
    requires ShouldReset(d, now)
    ensures Calculated(Reset(d), now) == Reset(d)
  {
  }

  /**
   * The two files agree on expiry: a discount the post-find pass resets
   * is also switched off by the pre-save hook, with price and percentage 0.
   */
  lemma ResetAgreesWithHook(d: DiscountFields, now: Millis)
    requires ShouldReset(d, now)
    ensures ExpiredAt(d.endDate, now)
    ensures var r := Calculated(d, now);
      r.discount == Reset(d).discount && r.discountPrice == Reset(d).discountPrice
      && r.percentage == Reset(d).percentage
  {
  }

  /** `checkDiscountExpiry`: the `forEach` that resets the matching documents in place. */
  method CheckDiscountExpiry(docs: array<DiscountFields>, now: Millis)
    modifies docs
    ensures docs[..] == AllExpiryChecked(old(docs[..]), now)
  {
    for i := 0 to docs.Length
      invariant forall j :: 0 <= j < i ==> docs[j] == ExpiryChecked(old(docs[j]), now)
      invariant forall j :: i <= j < docs.Length ==> docs[j] == old(docs[j])
    {
      var doc := docs[i];
      if doc.discount && doc.endDate.Some? && doc.endDate.value < now {
        docs[i] := doc.(discount := false, discountPrice := 0.0, percentage := Percent(0),
                        startDate := None, endDate := None);
      }
    }
  }
}

=== FILE: feed.dfy ===
/**
 * The feed assembler of controllers/feed.controller.js: freshness
 * classification, score decay, and the two blend shapes (the general feed,
 * and the category/tag feed with its first-six, mixed and fresh-tail
 * sections). The candidate list is a parameter, already sorted by
 * publication date, newest first.
 */
module Feed {
  import opened Js
  import opened ContentItem
  import opened RankArticle
  import opened Sorting

  /** 36 hours, in milliseconds. */
  const FreshnessThreshold: int := 36 * 60 * 60 * 1000
  /** Stale articles keep 30% of their score. */
  const StaleFactor: real := 0.3
  const MinLatestInTop: nat := 2
  const TopSectionSize: nat := 6
  const MixedSectionSize: int := 24
  /** `Math.ceil(18 * 0.45)` and `Math.floor(18 * 0.55)` as evaluated in floating point. */
  const MixedLatestCount: nat := 9
  const MixedRankedCount: nat := 9

  /** An article annotated with its decayed score and freshness. */
  datatype Scored = Scored(article: Article, score: real, isFresh: bool)

  /** An entry of the general feed: a raw, unscored document, or a scored one. */
  datatype FeedEntry = Latest(doc: Article) | Ranked(item: Scored)
  {
    function Id(): string
    {
      match this
      case Latest(d) => d.id
      case Ranked(s) => s.article.id
    }
  }

  predicate IsFresh(now: Millis, publishedAt: Millis)
  {
    now - publishedAt <= FreshnessThreshold
  }

  /** Scores one article and applies the decay to stale ones. */
  function Process(a: Article, now: Millis, w: Weights): (s: Scored)
    ensures s.article == a
    ensures s.isFresh <==> now - a.publishedAt <= FreshnessThreshold
    ensures s.score == if s.isFresh then Score(w, a) else Score(w, a) * StaleFactor
  {
    var raw := Score(w, a);
    var isFresh := IsFresh(now, a.publishedAt);
    Scored(a, if !isFresh then raw * 0.3 else raw, isFresh)
  }

  /**
   * The decay only ever lowers a score: with non-negative weights a
   * processed score lies between 0 and the raw score, equals it for a fresh
   * article, and for a stale article with a positive raw score is strictly
   * below it.
   */
  lemma ProcessDecays(a: Article, now: Millis, w: Weights)
    requires NonNegativeWeights(w)
    ensures 0.0 <= Process(a, now, w).score <= Score(w, a)
    ensures Process(a, now, w).isFresh ==> Process(a, now, w).score == Score(w, a)
    ensures !Process(a, now, w).isFresh && Score(w, a) > 0.0 ==> Process(a, now, w).score < Score(w, a)
  {
    ScoreNonNegative(w, a);
  }

  /** The same article seen later is never fresher, so its processed score never grows. */
  lemma ProcessNeverGrowsWithAge(a: Article, now: Millis, later: Millis, w: Weights)
    requires NonNegativeWeights(w) && now <= later
    ensures Process(a, later, w).isFresh ==> Process(a, now, w).isFresh
    ensures Process(a, later, w).score <= Process(a, now, w).score
  {
    ScoreNonNegative(w, a);
  }

  function ProcessAll(all: seq<Article>, now: Millis, w: Weights): (r: seq<Scored>)
    ensures |r| == |all|
    ensures forall i :: 0 <= i < |all| ==> r[i] == Process(all[i], now, w)
  {
    if all == [] then [] else [Process(all[0], now, w)] + ProcessAll(all[1..], now, w)
  }

  function ScoreKey(s: Scored): real { s.score }
  function DateKey(s: Scored): real { s.article.publishedAt as real }

  /** `allArticles.filter(a => now - a.published_at <= THRESHOLD)` on the raw documents. */
  function FreshDocs(all: seq<Article>, now: Millis): seq<Article>
  {
    if all == [] then []
    else (if IsFresh(now, all[0].publishedAt) then [all[0]] else []) + FreshDocs(all[1..], now)
  }

  /** `processed.filter(a => a.isFresh)`. */
  function FreshItems(s: seq<Scored>): seq<Scored>
  {
    if s == [] then []
    else (if s[0].isFresh then [s[0]] else []) + FreshItems(s[1..])
  }

  /** The ids of a list of documents. */
  function ArticleIds(s: seq<Article>): set<string>
  {
    if s == [] then {} else {s[0].id} + ArticleIds(s[1..])
  }

  function ItemIds(s: seq<Scored>): set<string>
  {
    if s == [] then {} else {s[0].article.id} + ItemIds(s[1..])
  }

  function EntryIds(s: seq<FeedEntry>): set<string>
  {
    if s == [] then {} else {s[0].Id()} + EntryIds(s[1..])
  }

  /** `list.filter(a => !placed.some(p => p._id.equals(a._id)))`. */
  function Without(s: seq<Scored>, placed: set<string>): seq<Scored>
  {
    if s == [] then []
    else (if s[0].article.id in placed then [] else [s[0]]) + Without(s[1..], placed)
  }

  function AsLatest(s: seq<Article>): (r: seq<FeedEntry>)
    ensures |r| == |s| && forall i :: 0 <= i < |s| ==> r[i] == Latest(s[i])
  {
    if s == [] then [] else [Latest(s[0])] + AsLatest(s[1..])
  }

  function AsRanked(s: seq<Scored>): (r: seq<FeedEntry>)
    ensures |r| == |s| && forall i :: 0 <= i < |s| ==> r[i] == Ranked(s[i])
  {
    if s == [] then [] else [Ranked(s[0])] + AsRanked(s[1..])
  }

  function CountFresh(s: seq<Scored>): nat
  {
    if s == [] then 0 else (if s[0].isFresh then 1 else 0) + CountFresh(s[1..])
  }

  datatype GeneralMeta = GeneralMeta(total: nat, freshCount: nat, latestInTop: nat)
  datatype GeneralFeed = GeneralFeed(articles: seq<FeedEntry>, meta: GeneralMeta)

  /** getFeed: the newest fresh documents first, then the score-ranked rest. */
  function GeneralBlend(all: seq<Article>, now: Millis, w: Weights, limit: int): GeneralFeed
  {
    var processed := ProcessAll(all, now, w);
    var ranked := SortDesc(processed, ScoreKey);
    var latest := Take(FreshDocs(all, now), MinLatestInTop);
    var topRanked := Take(ranked, TopSectionSize);
    var topSix := Take(AsLatest(latest) + AsRanked(Without(topRanked, ArticleIds(latest))), TopSectionSize);
    var remaining := Without(ranked, EntryIds(topSix));
    var final := SliceTo(topSix + AsRanked(remaining), limit);
    GeneralFeed(final, GeneralMeta(
      |all|,
      CountFresh(processed),
      |LatestIn(latest, EntryIds(topSix))|))
  }

  /** `latestArticles.filter(a => finalTopSix.some(...))`. */
  function LatestIn(s: seq<Article>, ids: set<string>): seq<Article>
  {
    if s == [] then []
    else (if s[0].id in ids then [s[0]] else []) + LatestIn(s[1..], ids)
  }

  datatype SectionCounts = SectionCounts(
    firstSixLatest: nat, firstSixRanked: nat,
    mixedLatest: nat, mixedRanked: nat,
    remaining: nat)
  datatype SectionMeta = SectionMeta(total: nat, freshCount: nat, sections: SectionCounts)
  datatype SectionFeed = SectionFeed(articles: seq<Scored>, meta: SectionMeta)

  /** The intermediate lists of the category/tag blend, named as in the source. */
  datatype Sections = Sections(
    freshItems: seq<Scored>,
    ranked: seq<Scored>,
    firstSixLatest: seq<Scored>,
    firstSixRanked: seq<Scored>,
    firstSix: seq<Scored>,
    mixedLatest: seq<Scored>,
    mixedRanked: seq<Scored>,
    mixed: seq<Scored>,
    tailCandidates: seq<Scored>,
    remainingLatest: seq<Scored>)

  function BuildSections(all: seq<Article>, now: Millis, w: Weights, limit: int): Sections
  {
    var processed := ProcessAll(all, now, w);
    var freshItems := FreshItems(processed);
    var ranked := SortDesc(processed, ScoreKey);
    var firstSixLatest := Take(freshItems, 3);
    var firstSixRanked := Take(Without(ranked, ItemIds(firstSixLatest)), 3);
    var firstSix := Take(SortDesc(firstSixLatest + firstSixRanked, DateKey), TopSectionSize);
    var mixedLatest := Take(Without(freshItems, ItemIds(firstSix)), MixedLatestCount);
    var mixedRanked := Take(Without(ranked, ItemIds(firstSix)), MixedRankedCount);
    var mixed := SortDesc(mixedLatest + mixedRanked, ScoreKey);
    var tailCandidates := Without(freshItems, ItemIds(firstSix + mixed));
    var remainingLatest := SliceTo(tailCandidates, limit - MixedSectionSize);
    Sections(freshItems, ranked, firstSixLatest, firstSixRanked, firstSix,
             mixedLatest, mixedRanked, mixed, tailCandidates, remainingLatest)
  }

  /** getFeedByCategory / getFeedByTags after the fetch. */
  function SectionBlend(all: seq<Article>, now: Millis, w: Weights, limit: int): SectionFeed
  {
    var s := BuildSections(all, now, w, limit);
    SectionFeed(
      SliceTo(s.firstSix + s.mixed + s.remainingLatest, limit),
      SectionMeta(|all|, |s.freshItems|,
        SectionCounts(|s.firstSixLatest|, |s.firstSixRanked|,
                      MixedLatestCount, MixedRankedCount, |s.remainingLatest|)))
  }

  /** The category filter: `^category$` matched case-insensitively against any element. */
  predicate InCategory(a: Article, category: string)
  {
    exists i :: 0 <= i < |a.categories| && Lower(a.categories[i]) == Lower(category)
  }

  /** The tag filter: `tag` matched case-insensitively inside any tag. */
  predicate HasTag(a: Article, tag: string)
  {
    exists i :: 0 <= i < |a.tags| && Contains(Lower(a.tags[i]), Lower(tag))
  }

  function CategoryCandidates(store: seq<Article>, category: string): (r: seq<Article>)
    ensures forall x :: x in r <==> x in store && InCategory(x, category)
  {
    if store == [] then []
    else (if InCategory(store[0], category) then [store[0]] else []) + CategoryCandidates(store[1..], category)
  }

  function TagCandidates(store: seq<Article>, tag: string): (r: seq<Article>)
    ensures forall x :: x in r <==> x in store && HasTag(x, tag)
  {
    if store == [] then []
    else (if HasTag(store[0], tag) then [store[0]] else []) + TagCandidates(store[1..], tag)
  }
}

=== FILE: feed_handlers.dfy ===
/**
 * The three handlers of controllers/feed.controller.js after the request is
 * parsed: the limit with its default, the candidate query (the whole store,
 * one category, or one tag; the store is given newest first), and the
 * blend. The weight table and `now` are parameters.
 */
module FeedHandlers {
  import opened Js
  import opened ContentItem
  import opened RankArticle
  import opened Feed
  import opened FeedProperties
  import opened SectionProperties

  const DefaultFeedLimit: int := 10
  const DefaultSectionLimit: int := 30

  /** A response body: the blend with the label the handler adds to its meta. */
  datatype FeedData =
    | MainFeed(general: GeneralFeed)
    | CategoryFeed(category: string, sectioned: SectionFeed)
    | TagFeed(tag: string, sectioned: SectionFeed)

  /** getFeed: the general blend over every stored article. */
  function GetFeed(store: seq<Article>, now: Millis, w: Weights, parsed: Option<int>): (r: GeneralFeed)
    ensures r.meta.total == |store|
    ensures UniqueArticles(store) && 0 <= ParsedOr(parsed, DefaultFeedLimit) ==>
      |r.articles| == if ParsedOr(parsed, DefaultFeedLimit) < |store| then ParsedOr(parsed, DefaultFeedLimit) else |store|
    ensures parsed.None? && UniqueArticles(store) ==> |r.articles| == if |store| < 10 then |store| else 10
  {
    var limit := ParsedOr(parsed, DefaultFeedLimit);
    var r := GeneralBlend(store, now, w, limit);
    assert UniqueArticles(store) && 0 <= limit ==> |r.articles| == if limit < |store| then limit else |store| by {
      if UniqueArticles(store) && 0 <= limit {
        GeneralBlendLength(store, now, w, limit);
      }
    }
    r
  }

  /** getFeedByCategory: the sectioned blend over the articles filed under the category. */
  function GetFeedByCategory(store: seq<Article>, category: string, now: Millis, w: Weights, parsed: Option<int>): (r: SectionFeed)
    ensures r.meta.total == |CategoryCandidates(store, category)|
    ensures forall x :: x in r.articles ==> x.article in store && InCategory(x.article, category)
  {
    var all := CategoryCandidates(store, category);
    var r := SectionBlend(all, now, w, ParsedOr(parsed, DefaultSectionLimit));
    assert forall x :: x in r.articles ==> x.article in all by {
      forall x | x in r.articles ensures x.article in all {
        SectionBlendFromCandidates(all, now, w, ParsedOr(parsed, DefaultSectionLimit), x);
      }
    }
    r
  }

  /** getFeedByTags: the sectioned blend over the articles with a tag containing the given text. */
  function GetFeedByTags(store: seq<Article>, tag: string, now: Millis, w: Weights, parsed: Option<int>): (r: SectionFeed)
    ensures r.meta.total == |TagCandidates(store, tag)|
    ensures forall x :: x in r.articles ==> x.article in store && HasTag(x.article, tag)
  {
    var all := TagCandidates(store, tag);
    var r := SectionBlend(all, now, w, ParsedOr(parsed, DefaultSectionLimit));
    assert forall x :: x in r.articles ==> x.article in all by {
      forall x | x in r.articles ensures x.article in all {
        SectionBlendFromCandidates(all, now, w, ParsedOr(parsed, DefaultSectionLimit), x);
      }
    }
    r
  }

  /** The category filter ignores case on both sides. */
  lemma CategoryIgnoresCase(a: Article, category: string)
    ensures InCategory(a, category) <==> InCategory(a, Lower(category))
  {
    LowerIdempotent(category);
  }

  /** The tag filter accepts any tag containing the text, so a longer tag is found by a shorter query. */
  lemma TagSubstring(a: Article, i: int, tag: string, before: string, after: string)
    requires 0 <= i < |a.tags|
    requires a.tags[i] == before + tag + after
    ensures HasTag(a, tag)
  {
    LowerConcat(before + tag, after);
    LowerConcat(before, tag);
    assert OccursAt(Lower(a.tags[i]), Lower(tag), |before|);
  }
}

=== FILE: feed_properties.dfy ===
/**
 * What the two blend shapes of the feed assembler guarantee: the general
 * feed is the fresh prefix followed by the rest of the ranking, with no id
 * repeated; the category/tag feed has a date-ordered first block, a
 * score-ordered mixed block that may repeat an article, and a tail of fresh
 * articles only.
 */
module FeedProperties {
  import opened Js
  import opened ContentItem
  import opened RankArticle
  import opened Sorting
  import opened Feed

  /** No two documents share an id. */
  predicate UniqueArticles(s: seq<Article>)
  {
    s == [] || (s[0].id !in ArticleIds(s[1..]) && UniqueArticles(s[1..]))
  }

  predicate UniqueItems(s: seq<Scored>)
  {
    s == [] || (s[0].article.id !in ItemIds(s[1..]) && UniqueItems(s[1..]))
  }

  /** No two feed entries share an id, stated position by position. */
  predicate UniqueEntries(s: seq<FeedEntry>)
  {
    forall i, j :: 0 <= i < j < |s| ==> s[i].Id() != s[j].Id()
  }

  // ---------------------------------------------------------------------
  // Id sets

  lemma ItemsCons(x: Scored, s: seq<Scored>)
    ensures ItemIds([x] + s) == {x.article.id} + ItemIds(s)
    ensures UniqueItems([x] + s) <==> x.article.id !in ItemIds(s) && UniqueItems(s)
  {
    assert ([x] + s)[1..] == s;
  }

  lemma ArticlesCons(x: Article, s: seq<Article>)
    ensures ArticleIds([x] + s) == {x.id} + ArticleIds(s)
    ensures UniqueArticles([x] + s) <==> x.id !in ArticleIds(s) && UniqueArticles(s)
  {
    assert ([x] + s)[1..] == s;
  }

  lemma {:induction false} ArticleIdsMember(s: seq<Article>, id: string)
    ensures id in ArticleIds(s) <==> exists i :: 0 <= i < |s| && s[i].id == id
  {
    if s != [] {
      ArticleIdsMember(s[1..], id);
      if id in ArticleIds(s[1..]) {
        var i :| 0 <= i < |s[1..]| && s[1..][i].id == id;
        assert s[i + 1].id == id;
      }
      if exists i :: 0 <= i < |s| && s[i].id == id {
        var i :| 0 <= i < |s| && s[i].id == id;
        if i > 0 {
          assert s[1..][i - 1].id == id;
        }
      }
    }
  }

  lemma {:induction false} ItemIdsMember(s: seq<Scored>, id: string)
    ensures id in ItemIds(s) <==> exists x :: x in s && x.article.id == id
  {
    if s != [] {
      ItemIdsMember(s[1..], id);
      assert s == [s[0]] + s[1..];
    }
  }

  lemma {:induction false} ItemIdsAppend(a: seq<Scored>, b: seq<Scored>)
    ensures ItemIds(a + b) == ItemIds(a) + ItemIds(b)
  {
    if a == [] {
      assert a + b == b;
    } else {
      assert (a + b)[1..] == a[1..] + b;
      ItemIdsAppend(a[1..], b);
    }
  }

  lemma {:induction false} ArticleIdsAppend(a: seq<Article>, b: seq<Article>)
    ensures ArticleIds(a + b) == ArticleIds(a) + ArticleIds(b)
  {
    if a == [] {
      assert a + b == b;
    } else {
      assert (a + b)[1..] == a[1..] + b;
      ArticleIdsAppend(a[1..], b);
    }
  }

  lemma {:induction false} EntryIdsAppend(a: seq<FeedEntry>, b: seq<FeedEntry>)
    ensures EntryIds(a + b) == EntryIds(a) + EntryIds(b)
  {
    if a == [] {
      assert a + b == b;
    } else {
      assert (a + b)[1..] == a[1..] + b;
      EntryIdsAppend(a[1..], b);
    }
  }

  lemma {:induction false} EntryIdsLatest(s: seq<Article>)
    ensures EntryIds(AsLatest(s)) == ArticleIds(s)
  {
    if s != [] {
      assert AsLatest(s)[1..] == AsLatest(s[1..]);
      EntryIdsLatest(s[1..]);
    }
  }

  lemma {:induction false} EntryIdsRanked(s: seq<Scored>)
    ensures EntryIds(AsRanked(s)) == ItemIds(s)
  {
    if s != [] {
      assert AsRanked(s)[1..] == AsRanked(s[1..]);
      EntryIdsRanked(s[1..]);
    }
  }

  lemma AsRankedAppend(a: seq<Scored>, b: seq<Scored>)
    ensures AsRanked(a + b) == AsRanked(a) + AsRanked(b)
  {
  }

  lemma AsRankedTake(s: seq<Scored>, n: nat)
    ensures AsRanked(Take(s, n)) == Take(AsRanked(s), n)
  {
  }

  lemma TakeAppend<T>(a: seq<T>, b: seq<T>, n: nat)
    requires |a| <= n
    ensures Take(a + b, n) == a + Take(b, n - |a|)
  {
  }

  /** A list with unique ids has as many ids as elements. */
  lemma {:induction false} UniqueItemsCount(s: seq<Scored>)
    requires UniqueItems(s)
    ensures |ItemIds(s)| == |s|
  {
    if s != [] {
      UniqueItemsCount(s[1..]);
    }
  }

  lemma {:induction false} UniqueArticlesCount(s: seq<Article>)
    requires UniqueArticles(s)
    ensures |ArticleIds(s)| == |s|
  {
    if s != [] {
      UniqueArticlesCount(s[1..]);
    }
  }

  lemma {:induction false} UniqueItemsAppend(a: seq<Scored>, b: seq<Scored>)
    ensures UniqueItems(a + b) <==> UniqueItems(a) && UniqueItems(b) && ItemIds(a) !! ItemIds(b)
  {
    if a == [] {
      assert a + b == b;
    } else {
      assert (a + b)[1..] == a[1..] + b;
      UniqueItemsAppend(a[1..], b);
      ItemIdsAppend(a[1..], b);
    }
  }

  lemma {:induction false} UniqueArticlesTake(s: seq<Article>, n: nat)
    requires UniqueArticles(s)
    ensures UniqueArticles(Take(s, n))
    ensures ArticleIds(Take(s, n)) <= ArticleIds(s)
  {
    if n < |s| {
      ArticlesSplit(s, n);
    }
  }

  lemma {:induction false} ArticlesSplit(s: seq<Article>, n: nat)
    requires UniqueArticles(s)
    requires n <= |s|
    ensures UniqueArticles(s[..n])
    ensures ArticleIds(s[..n]) <= ArticleIds(s)
  {
    if n > 0 {
      assert s[..n][1..] == s[1..][..n - 1];
      ArticlesSplit(s[1..], n - 1);
    }
  }

  // ---------------------------------------------------------------------
  // The id filter `Without`

  lemma {:induction false} WithoutMember(s: seq<Scored>, placed: set<string>, x: Scored)
    ensures x in Without(s, placed) <==> x in s && x.article.id !in placed
  {
    if s != [] {
      WithoutMember(s[1..], placed, x);
      assert s == [s[0]] + s[1..];
    }
  }

  lemma {:induction false} WithoutIds(s: seq<Scored>, placed: set<string>)
    ensures ItemIds(Without(s, placed)) == ItemIds(s) - placed
  {
    if s != [] {
      WithoutIds(s[1..], placed);
      ItemsCons(s[0], s[1..]);
      assert s == [s[0]] + s[1..];
      if s[0].article.id !in placed {
        ItemsCons(s[0], Without(s[1..], placed));
      } else {
        assert Without(s, placed) == Without(s[1..], placed);
      }
    }
  }

  lemma {:induction false} WithoutUnique(s: seq<Scored>, placed: set<string>)
    requires UniqueItems(s)
    ensures UniqueItems(Without(s, placed))
  {
    if s != [] {
      WithoutUnique(s[1..], placed);
      WithoutIds(s[1..], placed);
      if s[0].article.id !in placed {
        ItemsCons(s[0], Without(s[1..], placed));
      } else {
        assert Without(s, placed) == Without(s[1..], placed);
      }
    }
  }

  lemma {:induction false} WithoutAppend(a: seq<Scored>, b: seq<Scored>, placed: set<string>)
    ensures Without(a + b, placed) == Without(a, placed) + Without(b, placed)
  {
    if a == [] {
      assert a + b == b;
    } else {
      assert (a + b)[1..] == a[1..] + b;
      WithoutAppend(a[1..], b, placed);
    }
  }

  lemma {:induction false} WithoutTwice(s: seq<Scored>, p: set<string>, q: set<string>)
    ensures Without(Without(s, p), q) == Without(s, p + q)
  {
    if s != [] {
      WithoutTwice(s[1..], p, q);
      if s[0].article.id !in p {
        assert ([s[0]] + Without(s[1..], p))[0] == s[0];
        assert ([s[0]] + Without(s[1..], p))[1..] == Without(s[1..], p);
      } else {
        assert Without(s, p) == Without(s[1..], p);
      }
    }
  }

  lemma {:induction false} WithoutNone(s: seq<Scored>, placed: set<string>)
    requires ItemIds(s) !! placed
    ensures Without(s, placed) == s
  {
    if s != [] {
      WithoutNone(s[1..], placed);
    }
  }

  lemma {:induction false} WithoutAll(s: seq<Scored>, placed: set<string>)
    requires ItemIds(s) <= placed
    ensures Without(s, placed) == []
  {
    if s != [] {
      WithoutAll(s[1..], placed);
    }
  }

  lemma {:induction false} WithoutLength(s: seq<Scored>, placed: set<string>)
    requires UniqueItems(s)
    requires placed <= ItemIds(s)
    ensures |Without(s, placed)| == |s| - |placed|
  {
    WithoutIds(s, placed);
    WithoutUnique(s, placed);
    UniqueItemsCount(s);
    UniqueItemsCount(Without(s, placed));
  }

  lemma {:induction false} WithoutSorted(s: seq<Scored>, placed: set<string>, key: Scored -> real)
    requires SortedDesc(s, key)
    ensures SortedDesc(Without(s, placed), key)
  {
    if s != [] {
      WithoutSorted(s[1..], placed, key);
      var r := Without(s[1..], placed);
      if s[0].article.id !in placed {
        forall i | 0 <= i < |r| ensures key(s[0]) >= key(r[i]) {
          WithoutMember(s[1..], placed, r[i]);
          var j :| 0 <= j < |s[1..]| && s[1..][j] == r[i];
          assert s[j + 1] == r[i];
        }
        assert forall i :: 1 <= i < |[s[0]] + r| ==> ([s[0]] + r)[i] == r[i - 1];
      }
    }
  }

  lemma {:induction false} WithKeyAppend<T>(a: seq<T>, b: seq<T>, key: T -> real, v: real)
    ensures WithKey(a + b, key, v) == WithKey(a, key, v) + WithKey(b, key, v)
  {
    if a == [] {
      assert a + b == b;
    } else {
      var head := if key(a[0]) == v then [a[0]] else [];
      assert (a + b)[0] == a[0] && (a + b)[1..] == a[1..] + b;
      assert WithKey(a + b, key, v) == head + WithKey(a[1..] + b, key, v);
      WithKeyAppend(a[1..], b, key, v);
      assert head + (WithKey(a[1..], key, v) + WithKey(b, key, v)) == (head + WithKey(a[1..], key, v)) + WithKey(b, key, v);
    }
  }

  lemma {:induction false} WithoutWithKey(s: seq<Scored>, placed: set<string>, key: Scored -> real, v: real)
    ensures WithKey(Without(s, placed), key, v) == Without(WithKey(s, key, v), placed)
  {
    if s != [] {
      WithoutWithKey(s[1..], placed, key, v);
      var head := if s[0].article.id in placed then [] else [s[0]];
      assert Without(s, placed) == head + Without(s[1..], placed);
      WithKeyAppend(head, Without(s[1..], placed), key, v);
      var kept := if key(s[0]) == v then [s[0]] else [];
      assert WithKey(s, key, v) == kept + WithKey(s[1..], key, v);
      WithoutAppend(kept, WithKey(s[1..], key, v), placed);
    }
  }

  /** Dropping the ids of a prefix of a list with unique ids leaves the rest. */
  lemma {:induction false} WithoutPrefix(front: seq<Scored>, back: seq<Scored>)
    requires UniqueItems(front + back)
    ensures Without(front + back, ItemIds(front)) == back
  {
    UniqueItemsAppend(front, back);
    WithoutAppend(front, back, ItemIds(front));
    WithoutAll(front, ItemIds(front));
    WithoutNone(back, ItemIds(front));
  }

  // ---------------------------------------------------------------------
  // The sort keeps the ids

  lemma {:induction false} InsertIds(x: Scored, s: seq<Scored>, key: Scored -> real)
    ensures ItemIds(Insert(x, s, key)) == {x.article.id} + ItemIds(s)
    ensures UniqueItems(s) && x.article.id !in ItemIds(s) ==> UniqueItems(Insert(x, s, key))
  {
    if s == [] || key(s[0]) <= key(x) {
      ItemsCons(x, s);
    } else {
      InsertIds(x, s[1..], key);
      ItemsCons(s[0], Insert(x, s[1..], key));
      ItemsCons(s[0], s[1..]);
      assert s == [s[0]] + s[1..];
    }
  }

  lemma {:induction false} SortIds(s: seq<Scored>, key: Scored -> real)
    ensures ItemIds(SortDesc(s, key)) == ItemIds(s)
    ensures UniqueItems(s) ==> UniqueItems(SortDesc(s, key))
  {
    if s != [] {
      SortIds(s[1..], key);
      InsertIds(s[0], SortDesc(s[1..], key), key);
    }
  }

  lemma {:induction false} ProcessIds(all: seq<Article>, now: Millis, w: Weights)
    ensures ItemIds(ProcessAll(all, now, w)) == ArticleIds(all)
    ensures UniqueArticles(all) ==> UniqueItems(ProcessAll(all, now, w))
  {
    if all != [] {
      ProcessIds(all[1..], now, w);
      assert ProcessAll(all, now, w)[1..] == ProcessAll(all[1..], now, w);
    }
  }

  lemma {:induction false} FreshDocsIds(all: seq<Article>, now: Millis)
    ensures ArticleIds(FreshDocs(all, now)) <= ArticleIds(all)
    ensures UniqueArticles(all) ==> UniqueArticles(FreshDocs(all, now))
  {
    if all != [] {
      FreshDocsIds(all[1..], now);
      ArticlesCons(all[0], all[1..]);
      assert all == [all[0]] + all[1..];
      if IsFresh(now, all[0].publishedAt) {
        assert FreshDocs(all, now) == [all[0]] + FreshDocs(all[1..], now);
        ArticlesCons(all[0], FreshDocs(all[1..], now));
      } else {
        assert FreshDocs(all, now) == FreshDocs(all[1..], now);
      }
    }
  }

  /** The fresh documents are exactly those whose scored form is fresh. */
  lemma {:induction false} FreshDocsCount(all: seq<Article>, now: Millis, w: Weights)
    ensures CountFresh(ProcessAll(all, now, w)) == |FreshDocs(all, now)|
  {
    if all != [] {
      FreshDocsCount(all[1..], now, w);
      assert ProcessAll(all, now, w)[1..] == ProcessAll(all[1..], now, w);
    }
  }

  lemma {:induction false} FreshDocsAreFresh(all: seq<Article>, now: Millis)
    ensures forall d :: d in FreshDocs(all, now) ==> d in all && now - d.publishedAt <= FreshnessThreshold
  {
    if all != [] {
      FreshDocsAreFresh(all[1..], now);
    }
  }

  lemma {:induction false} LatestInAll(s: seq<Article>, ids: set<string>)
    requires ArticleIds(s) <= ids
    ensures LatestIn(s, ids) == s
  {
    if s != [] {
      LatestInAll(s[1..], ids);
    }
  }

  // ---------------------------------------------------------------------
  // The general feed

  /** The ranking without the chosen fresh documents. */
  function RankedRest(all: seq<Article>, now: Millis, w: Weights): seq<Scored>
  {
    Without(SortDesc(ProcessAll(all, now, w), ScoreKey), ArticleIds(Take(FreshDocs(all, now), MinLatestInTop)))
  }

  /** The ranked items getFeed places in its top six, after the leading documents. */
  function TopRanked(latest: seq<Article>, ranked: seq<Scored>): seq<Scored>
    requires |latest| <= TopSectionSize
  {
    Take(Without(Take(ranked, TopSectionSize), ArticleIds(latest)), TopSectionSize - |latest|)
  }

  lemma {:induction false} TopSixForm(latest: seq<Article>, ranked: seq<Scored>)
    requires |latest| <= MinLatestInTop
    ensures var topSix := Take(AsLatest(latest) + AsRanked(Without(Take(ranked, TopSectionSize), ArticleIds(latest))), TopSectionSize);
      && topSix == AsLatest(latest) + AsRanked(TopRanked(latest, ranked))
      && EntryIds(topSix) == ArticleIds(latest) + ItemIds(TopRanked(latest, ranked))
  {
    var k := Without(Take(ranked, TopSectionSize), ArticleIds(latest));
    var k1 := TopRanked(latest, ranked);
    TakeAppend(AsLatest(latest), AsRanked(k), TopSectionSize);
    AsRankedTake(k, TopSectionSize - |latest|);
    EntryIdsAppend(AsLatest(latest), AsRanked(k1));
    EntryIdsLatest(latest);
    EntryIdsRanked(k1);
  }

  /** The top-six ranked items are the first ones of the ranking without the leading documents. */
  lemma {:induction false} TopRankedPrefix(latest: seq<Article>, ranked: seq<Scored>)
    requires |latest| <= MinLatestInTop
    ensures TopRanked(latest, ranked) <= Without(ranked, ArticleIds(latest))
  {
    var ids := ArticleIds(latest);
    var topRanked := Take(ranked, TopSectionSize);
    var rest := ranked[|topRanked|..];
    assert ranked == topRanked + rest;
    WithoutAppend(topRanked, rest, ids);
  }

  /**
   * The top six and the remainder of getFeed, over any ranking with unique
   * ids and at most two leading documents: together they are the leading
   * documents followed by the ranking without them.
   */
  lemma {:induction false} TopSixThenRemainder(latest: seq<Article>, ranked: seq<Scored>)
    requires UniqueItems(ranked)
    requires |latest| <= MinLatestInTop
    ensures var topSix := Take(AsLatest(latest) + AsRanked(Without(Take(ranked, TopSectionSize), ArticleIds(latest))), TopSectionSize);
      && topSix + AsRanked(Without(ranked, EntryIds(topSix))) == AsLatest(latest) + AsRanked(Without(ranked, ArticleIds(latest)))
      && ArticleIds(latest) <= EntryIds(topSix)
  {
    var ids := ArticleIds(latest);
    var f := Without(ranked, ids);
    var k1 := TopRanked(latest, ranked);
    TopSixForm(latest, ranked);
    TopRankedPrefix(latest, ranked);
    var f2 := f[|k1|..];
    assert f == k1 + f2;
    var topSix := AsLatest(latest) + AsRanked(k1);
    assert Without(ranked, EntryIds(topSix)) == f2 by {
      WithoutUnique(ranked, ids);
      WithoutTwice(ranked, ids, ItemIds(k1));
      WithoutPrefix(k1, f2);
    }
    Rejoin(AsLatest(latest), k1, f2);
  }

  lemma {:induction false} Rejoin(front: seq<FeedEntry>, a: seq<Scored>, b: seq<Scored>)
    ensures front + AsRanked(a) + AsRanked(b) == front + AsRanked(a + b)
  {
    AsRankedAppend(a, b);
  }

  /**
   * getFeed puts the first (up to) two fresh documents, in the candidates'
   * order, first and then the whole ranking without them: the top six and
   * the remainder are two consecutive pieces of one list.
   */
  lemma {:induction false} GeneralBlendShape(all: seq<Article>, now: Millis, w: Weights, limit: int)
    requires UniqueArticles(all)
    ensures var latest := Take(FreshDocs(all, now), MinLatestInTop);
      GeneralBlend(all, now, w, limit).articles == SliceTo(AsLatest(latest) + AsRanked(RankedRest(all, now, w)), limit)
      && GeneralBlend(all, now, w, limit).meta.latestInTop == |latest|
  {
    var processed := ProcessAll(all, now, w);
    var ranked := SortDesc(processed, ScoreKey);
    var latest := Take(FreshDocs(all, now), MinLatestInTop);
    ProcessIds(all, now, w);
    SortIds(processed, ScoreKey);
    TopSixThenRemainder(latest, ranked);
    var topSix := Take(AsLatest(latest) + AsRanked(Without(Take(ranked, TopSectionSize), ArticleIds(latest))), TopSectionSize);
    LatestInAll(latest, EntryIds(topSix));
  }

  /** For a limit of 0 or more, getFeed returns min(limit, number of candidates) entries. */
  lemma {:induction false} GeneralBlendLength(all: seq<Article>, now: Millis, w: Weights, limit: int)
    requires UniqueArticles(all)
    requires 0 <= limit
    ensures |GeneralBlend(all, now, w, limit).articles| == if limit < |all| then limit else |all|
  {
    GeneralBlendShape(all, now, w, limit);
    RestLength(all, now, w);
  }

  lemma {:induction false} RestLength(all: seq<Article>, now: Millis, w: Weights)
    requires UniqueArticles(all)
    ensures |RankedRest(all, now, w)| + |Take(FreshDocs(all, now), MinLatestInTop)| == |all|
    ensures ItemIds(RankedRest(all, now, w)) !! ArticleIds(Take(FreshDocs(all, now), MinLatestInTop))
    ensures UniqueItems(RankedRest(all, now, w))
  {
    var processed := ProcessAll(all, now, w);
    var ranked := SortDesc(processed, ScoreKey);
    var latest := Take(FreshDocs(all, now), MinLatestInTop);
    ProcessIds(all, now, w);
    SortIds(processed, ScoreKey);
    SortDescPermutes(processed, ScoreKey);
    FreshDocsIds(all, now);
    UniqueArticlesTake(FreshDocs(all, now), MinLatestInTop);
    UniqueArticlesCount(latest);
    UniqueItemsCount(ranked);
    WithoutLength(ranked, ArticleIds(latest));
    WithoutIds(ranked, ArticleIds(latest));
    WithoutUnique(ranked, ArticleIds(latest));
  }

  /** getFeed never returns two entries with the same id. */
  lemma {:induction false} GeneralBlendUnique(all: seq<Article>, now: Millis, w: Weights, limit: int)
    requires UniqueArticles(all)
    ensures UniqueEntries(GeneralBlend(all, now, w, limit).articles)
  {
    GeneralBlendShape(all, now, w, limit);
    RestLength(all, now, w);
    FreshDocsIds(all, now);
    UniqueArticlesTake(FreshDocs(all, now), MinLatestInTop);
    var latest := Take(FreshDocs(all, now), MinLatestInTop);
    UniqueJoin(latest, RankedRest(all, now, w), limit);
  }

  /** Leading documents and ranked items with disjoint ids give a list without repeated ids. */
  lemma {:induction false} UniqueJoin(latest: seq<Article>, rest: seq<Scored>, limit: int)
    requires UniqueArticles(latest) && UniqueItems(rest)
    requires ArticleIds(latest) !! ItemIds(rest)
    ensures UniqueEntries(SliceTo(AsLatest(latest) + AsRanked(rest), limit))
  {
    var full := AsLatest(latest) + AsRanked(rest);
    forall i, j | 0 <= i < j < |full| ensures full[i].Id() != full[j].Id() {
      if j < |latest| {
        LatestIdsDistinct(latest, i, j);
      } else if i >= |latest| {
        UniqueItemsAt(rest, i - |latest|, j - |latest|);
      } else {
        ArticleIdsMember(latest, latest[i].id);
        ItemIdsMember(rest, rest[j - |latest|].article.id);
      }
    }
    var r := SliceTo(full, limit);
    assert forall i :: 0 <= i < |r| ==> r[i] == full[i];
  }

  lemma {:induction false} LatestIdsDistinct(s: seq<Article>, i: nat, j: nat)
    requires UniqueArticles(s)
    requires i < j < |s|
    ensures s[i].id != s[j].id
  {
    if i == 0 {
      ArticleIdsMember(s[1..], s[j].id);
      assert s[1..][j - 1] == s[j];
    } else {
      LatestIdsDistinct(s[1..], i - 1, j - 1);
    }
  }

  lemma {:induction false} UniqueItemsAt(s: seq<Scored>, i: nat, j: nat)
    requires UniqueItems(s)
    requires i < j < |s|
    ensures s[i].article.id != s[j].article.id
  {
    if i == 0 {
      ItemIdsMember(s[1..], s[j].article.id);
      assert s[1..][j - 1] == s[j];
    } else {
      UniqueItemsAt(s[1..], i - 1, j - 1);
    }
  }

  /**
   * The first min(2, fresh count) entries are the first fresh documents in
   * the candidates' order, and `latestInTop` counts exactly them.
   */
  lemma {:induction false} GeneralBlendFreshPrefix(all: seq<Article>, now: Millis, w: Weights, limit: int)
    requires UniqueArticles(all)
    ensures var feed := GeneralBlend(all, now, w, limit);
      var n := if |FreshDocs(all, now)| < 2 then |FreshDocs(all, now)| else 2;
      && feed.meta.latestInTop == n
      && feed.meta.freshCount == |FreshDocs(all, now)|
      && (forall i :: 0 <= i < n && i < |feed.articles| ==> feed.articles[i] == Latest(FreshDocs(all, now)[i]))
      && (forall i :: 0 <= i < n ==> now - FreshDocs(all, now)[i].publishedAt <= FreshnessThreshold)
  {
    GeneralBlendShape(all, now, w, limit);
    FreshDocsCount(all, now, w);
    FreshDocsAreFresh(all, now);
  }

  /** The order the query asks of the store: `sort({ published_at: -1 })`, newest first. */
  predicate NewestFirst(s: seq<Article>)
  {
    forall i, j :: 0 <= i < j < |s| ==> s[i].publishedAt >= s[j].publishedAt
  }

  /** The fresh documents are exactly the candidates published within the threshold. */
  lemma {:induction false} FreshDocsMember(all: seq<Article>, now: Millis, d: Article)
    ensures d in FreshDocs(all, now) <==> d in all && IsFresh(now, d.publishedAt)
  {
    if all != [] {
      FreshDocsMember(all[1..], now, d);
      assert all == [all[0]] + all[1..];
    }
  }

  /** The filter keeps a newest-first order. */
  lemma {:induction false} FreshDocsNewestFirst(all: seq<Article>, now: Millis)
    requires NewestFirst(all)
    ensures NewestFirst(FreshDocs(all, now))
  {
    if all != [] {
      var tail := all[1..];
      assert NewestFirst(tail) by {
        forall i, j | 0 <= i < j < |tail| ensures tail[i].publishedAt >= tail[j].publishedAt {
          assert tail[i] == all[i + 1] && tail[j] == all[j + 1];
        }
      }
      FreshDocsNewestFirst(tail, now);
      var head := if IsFresh(now, all[0].publishedAt) then [all[0]] else [];
      var rest := FreshDocs(tail, now);
      var f := head + rest;
      assert FreshDocs(all, now) == f;
      forall i, j | 0 <= i < j < |f| ensures f[i].publishedAt >= f[j].publishedAt {
        if i < |head| {
          var d := rest[j - |head|];
          FreshDocsMember(tail, now, d);
          var k :| 0 <= k < |tail| && tail[k] == d;
          assert all[k + 1] == d;
        } else {
          assert f[i] == rest[i - |head|] && f[j] == rest[j - |head|];
        }
      }
    }
  }

  /**
   * When the candidates arrive newest first, as the query sorts them, the
   * fresh documents placed at the head of the general feed are the newest
   * fresh candidates: every fresh candidate left out of them is no newer
   * than any of them.
   */
  lemma GeneralBlendFreshNewest(all: seq<Article>, now: Millis, d: Article, i: nat)
    requires NewestFirst(all)
    requires i < |Take(FreshDocs(all, now), MinLatestInTop)|
    requires d in all && IsFresh(now, d.publishedAt) && d !in Take(FreshDocs(all, now), MinLatestInTop)
    ensures d.publishedAt <= FreshDocs(all, now)[i].publishedAt
  {
    var f := FreshDocs(all, now);
    var top := Take(f, MinLatestInTop);
    FreshDocsMember(all, now, d);
    FreshDocsNewestFirst(all, now);
    var j :| 0 <= j < |f| && f[j] == d;
    assert forall k :: 0 <= k < |top| ==> top[k] == f[k];
    assert |top| <= j;
  }

  /** After the fresh prefix the entries are the ranking without the fresh documents, in order. */
  lemma {:induction false} GeneralBlendRankedSuffix(all: seq<Article>, now: Millis, w: Weights, limit: int)
    requires UniqueArticles(all)
    ensures var latest := Take(FreshDocs(all, now), MinLatestInTop);
      var feed := GeneralBlend(all, now, w, limit).articles;
      var rest := RankedRest(all, now, w);
      && |feed| <= |latest| + |rest|
      && (forall i :: |latest| <= i < |feed| && i - |latest| < |rest| ==> feed[i] == Ranked(rest[i - |latest|]))
  {
    var latest := Take(FreshDocs(all, now), MinLatestInTop);
    GeneralBlendShape(all, now, w, limit);
    SliceOfJoin(latest, RankedRest(all, now, w), limit);
  }

  /**
   * That ranking is in non-increasing score order, and among equal scores
   * it keeps the input (date) order, because the sort is stable.
   */
  lemma {:induction false} RankedRestOrder(all: seq<Article>, now: Millis, w: Weights, v: real)
    ensures SortedDesc(RankedRest(all, now, w), ScoreKey)
    ensures WithKey(RankedRest(all, now, w), ScoreKey, v)
         == Without(WithKey(ProcessAll(all, now, w), ScoreKey, v), ArticleIds(Take(FreshDocs(all, now), MinLatestInTop)))
  {
    RestOrder(ProcessAll(all, now, w), ArticleIds(Take(FreshDocs(all, now), MinLatestInTop)), v);
  }

  lemma {:induction false} SliceOfJoin(latest: seq<Article>, rest: seq<Scored>, limit: int)
    ensures var feed := SliceTo(AsLatest(latest) + AsRanked(rest), limit);
      && |feed| <= |latest| + |rest|
      && (forall i :: |latest| <= i < |feed| && i - |latest| < |rest| ==> feed[i] == Ranked(rest[i - |latest|]))
  {
    var whole := AsLatest(latest) + AsRanked(rest);
    var feed := SliceTo(whole, limit);
    assert feed <= whole;
    forall i | |latest| <= i < |feed| && i - |latest| < |rest|
      ensures feed[i] == Ranked(rest[i - |latest|])
    {
      assert feed[i] == whole[i] == AsRanked(rest)[i - |latest|];
    }
  }

  /** A stable ranking with some ids taken out is still score-ordered and stable. */
  lemma {:induction false} RestOrder(processed: seq<Scored>, placed: set<string>, v: real)
    ensures SortedDesc(Without(SortDesc(processed, ScoreKey), placed), ScoreKey)
    ensures WithKey(Without(SortDesc(processed, ScoreKey), placed), ScoreKey, v) == Without(WithKey(processed, ScoreKey, v), placed)
  {
    SortDescSorted(processed, ScoreKey);
    WithoutSorted(SortDesc(processed, ScoreKey), placed, ScoreKey);
    WithoutWithKey(SortDesc(processed, ScoreKey), placed, ScoreKey, v);
    SortDescStable(processed, ScoreKey, v);
  }

  lemma InPrefix<T>(s: seq<T>, t: seq<T>, x: T)
    requires t <= s
    requires x in t
    ensures x in s
  {
    var i :| 0 <= i < |t| && t[i] == x;
    assert s[i] == x;
  }

  lemma FeedEntryMember(latest: seq<Article>, items: seq<Scored>, e: FeedEntry)
    requires e in AsLatest(latest) + AsRanked(items)
    ensures e.Latest? ==> e.doc in latest
    ensures e.Ranked? ==> e.item in items
  {
    var full := AsLatest(latest) + AsRanked(items);
    var i :| 0 <= i < |full| && full[i] == e;
    if i < |latest| {
      assert e == Latest(latest[i]);
    } else {
      assert e == Ranked(items[i - |latest|]);
    }
  }

  lemma RankedMember(items: seq<Scored>, e: FeedEntry)
    requires e in AsRanked(items)
    ensures e.Ranked? && e.item in items
  {
    var i :| 0 <= i < |items| && AsRanked(items)[i] == e;
  }

  /**
   * Every entry of getFeed is one of the candidates: a fresh one given
   * as the raw document, or a scored one.
   */
  lemma {:induction false} GeneralBlendMember(all: seq<Article>, now: Millis, w: Weights, limit: int, e: FeedEntry)
    requires e in GeneralBlend(all, now, w, limit).articles
    ensures e.Latest? ==> e.doc in all && now - e.doc.publishedAt <= FreshnessThreshold
    ensures e.Ranked? ==> e.item.article in all && e.item == Process(e.item.article, now, w)
  {
    var processed := ProcessAll(all, now, w);
    var ranked := SortDesc(processed, ScoreKey);
    var latest := Take(FreshDocs(all, now), MinLatestInTop);
    var k := Without(Take(ranked, TopSectionSize), ArticleIds(latest));
    var topSix := Take(AsLatest(latest) + AsRanked(k), TopSectionSize);
    var remaining := Without(ranked, EntryIds(topSix));
    InPrefix(topSix + AsRanked(remaining), GeneralBlend(all, now, w, limit).articles, e);
    var item: Scored;
    if e in topSix {
      InPrefix(AsLatest(latest) + AsRanked(k), topSix, e);
      FeedEntryMember(latest, k, e);
      if e.Latest? {
        InPrefix(FreshDocs(all, now), latest, e.doc);
        FreshDocsAreFresh(all, now);
        return;
      }
      WithoutMember(Take(ranked, TopSectionSize), ArticleIds(latest), e.item);
      InPrefix(ranked, Take(ranked, TopSectionSize), e.item);
      item := e.item;
    } else {
      assert e in AsRanked(remaining);
      RankedMember(remaining, e);
      WithoutMember(ranked, EntryIds(topSix), e.item);
      item := e.item;
    }
    SortDescPermutes(processed, ScoreKey);
    assert item in multiset(ranked);
    var j :| 0 <= j < |processed| && processed[j] == item;
    assert all[j] == item.article;
  }
}

=== FILE: js.dfy ===
/**
 * The small part of JavaScript's standard library that the backend's code
 * leans on, stated once: optional values, `String.prototype.trim`, ASCII
 * lower-casing, `includes` on strings, `slice` with a computed end, and the
 * decimal rendering of an integer inside a template literal.
 */
module Js {

  datatype Option<T> = None | Some(value: T)

  /** The characters matched by `\s` and removed by `trim()` in JavaScript. */
  predicate IsSpace(c: char)
  {
    c == ' ' || c == '\t' || c == '\n' || c == '\r' ||
    c as int == 0x0B || c as int == 0x0C || c as int == 0xA0 ||
    c as int == 0x1680 || (0x2000 <= c as int <= 0x200A) ||
    c as int == 0x2028 || c as int == 0x2029 || c as int == 0x202F ||
    c as int == 0x205F || c as int == 0x3000 || c as int == 0xFEFF
  }

  predicate IsAsciiUpper(c: char) { 'A' <= c <= 'Z' }
  predicate IsAsciiLower(c: char) { 'a' <= c <= 'z' }
  predicate IsAsciiLetter(c: char) { IsAsciiUpper(c) || IsAsciiLower(c) }
  predicate IsDigit(c: char) { '0' <= c <= '9' }

  function LowerChar(c: char): (r: char)
    ensures !IsAsciiUpper(r)
    ensures IsAsciiUpper(c) ==> r as int == c as int + 32
    ensures !IsAsciiUpper(c) ==> r == c
  {
    if IsAsciiUpper(c) then (c as int + 32) as char else c
  }

  function UpperChar(c: char): (r: char)
    ensures IsAsciiLower(c) ==> r as int == c as int - 32
    ensures !IsAsciiLower(c) ==> r == c
  {
    if IsAsciiLower(c) then (c as int - 32) as char else c
  }

  /** `toLowerCase()`, for the ASCII letters. */
  function Lower(s: string): (r: string)
    ensures |r| == |s|
    ensures forall i :: 0 <= i < |s| ==> r[i] == LowerChar(s[i])
  {
    if s == [] then [] else [LowerChar(s[0])] + Lower(s[1..])
  }

  lemma LowerConcat(a: string, b: string)
    ensures Lower(a + b) == Lower(a) + Lower(b)
  {
  }

  /** `needle` occurs in `hay` starting at index i. */
  predicate OccursAt<T(==)>(hay: seq<T>, needle: seq<T>, i: int)
  {
    0 <= i <= |hay| - |needle| && hay[i..i + |needle|] == needle
  }

  /** `hay.includes(needle)`. */
  predicate Contains(hay: string, needle: string)
  {
    exists i :: 0 <= i <= |hay| && OccursAt(hay, needle, i)
  }

  /** Index of the end of the leading run of white space. */
  function LeadingSpace(s: string): (k: nat)
    ensures k <= |s|
    ensures forall i :: 0 <= i < k ==> IsSpace(s[i])
    ensures k < |s| ==> !IsSpace(s[k])
  {
    if s == [] || !IsSpace(s[0]) then 0 else 1 + LeadingSpace(s[1..])
  }

  /** Index of the start of the trailing run of white space. */
  function TrailingSpace(s: string): (k: nat)
    ensures k <= |s|
    ensures forall i :: k <= i < |s| ==> IsSpace(s[i])
    ensures 0 < k ==> !IsSpace(s[k - 1])
  {
    if s == [] || !IsSpace(s[|s| - 1]) then |s| else TrailingSpace(s[..|s| - 1])
  }

  /** `trim()`: the string without its leading and trailing white space. */
  function Trim(s: string): (r: string)
    ensures |r| <= |s|
    ensures r != [] ==> !IsSpace(r[0]) && !IsSpace(r[|r| - 1])
    ensures exists i :: OccursAt(s, r, i)
    ensures (forall i :: 0 <= i < |s| ==> IsSpace(s[i])) <==> r == []
  {
    var lead := LeadingSpace(s);
    var rest := s[lead..];
    var r := rest[..TrailingSpace(rest)];
    assert OccursAt(s, r, lead);
    assert r == [] ==> lead == |s|;
    r
  }

  /** A string with no white space at either end is its own trim. */
  lemma TrimUnpadded(s: string)
    requires s == [] || (!IsSpace(s[0]) && !IsSpace(s[|s| - 1]))
    ensures Trim(s) == s
  {
    assert LeadingSpace(s) == 0;
    assert s[0..] == s;
    assert TrailingSpace(s) == |s|;
  }

  /**
   * `parseInt(query) || fallback`: a query that does not parse (None) or
   * parses to 0 gives the fallback; any other number, negative ones
   * included, is kept.
   */
  function ParsedOr(parsed: Option<int>, fallback: int): (v: int)
    ensures parsed.Some? && parsed.value != 0 ==> v == parsed.value
    ensures parsed.None? || parsed.value == 0 ==> v == fallback
  {
    if parsed.Some? && parsed.value != 0 then parsed.value else fallback
  }

  /** `s.slice(0, n)` for a constant n >= 0. */
  function Take<T>(s: seq<T>, n: nat): (r: seq<T>)
    ensures |r| == if n < |s| then n else |s|
    ensures r <= s
  {
    if n < |s| then s[..n] else s
  }

  /**
   * `s.slice(0, end)` for a computed `end`: a negative end counts back from
   * the end of the list, so `slice(0, -k)` drops the last k elements.
   */
  function SliceTo<T>(s: seq<T>, end: int): (r: seq<T>)
    ensures r <= s
    ensures 0 <= end ==> r == Take(s, end)
    ensures end < 0 ==> |r| == if |s| + end < 0 then 0 else |s| + end
  {
    if 0 <= end then Take(s, end)
    else if |s| + end < 0 then []
    else s[..|s| + end]
  }

  function DigitChar(d: nat): (c: char)
    requires d < 10
    ensures IsDigit(c)
  {
    ('0' as int + d) as char
  }

  /** The decimal digits of a natural number, as in `${n}`. */
  function NatToString(n: nat): (r: string)
    ensures r != []
    ensures forall i :: 0 <= i < |r| ==> IsDigit(r[i])
    decreases n
  {
    if n < 10 then [DigitChar(n)] else NatToString(n / 10) + [DigitChar(n % 10)]
  }

  /** `${i}` for an integer. */
  function IntToString(i: int): (r: string)
    ensures r != []
    ensures 0 <= i ==> r == NatToString(i)
    ensures i < 0 ==> r[0] == '-' && r[1..] == NatToString(-i)
  {
    if 0 <= i then NatToString(i) else "-" + NatToString(-i)
  }

  /** `parts.join(sep)`. */
  function Join(parts: seq<string>, sep: string): (r: string)
    ensures |parts| == 1 ==> r == parts[0]
    ensures parts == [] ==> r == ""
  {
    if parts == [] then ""
    else if |parts| == 1 then parts[0]
    else parts[0] + sep + Join(parts[1..], sep)
  }

  lemma JoinCons(p: string, parts: seq<string>, sep: string)
    requires parts != []
    ensures Join([p] + parts, sep) == p + sep + Join(parts, sep)
  {
    assert ([p] + parts)[1..] == parts;
  }
}

=== FILE: media.dfy ===
/**
 * The movie and music controllers (controllers/movie.controller.js,
 * controllers/music.controller.js) and the parts of their schemas they
 * lean on (models/movie.model.js, models/music.model.js): the coercion of
 * the streaming-platform flags on create, the platform-normalisation loop
 * an update runs over its request body, the rule that a platform URL is
 * required exactly when its flag is true, and the music genre listing.
 *
 * A request body is a map from field names to JavaScript values; a key that
 * is absent and a key set to `undefined` read the same.
 */
module Media {
  import opened Js
  import opened Derive
  import opened Sorting
  import opened ContentItem
  import ArticleStore

  /** A value of a request body, as JSON or a multipart form delivers it. */
  datatype Value = Undefined | Bool(b: bool) | Str(s: string) | Num(n: real)

  type Body = map<string, Value>

  /** `body[k]`: undefined when the key is absent. */
  function Get(body: Body, k: string): Value
  {
    if k in body then body[k] else Undefined
  }

  /** JavaScript truthiness. */
  predicate Truthy(v: Value)
  {
    match v
    case Undefined => false
    case Bool(b) => b
    case Str(s) => s != ""
    case Num(n) => n != 0.0
  }

  /** `v === 'true' || v === true`. */
  predicate Coerced(v: Value)
  {
    v == Str("true") || v == Bool(true)
  }

  /**
   * The flag as the update loop leaves it: a truthy value becomes the
   * boolean `v === 'true' || v === true` (so the string "false" becomes
   * false), a falsy one stays as it is.
   */
  function FlagAfter(v: Value): (r: Value)
    ensures r == Bool(true) <==> Coerced(v)
    ensures Truthy(v) ==> r.Bool?
    ensures !Truthy(v) ==> r == v
  {
    if Truthy(v) then Bool(Coerced(v)) else v
  }

  /** The flag field and the URL field of one platform. */
  datatype PlatformFields = PlatformFields(flag: string, url: string)

  /** `platform.charAt(0).toUpperCase() + platform.slice(1)`. */
  function Capitalised(p: string): (r: string)
    ensures |r| == |p|
    ensures p != [] ==> r[0] == UpperChar(p[0]) && r[1..] == p[1..]
  {
    if p == "" then "" else [UpperChar(p[0])] + p[1..]
  }

  /** The keys the update loop builds from a platform name: `is<Name>` and `<name>Url`. */
  function FieldsOf(platform: string): PlatformFields
  {
    PlatformFields("is" + Capitalised(platform), platform + "Url")
  }

  function Fields(platforms: seq<string>): (r: seq<PlatformFields>)
    ensures |r| == |platforms|
    ensures forall i :: 0 <= i < |r| ==> r[i] == FieldsOf(platforms[i])
  {
    seq(|platforms|, i requires 0 <= i < |platforms| => FieldsOf(platforms[i]))
  }

  /** The platform names the two update loops walk. */
  const MoviePlatforms: seq<string> := ["netflix", "primeVideo", "showmax", "youTube", "irokotv"]
  const MusicPlatforms: seq<string> := ["audioMack", "spotify", "appleMusic", "boomplay", "youtubeMusic"]

  /** The flag and URL fields the two schemas declare, in the same order. */
  const MovieSchema: seq<PlatformFields> := [
    PlatformFields("isNetflix", "netflixUrl"),
    PlatformFields("isPrimeVideo", "primeVideoUrl"),
    PlatformFields("isShowmax", "showmaxUrl"),
    PlatformFields("isYouTube", "youtubeUrl"),
    PlatformFields("isIrokotv", "irokotvUrl")]
  const MusicSchema: seq<PlatformFields> := [
    PlatformFields("isAudioMack", "audioMackUrl"),
    PlatformFields("isSpotify", "spotifyUrl"),
    PlatformFields("isAppleMusic", "appleMusicUrl"),
    PlatformFields("isBoomplay", "boomplayUrl"),
    PlatformFields("isYoutubeMusic", "youtubeMusicUrl")]

  /** The keys built from a platform name given as its first letter and the rest. */
  lemma KeysOf(c: char, rest: string, flag: string, url: string)
    requires flag == "is" + [UpperChar(c)] + rest && url == [c] + rest + "Url"
    ensures FieldsOf([c] + rest) == PlatformFields(flag, url)
  {
    assert ([c] + rest)[1..] == rest;
  }

  lemma AudioMackKeys()
    ensures Fields(MusicPlatforms)[0] == MusicSchema[0]
  {
    assert MusicPlatforms[0] == ['a'] + "udioMack";
    KeysOf('a', "udioMack", "isAudioMack", "audioMackUrl");
  }

  lemma SpotifyKeys()
    ensures Fields(MusicPlatforms)[1] == MusicSchema[1]
  {
    assert MusicPlatforms[1] == ['s'] + "potify";
    KeysOf('s', "potify", "isSpotify", "spotifyUrl");
  }

  lemma AppleMusicKeys()
    ensures Fields(MusicPlatforms)[2] == MusicSchema[2]
  {
    assert MusicPlatforms[2] == ['a'] + "ppleMusic";
    KeysOf('a', "ppleMusic", "isAppleMusic", "appleMusicUrl");
  }

  lemma BoomplayKeys()
    ensures Fields(MusicPlatforms)[3] == MusicSchema[3]
  {
    assert MusicPlatforms[3] == ['b'] + "oomplay";
    KeysOf('b', "oomplay", "isBoomplay", "boomplayUrl");
  }

  lemma YoutubeMusicKeys()
    ensures Fields(MusicPlatforms)[4] == MusicSchema[4]
  {
    assert MusicPlatforms[4] == ['y'] + "outubeMusic";
    KeysOf('y', "outubeMusic", "isYoutubeMusic", "youtubeMusicUrl");
  }

  /** Every music key the loop builds is a field of the music schema. */
  lemma MusicKeysMatchSchema()
    ensures Fields(MusicPlatforms) == MusicSchema
  {
    AudioMackKeys(); SpotifyKeys(); AppleMusicKeys(); BoomplayKeys(); YoutubeMusicKeys();
  }

  lemma NetflixKeys()
    ensures Fields(MoviePlatforms)[0] == MovieSchema[0]
  {
    assert MoviePlatforms[0] == ['n'] + "etflix";
    KeysOf('n', "etflix", "isNetflix", "netflixUrl");
  }

  lemma PrimeVideoKeys()
    ensures Fields(MoviePlatforms)[1] == MovieSchema[1]
  {
    assert MoviePlatforms[1] == ['p'] + "rimeVideo";
    KeysOf('p', "rimeVideo", "isPrimeVideo", "primeVideoUrl");
  }

  lemma ShowmaxKeys()
    ensures Fields(MoviePlatforms)[2] == MovieSchema[2]
  {
    assert MoviePlatforms[2] == ['s'] + "howmax";
    KeysOf('s', "howmax", "isShowmax", "showmaxUrl");
  }

  lemma YouTubeKeys()
    ensures Fields(MoviePlatforms)[3] == PlatformFields("isYouTube", "youTubeUrl")
  {
    assert MoviePlatforms[3] == ['y'] + "ouTube";
    KeysOf('y', "ouTube", "isYouTube", "youTubeUrl");
  }

  lemma IrokotvKeys()
    ensures Fields(MoviePlatforms)[4] == MovieSchema[4]
  {
    assert MoviePlatforms[4] == ['i'] + "rokotv";
    KeysOf('i', "rokotv", "isIrokotv", "irokotvUrl");
  }

  /**
   * As written, the movie loop builds the schema's keys for four platforms;
   * for YouTube it builds the right flag key but the URL key `youTubeUrl`,
   * which is not the schema's `youtubeUrl`.
   */
  lemma MovieKeysAsWritten()
    ensures |Fields(MoviePlatforms)| == |MovieSchema|
    ensures forall i :: 0 <= i < |MovieSchema| && i != 3 ==> Fields(MoviePlatforms)[i] == MovieSchema[i]
    ensures Fields(MoviePlatforms)[3] == PlatformFields("isYouTube", "youTubeUrl")
    ensures Fields(MoviePlatforms)[3].url != MovieSchema[3].url
  {
    NetflixKeys(); PrimeVideoKeys(); ShowmaxKeys(); YouTubeKeys(); IrokotvKeys();
    assert "youTubeUrl"[3] != "youtubeUrl"[3];
  }

  /**
   * One turn of the update loop: a truthy flag is replaced by its coerced
   * boolean; unless the flag is then exactly `true`, the URL key is set to
   * undefined.
   */
  function Step(body: Body, f: PlatformFields): Body
  {
    var b := if Truthy(Get(body, f.flag)) then body[f.flag := Bool(Coerced(Get(body, f.flag)))] else body;
    if Get(b, f.flag) != Bool(true) then b[f.url := Undefined] else b
  }

  /** The body after the loop has visited every platform in order. */
  function Normalised(body: Body, fs: seq<PlatformFields>): Body
    decreases |fs|
  {
    if fs == [] then body else Normalised(Step(body, fs[0]), fs[1..])
  }

  /** The loop of `updateMovie` and `updateMusic`, rewriting the body in place. */
  method NormalisePlatforms(body: Body, fs: seq<PlatformFields>) returns (u: Body)
    ensures u == Normalised(body, fs)
  {
    u := body;
    for i := 0 to |fs|
      invariant Normalised(u, fs[i..]) == Normalised(body, fs)
    {
      assert fs[i..][1..] == fs[i + 1..];
      var f := fs[i];
      var flag := Get(u, f.flag);
      if Truthy(flag) {
        u := u[f.flag := Bool(Coerced(flag))];
      }
      if Get(u, f.flag) != Bool(true) {
        u := u[f.url := Undefined];
      }
    }
    assert fs[|fs|..] == [];
  }

  /** No two platforms share a key, and no flag key is a URL key. */
  predicate Separate(fs: seq<PlatformFields>)
  {
    forall i, j :: 0 <= i < |fs| && 0 <= j < |fs| ==>
      fs[i].flag != fs[j].url && (i != j ==> fs[i].flag != fs[j].flag && fs[i].url != fs[j].url)
  }

  /** The key k belongs to none of the platforms. */
  predicate Outside(fs: seq<PlatformFields>, k: string)
  {
    forall i :: 0 <= i < |fs| ==> k != fs[i].flag && k != fs[i].url
  }

  /** The keys of the k-th platform are its own: no other platform uses them, and they differ. */
  predicate Apart(fs: seq<PlatformFields>, k: nat)
    requires k < |fs|
  {
    fs[k].flag != fs[k].url
    && forall j :: 0 <= j < |fs| && j != k ==>
      fs[j].flag != fs[k].flag && fs[j].flag != fs[k].url && fs[j].url != fs[k].flag && fs[j].url != fs[k].url
  }

  lemma SeparateApart(fs: seq<PlatformFields>, k: nat)
    requires Separate(fs) && k < |fs|
    ensures Apart(fs, k)
  {
  }

  /** The loop leaves every key outside the platform fields as it was. */
  lemma {:induction false} NormalisedFrame(body: Body, fs: seq<PlatformFields>, k: string)
    requires Outside(fs, k)
    ensures Get(Normalised(body, fs), k) == Get(body, k)
    decreases |fs|
  {
    if fs != [] {
      assert Outside(fs[1..], k);
      NormalisedFrame(Step(body, fs[0]), fs[1..], k);
    }
  }

  /**
   * What the loop does to one platform: its flag is normalised, and its URL
   * is kept exactly when the flag was `true` or "true", and is undefined
   * otherwise.
   */
  lemma {:induction false} NormalisedEffect(body: Body, fs: seq<PlatformFields>, k: nat)
    requires k < |fs| && Apart(fs, k)
    ensures Get(Normalised(body, fs), fs[k].flag) == FlagAfter(Get(body, fs[k].flag))
    ensures Get(Normalised(body, fs), fs[k].url) ==
      (if Coerced(Get(body, fs[k].flag)) then Get(body, fs[k].url) else Undefined)
    decreases |fs|
  {
    var s := Step(body, fs[0]);
    if k == 0 {
      assert Outside(fs[1..], fs[0].flag) && Outside(fs[1..], fs[0].url);
      NormalisedFrame(s, fs[1..], fs[0].flag);
      NormalisedFrame(s, fs[1..], fs[0].url);
    } else {
      assert fs[1..][k - 1] == fs[k];
      assert Apart(fs[1..], k - 1);
      NormalisedEffect(s, fs[1..], k - 1);
    }
  }

  /** Keys that differ in their last letter, or within each kind, keep the platforms apart. */
  lemma SeparateByShape(fs: seq<PlatformFields>)
    requires forall i :: 0 <= i < |fs| ==> fs[i].flag != [] && fs[i].url != []
    requires forall i :: 0 <= i < |fs| ==> fs[i].url[|fs[i].url| - 1] == 'l' && fs[i].flag[|fs[i].flag| - 1] != 'l'
    requires forall i, j :: 0 <= i < j < |fs| ==> fs[i].flag != fs[j].flag && fs[i].url != fs[j].url
    ensures Separate(fs)
  {
  }

  lemma MovieSchemaSeparate()
    ensures Separate(MovieSchema)
  {
    assert forall i :: 0 <= i < |MovieSchema| ==>
      MovieSchema[i].url[|MovieSchema[i].url| - 1] == 'l' && MovieSchema[i].flag[|MovieSchema[i].flag| - 1] != 'l';
    assert forall i, j :: 0 <= i < j < |MovieSchema| ==>
      MovieSchema[i].flag != MovieSchema[j].flag && MovieSchema[i].url != MovieSchema[j].url;
    SeparateByShape(MovieSchema);
  }

  lemma MusicSchemaSeparate()
    ensures Separate(MusicSchema)
  {
    assert forall i :: 0 <= i < |MusicSchema| ==>
      MusicSchema[i].url[|MusicSchema[i].url| - 1] == 'l' && MusicSchema[i].flag[|MusicSchema[i].flag| - 1] != 'l';
    assert forall i, j :: 0 <= i < j < |MusicSchema| ==>
      MusicSchema[i].flag != MusicSchema[j].flag && MusicSchema[i].url != MusicSchema[j].url;
    SeparateByShape(MusicSchema);
  }

  /** The schema's `youtubeUrl` is none of the keys the movie loop builds. */
  lemma YoutubeUrlOutsideAsWritten()
    ensures Outside(Fields(MoviePlatforms), "youtubeUrl")
  {
    var fs := Fields(MoviePlatforms);
    MovieKeysAsWritten();
    MovieSchemaSeparate();
    forall i | 0 <= i < |fs|
      ensures "youtubeUrl" != fs[i].flag && "youtubeUrl" != fs[i].url
    {
      assert fs[i].flag == MovieSchema[i].flag;
      assert MovieSchema[i].flag != MovieSchema[3].url;
      if i == 3 {
        assert "youtubeUrl"[3] != "youTubeUrl"[3];
      } else {
        assert MovieSchema[i].url != MovieSchema[3].url;
      }
    }
  }

  /** The YouTube keys the movie loop builds are apart from the keys of the other platforms. */
  lemma YouTubeKeysApart()
    ensures Apart(Fields(MoviePlatforms), 3)
  {
    var fs := Fields(MoviePlatforms);
    MovieKeysAsWritten();
    MovieSchemaSeparate();
    assert fs[3] == PlatformFields("isYouTube", "youTubeUrl");
    forall j | 0 <= j < |fs| && j != 3
      ensures fs[j].flag != "isYouTube" && fs[j].flag != "youTubeUrl"
      ensures fs[j].url != "isYouTube" && fs[j].url != "youTubeUrl"
    {
      assert fs[j] == MovieSchema[j];
      assert MovieSchema[j].flag != MovieSchema[3].flag;
      assert MovieSchema[j].flag[|MovieSchema[j].flag| - 1] != 'l';
      assert MovieSchema[j].url[|MovieSchema[j].url| - 1] == 'l';
      assert MovieSchema[j].url[0] != 'y';
    }
  }

  /**
   * As written, an update of a movie passes the body's `youtubeUrl`
   * through untouched whatever the flag says: the loop clears
   * `youTubeUrl`, a key the schema does not have.
   */
  lemma YoutubeUrlKeptAsWritten(body: Body)
    ensures Get(Normalised(body, Fields(MoviePlatforms)), "youtubeUrl") == Get(body, "youtubeUrl")
  {
    YoutubeUrlOutsideAsWritten();
    NormalisedFrame(body, Fields(MoviePlatforms), "youtubeUrl");
  }

  /**
   * The input that shows it: the flag "false" is turned into `false`, yet
   * the YouTube URL sent with it stays in the update.
   */
  lemma YoutubeUrlKeptExample()
    ensures var body := map["isYouTube" := Str("false"), "youtubeUrl" := Str("https://youtu.be/x")];
      Get(Normalised(body, Fields(MoviePlatforms)), "youtubeUrl") == Str("https://youtu.be/x")
      && Get(Normalised(body, Fields(MoviePlatforms)), "isYouTube") == Bool(false)
  {
    var body := map["isYouTube" := Str("false"), "youtubeUrl" := Str("https://youtu.be/x")];
    YoutubeUrlKeptAsWritten(body);
    YouTubeKeysApart();
    MovieKeysAsWritten();
    NormalisedEffect(body, Fields(MoviePlatforms), 3);
  }

  /**
   * With the schema's own field names the loop keeps the URL of every
   * platform exactly when its flag was `true` or "true", YouTube included.
   */
  lemma SchemaUrlsCleared(kind: Kind, body: Body, k: nat)
    requires k < |Schema(kind)|
    ensures Get(Normalised(body, Schema(kind)), Schema(kind)[k].flag) == FlagAfter(Get(body, Schema(kind)[k].flag))
    ensures Get(Normalised(body, Schema(kind)), Schema(kind)[k].url) ==
      (if Coerced(Get(body, Schema(kind)[k].flag)) then Get(body, Schema(kind)[k].url) else Undefined)
  {
    SchemaSeparate(kind);
    SeparateApart(Schema(kind), k);
    NormalisedEffect(body, Schema(kind), k);
  }

  /** The two controllers. */
  datatype Kind = Movie | Music

  /** The platform fields an update clears, named as the schema names them. */
  function Schema(kind: Kind): (fs: seq<PlatformFields>)
    ensures |fs| == 5
  {
    if kind.Movie? then MovieSchema else MusicSchema
  }

  lemma SchemaSeparate(kind: Kind)
    ensures Separate(Schema(kind))
  {
    if kind.Movie? { MovieSchemaSeparate(); } else { MusicSchemaSeparate(); }
  }

  function WordingOf(kind: Kind): Wording
  {
    if kind.Movie? then MovieWording else MusicWording
  }

  /**
   * A create request: the text fields, the field only one kind requires
   * (`releaseYear` of a movie, `author` of a track), the date, the platform
   * flags and URLs as sent, and the optional fields.
   */
  datatype MediaRequest = MediaRequest(
    title: string,
    description: string,
    content: string,
    category: string,
    required: Value,
    publishedAt: Option<Millis>,
    platforms: Body,
    rating: Option<real>,
    genre: Option<seq<string>>,
    tags: Option<seq<string>>)

  /** A stored movie or track; flags[i] and urls[i] belong to the i-th platform of its schema. */
  datatype Media = Media(
    title: string,
    description: string,
    content: string,
    category: string,
    required: Value,
    flags: seq<bool>,
    urls: seq<Value>,
    rating: real,
    genre: seq<string>,
    tags: seq<string>,
    slug: string,
    metaTitle: string,
    metaDescription: string,
    publishedAt: Millis)

  /** The 400 check of `createMovie` and `createMusic`. */
  predicate MissingField(r: MediaRequest)
  {
    r.title == "" || r.description == "" || r.content == "" || !Truthy(r.required)
    || r.publishedAt.None? || r.category == ""
  }

  /** The `trim` setter of a string field. */
  function Trimmed(v: Value): (r: Value)
    ensures v.Str? <==> r.Str?
    ensures r.Str? ==> r.s == Trim(v.s)
    ensures !v.Str? ==> r == v
  {
    if v.Str? then Str(Trim(v.s)) else v
  }

  /** A required string: present and not empty (the caller trims it first). */
  predicate Present(v: Value)
  {
    v.Str? && v.s != ""
  }

  /**
   * The schema's validators on a new document: the text fields are
   * required, a platform URL is required when its flag is true, and the
   * rating lies in 0..5.
   */
  predicate ValidMedia(m: Media)
  {
    m.title != "" && m.description != "" && m.content != "" && m.category != ""
    && |m.flags| == |m.urls|
    && (forall i :: 0 <= i < |m.flags| && m.flags[i] ==> Present(m.urls[i]))
    && 0.0 <= m.rating <= 5.0
  }

  /** The platform flag a create stores: `v === 'true' || v === true`. */
  function CreatedFlags(body: Body, fs: seq<PlatformFields>): (r: seq<bool>)
    ensures |r| == |fs|
    ensures forall i :: 0 <= i < |fs| ==> (r[i] <==> Coerced(Get(body, fs[i].flag)))
  {
    seq(|fs|, i requires 0 <= i < |fs| => Coerced(Get(body, fs[i].flag)))
  }

  /** The URL a create stores: the trimmed URL sent when the flag coerces to true, undefined otherwise. */
  function CreatedUrls(body: Body, fs: seq<PlatformFields>): (r: seq<Value>)
    ensures |r| == |fs|
    ensures forall i :: 0 <= i < |fs| ==>
      r[i] == (if Coerced(Get(body, fs[i].flag)) then Trimmed(Get(body, fs[i].url)) else Undefined)
  {
    seq(|fs|, i requires 0 <= i < |fs| =>
      if Coerced(Get(body, fs[i].flag)) then Trimmed(Get(body, fs[i].url)) else Undefined)
  }

  /**
   * The document a create builds: trimmed text fields, coerced flags, the
   * URLs that go with them, rating 0 and empty genre and tags by default,
   * and the slug and meta fields generated from the trimmed title and
   * description. A track has no genre.
   */
  function Build(r: MediaRequest, kind: Kind): (m: Media)
    requires !MissingField(r)
  {
    var t := Trim(r.title);
    var d := Trim(r.description);
    Media(t, d, Trim(r.content), Trim(r.category), r.required,
          CreatedFlags(r.platforms, Schema(kind)), CreatedUrls(r.platforms, Schema(kind)),
          if r.rating.Some? then r.rating.value else 0.0,
          if kind.Movie? && r.genre.Some? then r.genre.value else [],
          if r.tags.Some? then r.tags.value else [],
          Slug(t), MetaTitle(t), MetaDescription(t, d, WordingOf(kind)), r.publishedAt.value)
  }

  /**
   * createMovie and createMusic: 400 on a missing field; 500 if the saved
   * document fails validation; 400 if its slug is already taken; otherwise
   * the document is created.
   */
  function CreateMedia(r: MediaRequest, kind: Kind, taken: set<string>): (out: ArticleStore.Outcome<Media>)
    ensures MissingField(r) ==> out == ArticleStore.Fail(400)
    ensures !MissingField(r) ==> (out.Ok? <==> ValidMedia(Build(r, kind)) && Build(r, kind).slug !in taken)
    ensures !MissingField(r) && !ValidMedia(Build(r, kind)) ==> out == ArticleStore.Fail(500)
    ensures out.Fail? ==> out.status == 400 || out.status == 500
    ensures out.Ok? ==> out.value == Build(r, kind) && out.value.slug !in taken
  {
    if MissingField(r) then ArticleStore.Fail(400)
    else
      var m := Build(r, kind);
      if !ValidMedia(m) then ArticleStore.Fail(500)
      else if m.slug in taken then ArticleStore.Fail(400)
      else ArticleStore.Ok(m)
  }

  /**
   * What a successful create stores: each flag is true exactly when it was
   * sent as `true` or "true", a URL is kept only for such a platform, the
   * defaults fill rating, genre and tags, and the slug and meta fields obey
   * their generators' bounds.
   */
  lemma CreatedMedia(r: MediaRequest, kind: Kind, taken: set<string>)
    requires CreateMedia(r, kind, taken).Ok?
    ensures var m := CreateMedia(r, kind, taken).value;
      && |m.flags| == 5 && |m.urls| == 5
      && (forall i :: 0 <= i < 5 ==> (m.flags[i] <==> Coerced(Get(r.platforms, Schema(kind)[i].flag))))
      && (forall i :: 0 <= i < 5 ==> (m.flags[i] <==> m.urls[i] != Undefined))
      && (r.rating.None? ==> m.rating == 0.0)
      && (r.tags.None? ==> m.tags == [])
      && (kind.Music? || r.genre.None? ==> m.genre == [])
      && m.slug == Slug(m.title) && IsSlug(m.slug)
      && |m.metaTitle| <= MetaTitleMax && |m.metaDescription| <= MetaDescriptionMax
  {
    var m := Build(r, kind);
    SlugIsSlug(m.title);
    assert forall i :: 0 <= i < 5 && m.flags[i] ==> m.urls[i].Str?;
  }

  /** A flagged platform sent with no URL, or a blank one, makes the create fail validation. */
  lemma FlaggedWithoutUrlRejected(r: MediaRequest, kind: Kind, taken: set<string>, k: nat)
    requires !MissingField(r) && k < 5
    requires Coerced(Get(r.platforms, Schema(kind)[k].flag))
    requires !Present(Trimmed(Get(r.platforms, Schema(kind)[k].url)))
    ensures CreateMedia(r, kind, taken) == ArticleStore.Fail(500)
  {
    var m := Build(r, kind);
    assert m.flags[k] && !Present(m.urls[k]);
  }

  /** Setting the URL of an unflagged platform changes neither the flags nor the URLs a create stores. */
  lemma UnflaggedUrlCreatesSame(kind: Kind, body: Body, k: nat, v: Value)
    requires k < 5
    requires !Coerced(Get(body, Schema(kind)[k].flag))
    ensures CreatedFlags(body[Schema(kind)[k].url := v], Schema(kind)) == CreatedFlags(body, Schema(kind))
    ensures CreatedUrls(body[Schema(kind)[k].url := v], Schema(kind)) == CreatedUrls(body, Schema(kind))
  {
    var fs := Schema(kind);
    var b := body[fs[k].url := v];
    SchemaSeparate(kind);
    forall i | 0 <= i < 5
      ensures CreatedFlags(b, fs)[i] == CreatedFlags(body, fs)[i]
      ensures CreatedUrls(b, fs)[i] == CreatedUrls(body, fs)[i]
    {
      assert Get(b, fs[i].flag) == Get(body, fs[i].flag);
      if i != k {
        assert Get(b, fs[i].url) == Get(body, fs[i].url);
      }
    }
  }

  /**
   * The URL sent for a platform whose flag is not `true` or "true" plays no
   * part: whatever it is, the create ends the same way.
   */
  lemma UnflaggedUrlIgnored(r: MediaRequest, kind: Kind, taken: set<string>, k: nat, v: Value)
    requires k < 5
    requires !Coerced(Get(r.platforms, Schema(kind)[k].flag))
    ensures CreateMedia(r.(platforms := r.platforms[Schema(kind)[k].url := v]), kind, taken) == CreateMedia(r, kind, taken)
  {
    var r2 := r.(platforms := r.platforms[Schema(kind)[k].url := v]);
    UnflaggedUrlCreatesSame(kind, r.platforms, k, v);
    if !MissingField(r) {
      assert Build(r2, kind) == Build(r, kind);
    }
  }

  /** `updateData.title` or `updateData.description` when it is a non-empty string. */
  function Text(body: Body, k: string): (r: Option<string>)
    ensures r.Some? <==> Truthy(Get(body, k)) && Get(body, k).Str?
    ensures r.Some? ==> r.value == Get(body, k).s && r.value != ""
  {
    if Get(body, k).Str? && Get(body, k).s != "" then Some(Get(body, k).s) else None
  }

  /** The keys an update derives from the title and the description. */
  predicate DerivedKey(k: string)
  {
    k == "slug" || k == "meta_title" || k == "meta_description"
  }

  /** The first derivation step: a title gives the slug and the meta title. */
  function WithTitleDerived(body: Body): (b: Body)
    ensures forall k :: k != "slug" && k != "meta_title" ==> Get(b, k) == Get(body, k)
    ensures Text(body, "title").Some? ==>
      Get(b, "slug") == Str(Slug(Text(body, "title").value))
      && Get(b, "meta_title") == Str(MetaTitle(Text(body, "title").value))
    ensures Text(body, "title").None? ==> b == body
  {
    var title := Text(body, "title");
    if title.Some? then
      var slug, metaTitle := Str(Slug(title.value)), Str(MetaTitle(title.value));
      DerivedKeysDistinct();
      UpdateFrame(body, "slug", slug, "meta_title", metaTitle);
      body["slug" := slug]["meta_title" := metaTitle]
    else body
  }

  /** Writing two keys leaves every other key as it was. */
  lemma UpdateFrame(body: Body, k1: string, v1: Value, k2: string, v2: Value)
    requires k1 != k2
    ensures forall k :: k != k1 && k != k2 ==> Get(body[k1 := v1][k2 := v2], k) == Get(body, k)
    ensures Get(body[k1 := v1][k2 := v2], k1) == v1 && Get(body[k1 := v1][k2 := v2], k2) == v2
  {
  }

  /**
   * The derivations an update writes into its body before the platform
   * loop: a title gives the slug and the meta title; a description gives
   * the meta description, from the new title or else the stored one.
   */
  function WithDerived(body: Body, storedTitle: string, w: Wording): Body
  {
    var b := WithTitleDerived(body);
    var description := Text(body, "description");
    if description.Some? then
      var title := Text(body, "title");
      var t := if title.Some? then title.value else storedTitle;
      b["meta_description" := Str(MetaDescription(t, description.value, w))]
    else b
  }

  /** The three derived keys, and only they, are written; each from what the source derives it from. */
  lemma WithDerivedEffects(body: Body, storedTitle: string, w: Wording)
    ensures forall k :: !DerivedKey(k) ==> Get(WithDerived(body, storedTitle, w), k) == Get(body, k)
    ensures Text(body, "title").Some? ==>
      Get(WithDerived(body, storedTitle, w), "slug") == Str(Slug(Text(body, "title").value))
      && Get(WithDerived(body, storedTitle, w), "meta_title") == Str(MetaTitle(Text(body, "title").value))
    ensures Text(body, "title").None? ==>
      Get(WithDerived(body, storedTitle, w), "slug") == Get(body, "slug")
      && Get(WithDerived(body, storedTitle, w), "meta_title") == Get(body, "meta_title")
    ensures Text(body, "description").Some? ==>
      var t := if Text(body, "title").Some? then Text(body, "title").value else storedTitle;
      Get(WithDerived(body, storedTitle, w), "meta_description") == Str(MetaDescription(t, Text(body, "description").value, w))
    ensures Text(body, "description").None? ==>
      Get(WithDerived(body, storedTitle, w), "meta_description") == Get(body, "meta_description")
  {
    WithDerivedTitle(body, storedTitle, w);
    WithDerivedDescription(body, storedTitle, w);
  }

  /** The title step: every key but the meta description is as the first step left it. */
  lemma WithDerivedTitle(body: Body, storedTitle: string, w: Wording)
    ensures forall k :: k != "meta_description" ==> Get(WithDerived(body, storedTitle, w), k) == Get(WithTitleDerived(body), k)
  {
    var b := WithTitleDerived(body);
    var description := Text(body, "description");
    if description.Some? {
      var title := Text(body, "title");
      var t := if title.Some? then title.value else storedTitle;
      UpdateOneFrame(b, "meta_description", Str(MetaDescription(t, description.value, w)));
    }
  }

  /** The description step: the meta description is derived when a description is given and kept otherwise. */
  lemma WithDerivedDescription(body: Body, storedTitle: string, w: Wording)
    ensures Text(body, "description").Some? ==>
      var t := if Text(body, "title").Some? then Text(body, "title").value else storedTitle;
      Get(WithDerived(body, storedTitle, w), "meta_description") == Str(MetaDescription(t, Text(body, "description").value, w))
    ensures Text(body, "description").None? ==>
      Get(WithDerived(body, storedTitle, w), "meta_description") == Get(body, "meta_description")
  {
    DerivedKeysDistinct();
  }

  /** Writing one key leaves every other key as it was. */
  lemma UpdateOneFrame(body: Body, key: string, v: Value)
    ensures forall k :: k != key ==> Get(body[key := v], k) == Get(body, k)
    ensures Get(body[key := v], key) == v
  {
  }

  /** The three derived keys are pairwise different. */
  lemma DerivedKeysDistinct()
    ensures "slug" != "meta_title" && "slug" != "meta_description" && "meta_title" != "meta_description"
  {
    assert |"slug"| == 4 && |"meta_title"| == 10 && |"meta_description"| == 16;
  }

  /** The paths the schema requires outright: the four text fields, and `releaseYear` of a movie or `author` of a track. */
  function RequiredKeys(kind: Kind): (ks: seq<string>)
    ensures |ks| == 5
    ensures forall i :: 0 <= i < 5 ==> ks[i] != "" && ks[i][0] != 'i' && ks[i][|ks[i]| - 1] != 'l' && !DerivedKey(ks[i])
  {
    ["title", "description", "content", "category", if kind.Movie? then "releaseYear" else "author"]
  }

  /**
   * A value the `required` validator refuses: an empty string, where a path
   * with a `trim` setter (the four text fields) is trimmed first and
   * `releaseYear` and `author`, which have none, are tested as sent.
   */
  predicate Blank(trimmed: bool, v: Value)
  {
    v.Str? && (if trimmed then Trim(v.s) else v.s) == ""
  }

  /**
   * The validators `runValidators: true` runs on the paths an update sets:
   * no required path may be sent blank, and a numeric rating lies in 0..5.
   */
  predicate ValidUpdate(kind: Kind, u: Body)
  {
    (forall i :: 0 <= i < 5 ==> !Blank(i < 4, Get(u, RequiredKeys(kind)[i])))
    && (Get(u, "rating").Num? ==> 0.0 <= Get(u, "rating").n <= 5.0)
  }

  /** The update sets a slug that another document already has: the unique index refuses it. */
  predicate UpdateSlugTaken(u: Body, taken: set<string>)
  {
    Get(u, "slug").Str? && Get(u, "slug").s in taken
  }

  /**
   * updateMovie and updateMusic, given the stored title of the document
   * with the id (none when there is no such document) and the slugs of the
   * other documents: 404 when there is none; otherwise the update is the
   * body with its derived fields, normalised platform by platform over the
   * schema's fields, and the store refuses it with 500 when a validator
   * fails and with 400 when its slug is taken.
   */
  method UpdateMedia(kind: Kind, stored: Option<string>, body: Body, taken: set<string>) returns (out: ArticleStore.Outcome<Body>)
    ensures stored.None? ==> out == ArticleStore.Fail(404)
    ensures stored.Some? ==>
      var u := Normalised(WithDerived(body, stored.value, WordingOf(kind)), Schema(kind));
      && (out.Ok? <==> ValidUpdate(kind, u) && !UpdateSlugTaken(u, taken))
      && (!ValidUpdate(kind, u) ==> out == ArticleStore.Fail(500))
      && (ValidUpdate(kind, u) && UpdateSlugTaken(u, taken) ==> out == ArticleStore.Fail(400))
      && (out.Ok? ==> out.value == u)
  {
    if stored.None? {
      return ArticleStore.Fail(404);
    }
    var u := body;
    var title := Text(u, "title");
    if title.Some? {
      u := u["slug" := Str(Slug(title.value))];
      u := u["meta_title" := Str(MetaTitle(title.value))];
    }
    var description := Text(body, "description");
    if description.Some? {
      var t := if title.Some? then title.value else stored.value;
      u := u["meta_description" := Str(MetaDescription(t, description.value, WordingOf(kind)))];
    }
    u := NormalisePlatforms(u, Schema(kind));
    if !ValidUpdate(kind, u) {
      out := ArticleStore.Fail(500);
    } else if UpdateSlugTaken(u, taken) {
      out := ArticleStore.Fail(400);
    } else {
      out := ArticleStore.Ok(u);
    }
  }

  /** No platform field is a key an update derives. */
  lemma DerivedKeysOutside(kind: Kind, k: string)
    requires DerivedKey(k)
    ensures Outside(Schema(kind), k)
  {
    var fs := Schema(kind);
    assert forall i :: 0 <= i < |fs| ==> fs[i].flag[0] == 'i' && fs[i].url[|fs[i].url| - 1] == 'l';
    assert k[0] != 'i' && k[|k| - 1] != 'l';
  }

  /**
   * What an update sends to the store for each platform: the flag
   * normalised, and the URL kept only when the flag was `true` or "true".
   */
  lemma UpdatePlatform(kind: Kind, storedTitle: string, body: Body, k: nat)
    requires k < 5
    ensures var u := Normalised(WithDerived(body, storedTitle, WordingOf(kind)), Schema(kind));
      var f := Schema(kind)[k];
      && Get(u, f.flag) == FlagAfter(Get(body, f.flag))
      && Get(u, f.url) == (if Coerced(Get(body, f.flag)) then Get(body, f.url) else Undefined)
  {
    var d := WithDerived(body, storedTitle, WordingOf(kind));
    var f := Schema(kind)[k];
    WithDerivedEffects(body, storedTitle, WordingOf(kind));
    DerivedKeysOutside(kind, "slug");
    DerivedKeysOutside(kind, "meta_title");
    DerivedKeysOutside(kind, "meta_description");
    assert !DerivedKey(f.flag) && !DerivedKey(f.url);
    SchemaUrlsCleared(kind, d, k);
  }

  /**
   * What an update sends to the store for the derived fields: the slug
   * (well formed) and meta title from a new title, the meta description
   * from a new description and the new or else the stored title.
   */
  lemma UpdateDerived(kind: Kind, storedTitle: string, body: Body)
    ensures var u := Normalised(WithDerived(body, storedTitle, WordingOf(kind)), Schema(kind));
      && (Text(body, "title").Some? ==>
            Get(u, "slug") == Str(Slug(Text(body, "title").value)) && IsSlug(Slug(Text(body, "title").value))
            && Get(u, "meta_title") == Str(MetaTitle(Text(body, "title").value)))
      && (Text(body, "description").Some? ==>
            var t := if Text(body, "title").Some? then Text(body, "title").value else storedTitle;
            Get(u, "meta_description") == Str(MetaDescription(t, Text(body, "description").value, WordingOf(kind))))
  {
    var d := WithDerived(body, storedTitle, WordingOf(kind));
    var fs := Schema(kind);
    WithDerivedEffects(body, storedTitle, WordingOf(kind));
    DerivedKeysOutside(kind, "slug");
    DerivedKeysOutside(kind, "meta_title");
    DerivedKeysOutside(kind, "meta_description");
    NormalisedFrame(d, fs, "slug");
    NormalisedFrame(d, fs, "meta_title");
    NormalisedFrame(d, fs, "meta_description");
    if Text(body, "title").Some? {
      SlugIsSlug(Text(body, "title").value);
    }
  }

  /** Every key that is neither a platform field nor derived reaches the store as it was sent. */
  lemma UpdateKeepsOtherKeys(kind: Kind, storedTitle: string, body: Body, key: string)
    requires Outside(Schema(kind), key) && !DerivedKey(key)
    ensures Get(Normalised(WithDerived(body, storedTitle, WordingOf(kind)), Schema(kind)), key) == Get(body, key)
  {
    WithDerivedEffects(body, storedTitle, WordingOf(kind));
    NormalisedFrame(WithDerived(body, storedTitle, WordingOf(kind)), Schema(kind), key);
  }

  /** A key that is required or the rating is neither a platform key nor derived. */
  lemma ValidatedKeysKept(kind: Kind, key: string)
    requires key == "rating" || key in RequiredKeys(kind)
    ensures Outside(Schema(kind), key) && !DerivedKey(key)
  {
    var fs := Schema(kind);
    assert forall i :: 0 <= i < |fs| ==> fs[i].flag[0] == 'i' && fs[i].url[|fs[i].url| - 1] == 'l';
    assert key != "" && key[0] != 'i' && key[|key| - 1] != 'l';
  }

  /**
   * The validators see the required paths and the rating as they were
   * sent: an update is valid exactly when no required path is sent blank
   * and a numeric rating sent lies in 0..5.
   */
  lemma UpdateValidatesSentPaths(kind: Kind, storedTitle: string, body: Body)
    ensures ValidUpdate(kind, Normalised(WithDerived(body, storedTitle, WordingOf(kind)), Schema(kind)))
      <==> (forall i :: 0 <= i < 5 ==> !Blank(i < 4, Get(body, RequiredKeys(kind)[i])))
           && (Get(body, "rating").Num? ==> 0.0 <= Get(body, "rating").n <= 5.0)
  {
    var u := Normalised(WithDerived(body, storedTitle, WordingOf(kind)), Schema(kind));
    forall i | 0 <= i < 5
      ensures Get(u, RequiredKeys(kind)[i]) == Get(body, RequiredKeys(kind)[i])
    {
      ValidatedKeysKept(kind, RequiredKeys(kind)[i]);
      UpdateKeepsOtherKeys(kind, storedTitle, body, RequiredKeys(kind)[i]);
    }
    ValidatedKeysKept(kind, "rating");
    UpdateKeepsOtherKeys(kind, storedTitle, body, "rating");
  }

  /** An `author` of spaces passes: that path has no `trim` setter, so it is not empty as sent. */
  lemma AuthorOfSpacesAccepted(storedTitle: string)
    ensures ValidUpdate(Music, Normalised(WithDerived(map["author" := Str("   ")], storedTitle, MusicWording), Schema(Music)))
  {
    var body := map["author" := Str("   ")];
    UpdateValidatesSentPaths(Music, storedTitle, body);
    assert RequiredKeys(Music)[4] == "author";
    forall i | 0 <= i < 4 ensures Get(body, RequiredKeys(Music)[i]) == Undefined {
      assert RequiredKeys(Music)[i][0] != 'a';
    }
  }

  /**
   * A new title whose slug another document already has makes a valid
   * update fail with the unique index's 400.
   */
  lemma UpdateTitleSlugTaken(kind: Kind, storedTitle: string, body: Body, taken: set<string>)
    requires Text(body, "title").Some? && Slug(Text(body, "title").value) in taken
    ensures UpdateSlugTaken(Normalised(WithDerived(body, storedTitle, WordingOf(kind)), Schema(kind)), taken)
  {
    UpdateDerived(kind, storedTitle, body);
  }

  /** `published_at` as the listing sorts by it. */
  function Published(m: Media): real
  {
    m.publishedAt as real
  }

  /** `{ tags: genre }`: the tracks whose tags hold the genre, in store order. */
  function TaggedWith(store: seq<Media>, genre: string): (r: seq<Media>)
    ensures |r| <= |store|
    ensures forall m :: m in r <==> m in store && genre in m.tags
  {
    if store == [] then []
    else (if genre in store[0].tags then [store[0]] else []) + TaggedWith(store[1..], genre)
  }

  datatype GenreListing = GenreListing(
    genre: string,
    results: nat,
    total: nat,
    totalPages: int,
    currentPage: int,
    music: seq<Media>)

  /**
   * One page of the tracks tagged with the genre, newest first, with the
   * counts of the whole selection: the positions skip, skip+1, … of the
   * date order, at most `limit` of them.
   */
  function GenrePage(store: seq<Media>, genre: string, page: int, limit: int): (l: GenreListing)
    requires limit != 0 && 0 <= ArticleStore.Skip(page, limit)
    ensures var sorted := SortDesc(TaggedWith(store, genre), Published);
      var skip := ArticleStore.Skip(page, limit);
      && l.genre == genre && l.currentPage == page
      && l.results == |l.music| && l.total == |TaggedWith(store, genre)|
      && l.totalPages == ArticleStore.CeilDiv(l.total, limit)
      && |l.music| == (var n := if limit < 0 then -limit else limit;
                       var avail := if skip < l.total then l.total - skip else 0;
                       if n < avail then n else avail)
      && (forall i :: 0 <= i < |l.music| ==> skip + i < |sorted| && l.music[i] == sorted[skip + i])
  {
    var tagged := TaggedWith(store, genre);
    var sorted := SortDesc(tagged, Published);
    SortDescPermutes(tagged, Published);
    var music := ArticleStore.Window(sorted, ArticleStore.Skip(page, limit), limit);
    GenreListing(genre, |music|, |tagged|, ArticleStore.CeilDiv(|tagged|, limit), page, music)
  }

  /**
   * A genre page shows only stored tracks carrying the genre, newest
   * first, and it is non-empty exactly when the page number is at most the
   * page count.
   */
  lemma GenrePageShows(store: seq<Media>, genre: string, page: int, limit: int)
    requires limit != 0 && 0 <= ArticleStore.Skip(page, limit)
    ensures var l := GenrePage(store, genre, page, limit);
      && (forall i :: 0 <= i < |l.music| ==> l.music[i] in store && genre in l.music[i].tags)
      && (forall i, j :: 0 <= i < j < |l.music| ==> l.music[i].publishedAt >= l.music[j].publishedAt)
      && (1 <= page && 1 <= limit ==> (l.music != [] <==> page <= l.totalPages))
  {
    var l := GenrePage(store, genre, page, limit);
    var skip := ArticleStore.Skip(page, limit);
    var tagged := TaggedWith(store, genre);
    var sorted := SortDesc(tagged, Published);
    SortDescPermutes(tagged, Published);
    SortDescSorted(tagged, Published);
    forall i | 0 <= i < |l.music| ensures l.music[i] in store && genre in l.music[i].tags {
      assert l.music[i] in multiset(sorted);
    }
    forall i, j | 0 <= i < j < |l.music| ensures l.music[i].publishedAt >= l.music[j].publishedAt {
      assert Published(sorted[skip + i]) >= Published(sorted[skip + j]);
    }
    if 1 <= page && 1 <= limit {
      ArticleStore.PageNonEmptyIff(|tagged|, page, limit);
    }
  }

  /**
   * getAllMusicByGenre: a page before the first gives a negative skip,
   * which the store refuses with 500; any other page is answered.
   */
  function ByGenre(store: seq<Media>, genre: string, page: int, limit: int): (r: ArticleStore.Outcome<GenreListing>)
    requires limit != 0
    ensures ArticleStore.Skip(page, limit) < 0 <==> r == ArticleStore.Fail(500)
    ensures r.Ok? ==> 0 <= ArticleStore.Skip(page, limit) && r.value == GenrePage(store, genre, page, limit)
  {
    if ArticleStore.Skip(page, limit) < 0 then ArticleStore.Fail(500)
    else ArticleStore.Ok(GenrePage(store, genre, page, limit))
  }
}

=== FILE: newsroom.dfy ===
/**
 * The cached article desk of controllers/zasp/article.controller.js: the
 * article store with its key-value cache, the handlers that create, update,
 * extend, mark, end and delete articles, and the two cached reads. Every
 * write deletes the cache keys it may have made stale by glob pattern.
 */
module Newsroom {
  import opened Js
  import opened ContentItem
  import opened Derive
  import opened ArticleModel
  import opened ArticleStore
  import opened KeyValueCache

  /** Listing pages are kept for five days, single articles for an hour. */
  const ListTtl: nat := 432000
  const ArticleTtl: nat := 3600
  /** A newly breaking article stays breaking for thirty minutes. */
  const BreakingWindow: int := 30 * 60 * 1000
  const DefaultPage: int := 1
  const DefaultListLimit: int := 10

  /** `invalidateArticleCache`: the listing, headline and category families. */
  const SiteFamilies: seq<string> := ["articles:*", "headline:*", "category:*"]

  /** A read's answer, with whether it came from the cache. */
  datatype Answer = Answer(cached: bool, payload: Payload)

  function ArticleKey(s: string): string
  {
    "article:" + s
  }

  function ListKey(page: int, limit: int): string
  {
    CacheKey("articles:list", [IntToString(page), IntToString(limit)])
  }

  /** The per-category headline keys a category-headline change deletes. */
  function CategoryHeadlineKeys(cats: seq<string>): (r: seq<string>)
    ensures |r| == |cats|
    ensures forall i :: 0 <= i < |cats| ==> r[i] == "category:headline:" + cats[i]
  {
    seq(|cats|, i requires 0 <= i < |cats| => "category:headline:" + cats[i])
  }

  /** `article:<slug>` and `article:<id>`. */
  function ArticleKeys(a: Stored): seq<string>
  {
    [ArticleKey(a.slug), ArticleKey(NatToString(a.id))]
  }

  /** What an update sweeps once it has stored the article. */
  function UpdateSweep(a: Stored): seq<string>
  {
    ArticleKeys(a) + ["articles:list:*"] + SiteFamilies
  }

  /** What deleteArticle sweeps as written: the three families only. */
  const DeleteSweepAsWritten: seq<string> := SiteFamilies

  /** What deleteArticle must sweep so that the deleted article is no longer served. */
  function DeleteSweep(a: Stored): seq<string>
  {
    SiteFamilies + ArticleKeys(a)
  }

  /** A pattern inside the headline or category family. */
  predicate UnderFamily(p: string)
  {
    "headline:" <= p || "category:" <= p
  }

  lemma FamilyLiterals()
    ensures NoStar("articles:") && NoStar("headline:") && NoStar("category:")
    ensures SiteFamilies[0] == "articles:" + "*"
    ensures SiteFamilies[1] == "headline:" + "*"
    ensures SiteFamilies[2] == "category:" + "*"
  {
    assert "articles:" + "*" == "articles:*";
    assert "headline:" + "*" == "headline:*";
    assert "category:" + "*" == "category:*";
  }

  /** A key the three families leave alone starts with none of their prefixes. */
  lemma SiteFamiliesKeep<V>(m: map<string, Entry<V>>, key: string)
    ensures key in Sweep(m, SiteFamilies) <==>
      key in m && !("articles:" <= key) && !("headline:" <= key) && !("category:" <= key)
  {
    FamilyLiterals();
    PrefixGlob("articles:", key);
    PrefixGlob("headline:", key);
    PrefixGlob("category:", key);
    assert Untouched(SiteFamilies, key) <==>
      !Glob(SiteFamilies[0], key) && !Glob(SiteFamilies[1], key) && !Glob(SiteFamilies[2], key);
  }

  /** A pattern under a family only matches keys the family matches too. */
  lemma FamilyCovers(p: string, key: string)
    requires UnderFamily(p) && Glob(p, key)
    ensures !Untouched(SiteFamilies, key)
  {
    FamilyLiterals();
    var lit := if "headline:" <= p then "headline:" else "category:";
    assert p == lit + p[|lit|..];
    GlobLiteralPrefix(lit, p[|lit|..], key);
    PrefixGlob(lit, key);
    assert Glob(SiteFamilies[if lit == "headline:" then 1 else 2], key);
  }

  /**
   * Sweeping first by patterns under the families and later by a list that
   * holds the families leaves what the later sweep alone leaves.
   */
  lemma {:induction false} SweepSubsumed<V>(m: map<string, Entry<V>>, early: seq<string>, rest: seq<string>)
    requires forall i :: 0 <= i < |early| ==> UnderFamily(early[i])
    requires forall j :: 0 <= j < |SiteFamilies| ==> SiteFamilies[j] in rest
    ensures Sweep(m, early + rest) == Sweep(m, rest)
  {
    var l := Sweep(m, early + rest);
    var r := Sweep(m, rest);
    forall k ensures k in l <==> k in r {
      UntouchedAppend(early, rest, k);
      if Untouched(rest, k) {
        forall j | 0 <= j < |SiteFamilies| ensures !Glob(SiteFamilies[j], k) {
          var n :| 0 <= n < |rest| && rest[n] == SiteFamilies[j];
        }
        forall i | 0 <= i < |early| ensures !Glob(early[i], k) {
          if Glob(early[i], k) {
            FamilyCovers(early[i], k);
          }
        }
      }
    }
    assert l == r;
  }

  /** A sweep under the families followed by one that holds them is the second sweep alone. */
  lemma FamiliesAfter<V>(m: map<string, Entry<V>>, early: seq<string>, rest: seq<string>)
    requires forall i :: 0 <= i < |early| ==> UnderFamily(early[i])
    requires forall j :: 0 <= j < |SiteFamilies| ==> SiteFamilies[j] in rest
    ensures Sweep(Sweep(m, early), rest) == Sweep(m, rest)
  {
    SweepAppend(m, early, rest);
    SweepSubsumed(m, early, rest);
  }

  /** The families a create sweeps once it has stored the article cover what it swept before. */
  lemma CreateSweepSubsumed<V>(m: map<string, Entry<V>>, r: CreateRequest)
    ensures Sweep(Sweep(m, CreateEarly(r)), SiteFamilies) == Sweep(m, SiteFamilies)
  {
    FamiliesAfter(m, CreateEarly(r), SiteFamilies);
  }

  /** The listing keys start with `articles:`, so the families sweep every page. */
  lemma ListKeySwept<V>(m: map<string, Entry<V>>, page: int, limit: int)
    ensures ListKey(page, limit) !in Sweep(m, SiteFamilies)
  {
    var k := ListKey(page, limit);
    assert "articles:list" + ":" <= k;
    assert "articles:" <= k by {
      assert k[..9] == ("articles:list" + ":")[..9];
    }
    SiteFamiliesKeep(m, k);
  }

  /** A sweep that lists a key removes it, whatever the key holds. */
  lemma KeySwept<V>(m: map<string, Entry<V>>, patterns: seq<string>, key: string)
    requires key in patterns
    ensures key !in Sweep(m, patterns)
  {
    GlobSelf(key);
  }

  /**
   * The deleteArticle sweep as written keeps `article:<slug>`: none of the
   * three families matches it, so after a delete the article is still
   * served from the cache with the value it had.
   */
  lemma DeletedArticleStaysCached<V>(m: map<string, Entry<V>>, a: Stored)
    requires ArticleKey(a.slug) in m
    ensures ArticleKey(a.slug) in Sweep(m, DeleteSweepAsWritten)
    ensures Sweep(m, DeleteSweepAsWritten)[ArticleKey(a.slug)] == m[ArticleKey(a.slug)]
  {
    var k := ArticleKey(a.slug);
    assert k[7] == ':' && "articles:"[7] == 's';
    assert k[0] == 'a';
    SiteFamiliesKeep(m, k);
  }

  /** The corrected sweep removes both per-article keys as well as the families. */
  lemma DeleteSweepRemovesArticle<V>(m: map<string, Entry<V>>, a: Stored, page: int, limit: int)
    ensures ArticleKey(a.slug) !in Sweep(m, DeleteSweep(a))
    ensures ArticleKey(NatToString(a.id)) !in Sweep(m, DeleteSweep(a))
    ensures ListKey(page, limit) !in Sweep(m, DeleteSweep(a))
  {
    KeySwept(m, DeleteSweep(a), ArticleKey(a.slug));
    KeySwept(m, DeleteSweep(a), ArticleKey(NatToString(a.id)));
    SweepAppend(m, SiteFamilies, ArticleKeys(a));
    ListKeySwept(m, page, limit);
  }

  /** The store after a create has cleared the flags the new article takes over. */
  function CreateCleared(docs: seq<Stored>, r: CreateRequest): (d: seq<Stored>)
    ensures |d| == |docs|
    ensures r.isHeadline ==> forall i :: 0 <= i < |d| ==> !d[i].isHeadline
    ensures r.isCategoryHeadline ==> forall i :: 0 <= i < |d| ==>
      !(d[i].isCategoryHeadline && SharesCategory(d[i], CategoryList(r.category)))
    ensures forall i :: 0 <= i < |d| ==> d[i].id == docs[i].id && d[i].slug == docs[i].slug
    ensures !r.isHeadline && !r.isCategoryHeadline ==> d == docs
  {
    var d1 := if r.isHeadline then ClearHeadlines(docs) else docs;
    if r.isCategoryHeadline then ClearCategoryHeadlines(d1, CategoryList(r.category)) else d1
  }

  lemma CreateClearedKeepsInvariant(docs: seq<Stored>, r: CreateRequest)
    requires StoreInvariant(docs)
    ensures StoreInvariant(CreateCleared(docs, r))
  {
    var d1 := if r.isHeadline then ClearHeadlines(docs) else docs;
    if r.isHeadline {
      ClearHeadlinesKeepsInvariant(docs);
    }
    if r.isCategoryHeadline {
      ClearCategoryKeepsInvariant(d1, CategoryList(r.category));
    }
  }

  /** The keys a create deletes before it builds the article. */
  function CreateEarly(r: CreateRequest): (p: seq<string>)
    ensures forall i :: 0 <= i < |p| ==> UnderFamily(p[i])
  {
    var keys := CategoryHeadlineKeys(CategoryList(r.category));
    assert forall i :: 0 <= i < |keys| ==> "category:" <= keys[i] by {
      forall i | 0 <= i < |keys| ensures "category:" <= keys[i] {
        assert keys[i] == "category:" + ("headline:" + CategoryList(r.category)[i]);
      }
    }
    (if r.isHeadline then ["headline:*"] else []) + (if r.isCategoryHeadline then keys else [])
  }

  /** The update body after the handler's rewrites, field by field. */
  function Rewrite(p: Patch, existing: Stored, now: Millis, w: Wording): Patch
  {
    p.(isHeadline := if existing.isHeadline && !Truthy(p.isHeadline) then None else p.isHeadline,
       isCategoryHeadline := if existing.isCategoryHeadline && !Truthy(p.isCategoryHeadline) then None else p.isCategoryHeadline,
       breakingExpiresAt := if Truthy(p.isBreaking) && !existing.isBreaking then Some(Some(now + BreakingWindow))
                            else if p.isBreaking == Some(false) then Some(None)
                            else p.breakingExpiresAt,
       isLive := if Truthy(p.wasLive) then Some(false) else p.isLive,
       metaTitle := if Given(p.title) then Some(MetaTitle(p.title.value)) else p.metaTitle,
       metaDescription :=
         if Given(p.description)
         then Some(MetaDescription(if Given(p.title) then p.title.value else existing.title, p.description.value, w))
         else p.metaDescription)
  }

  /**
   * What the rewritten body does to the article: a current headline or
   * category headline cannot be unset, a newly breaking article expires in
   * thirty minutes and `isBreaking: false` clears the expiry, `wasLive`
   * takes the article off live, and a new title or description regenerates
   * the meta fields, the description from the new title or the stored one.
   * The slug, content and categories the body gives are stored as given.
   */
  lemma RewriteEffects(p: Patch, existing: Stored, now: Millis, w: Wording)
    ensures var a := Apply(existing, Rewrite(p, existing, now, w));
      && (a.isHeadline <==> existing.isHeadline || Truthy(p.isHeadline))
      && (a.isCategoryHeadline <==> existing.isCategoryHeadline || Truthy(p.isCategoryHeadline))
      && (Truthy(p.isBreaking) && !existing.isBreaking ==> a.isBreaking && a.breakingExpiresAt == Some(now + BreakingWindow))
      && (p.isBreaking == Some(false) ==> !a.isBreaking && a.breakingExpiresAt == None)
      && (Truthy(p.wasLive) ==> !a.isLive && a.wasLive)
      && (Given(p.title) ==> a.title == p.title.value && a.metaTitle == MetaTitle(p.title.value) && |a.metaTitle| <= MetaTitleMax)
      && (Given(p.description) ==>
            a.metaDescription == MetaDescription(if Given(p.title) then p.title.value else existing.title, p.description.value, w)
            && |a.metaDescription| <= MetaDescriptionMax)
      && a.id == existing.id
      && a.slug == Pick(p.slug, existing.slug) && a.content == Pick(p.content, existing.content)
      && a.category == Pick(p.category, existing.category)
  {
  }

  /** The handler's rewrites of the update body, one rule after the other. */
  method RewriteUpdate(p: Patch, existing: Stored, now: Millis, w: Wording) returns (u: Patch)
    ensures u == Rewrite(p, existing, now, w)
  {
    u := p;
    if Truthy(u.isHeadline) && !existing.isHeadline {
    } else if existing.isHeadline && !Truthy(u.isHeadline) {
      u := u.(isHeadline := None);
    }
    if !Truthy(u.isCategoryHeadline) && existing.isCategoryHeadline {
      u := u.(isCategoryHeadline := None);
    }
    if Truthy(u.isBreaking) && !existing.isBreaking {
      u := u.(breakingExpiresAt := Some(Some(now + BreakingWindow)));
    } else if u.isBreaking == Some(false) {
      u := u.(breakingExpiresAt := Some(None));
    }
    if Truthy(u.wasLive) {
      u := u.(isLive := Some(false));
    }
    if Given(u.title) {
      u := u.(metaTitle := Some(MetaTitle(u.title.value)));
    }
    if Given(u.description) {
      var t := if Given(u.title) then u.title.value else existing.title;
      u := u.(metaDescription := Some(MetaDescription(t, u.description.value, w)));
    }
  }

  /** The store after an update has cleared the flags the article takes over. */
  function UpdateCleared(docs: seq<Stored>, existing: Stored, p: Patch): (d: seq<Stored>)
    ensures |d| == |docs|
    ensures Truthy(p.isHeadline) ==> forall i :: 0 <= i < |d| ==> d[i].isHeadline ==> docs[i].isHeadline && existing.isHeadline
    ensures Truthy(p.isCategoryHeadline) ==> forall i :: 0 <= i < |d| ==>
      !(d[i].isCategoryHeadline && SharesCategory(d[i], existing.category))
    ensures forall i :: 0 <= i < |d| ==> d[i].id == docs[i].id && d[i].slug == docs[i].slug
    ensures forall i :: 0 <= i < |d| ==> d[i].isHeadline ==> docs[i].isHeadline
  {
    var d1 := if Truthy(p.isHeadline) && !existing.isHeadline then ClearHeadlines(docs) else docs;
    if Truthy(p.isCategoryHeadline) then ClearCategoryHeadlines(d1, existing.category) else d1
  }

  /** The keys an update deletes before it stores the article. */
  function UpdateEarly(existing: Stored, p: Patch): (keys: seq<string>)
    ensures forall i :: 0 <= i < |keys| ==> UnderFamily(keys[i])
  {
    var cats := CategoryHeadlineKeys(existing.category);
    assert forall i :: 0 <= i < |cats| ==> "category:" <= cats[i] by {
      forall i | 0 <= i < |cats| ensures "category:" <= cats[i] {
        assert cats[i] == "category:" + ("headline:" + existing.category[i]);
      }
    }
    (if Truthy(p.isHeadline) && !existing.isHeadline then ["headline:*"] else [])
    + (if Truthy(p.isCategoryHeadline) then cats else [])
  }

  /**
   * The update applied to the cleared store gives the same article as applied
   * to the one found: the flags a clearing reset are the ones the body sets.
   */
  lemma ClearedApply(docs: seq<Stored>, i: nat, p: Patch, now: Millis, w: Wording)
    requires i < |docs|
    ensures UpdateCleared(docs, docs[i], p)[i].(isHeadline := docs[i].isHeadline, isCategoryHeadline := docs[i].isCategoryHeadline) == docs[i]
    ensures Apply(UpdateCleared(docs, docs[i], p)[i], Rewrite(p, docs[i], now, w)) == Apply(docs[i], Rewrite(p, docs[i], now, w))
  {
  }

  /**
   * After an update the store keeps its invariant: the clearing alone keeps
   * it, which is what a refused update leaves; an accepted update keeps it
   * when the body's slug is no other article's, the only article that can
   * become the headline is the updated one, and then every other headline
   * has been cleared.
   */
  lemma UpdateKeepsInvariant(docs: seq<Stored>, i: nat, p: Patch, now: Millis, w: Wording)
    requires StoreInvariant(docs) && i < |docs|
    ensures StoreInvariant(UpdateCleared(docs, docs[i], p))
    ensures var d := UpdateCleared(docs, docs[i], p);
      !SlugTaken(d, i, p.slug) ==> StoreInvariant(d[i := Apply(docs[i], Rewrite(p, docs[i], now, w))])
  {
    var existing := docs[i];
    var d := UpdateCleared(docs, existing, p);
    var a := Apply(existing, Rewrite(p, existing, now, w));
    SameKeysKeepUnique(docs, d);
    assert OneHeadline(d);
    if !SlugTaken(d, i, p.slug) {
      RewriteEffects(p, existing, now, w);
      assert a.isHeadline ==> forall j :: 0 <= j < |d| && j != i ==> !d[j].isHeadline;
      if p.slug.None? {
        OwnSlugNotTaken(d, i);
      }
      ReplaceKeepsInvariant(d, i, a);
    }
  }

  /**
   * The category-headline clearing is keyed to the categories the article
   * had before the update: a category headline outside them survives, even
   * when the body moves the article into its category and makes it the
   * category headline there.
   */
  lemma ClearingKeyedToStoredCategories(docs: seq<Stored>, i: nat, j: nat, p: Patch, now: Millis, w: Wording)
    requires i < |docs| && j < |docs| && i != j
    requires docs[j].isCategoryHeadline && !SharesCategory(docs[j], docs[i].category)
    requires Truthy(p.isCategoryHeadline) && p.category == Some(docs[j].category) && docs[j].category != []
    ensures var d := UpdateCleared(docs, docs[i], p);
      var a := Apply(docs[i], Rewrite(p, docs[i], now, w));
      d[j].isCategoryHeadline && a.isCategoryHeadline && a.category == d[j].category
  {
    RewriteEffects(p, docs[i], now, w);
  }

  class Newsroom {
    var docs: seq<Stored>
    const cache: Cache<Payload>
    /** The default wording of the article model's meta description. */
    const wording: Wording

    predicate Valid()
      reads this
    {
      StoreInvariant(docs)
    }

    constructor(wording: Wording)
      ensures docs == [] && fresh(cache) && cache.entries == map[] && this.wording == wording
      ensures Valid()
    {
      docs := [];
      cache := new Cache<Payload>();
      this.wording := wording;
    }

    /**
     * The clearing a create does before it builds the article: a headline
     * clears every headline and deletes the headline keys, a category
     * headline clears every category headline sharing one of its categories
     * and deletes each category's headline key.
     */
    method ClearForCreate(r: CreateRequest, reachable: bool)
      requires Valid()
      modifies this, cache
      ensures Valid()
      ensures docs == CreateCleared(old(docs), r)
      ensures cache.entries == (if reachable then Sweep(old(cache.entries), CreateEarly(r)) else old(cache.entries))
    {
      CreateClearedKeepsInvariant(docs, r);
      ghost var swept: seq<string> := [];
      if r.isHeadline {
        docs := ClearHeadlines(docs);
        cache.DeleteByPatterns(["headline:*"], reachable);
        swept := ["headline:*"];
      }
      if r.isCategoryHeadline {
        var cats := CategoryList(r.category);
        docs := ClearCategoryHeadlines(docs, cats);
        if reachable {
          SweepAppend(old(cache.entries), swept, CategoryHeadlineKeys(cats));
        }
        cache.DeleteByPatterns(CategoryHeadlineKeys(cats), reachable);
        swept := swept + CategoryHeadlineKeys(cats);
      }
      assert swept == CreateEarly(r);
    }

    /**
     * createArticle: 400 on a missing field; the flag clearing; then 400 if
     * the article fails validation or its slug is taken (the clearing
     * stays), else the article is stored and the three families are swept.
     */
    method CreateArticle(r: CreateRequest, id: nat, entryId: nat, reachable: bool) returns (out: Outcome<Stored>)
      requires Valid()
      requires forall i :: 0 <= i < |docs| ==> docs[i].id != id
      modifies this, cache
      ensures Valid()
      ensures !reachable ==> cache.entries == old(cache.entries)
      ensures MissingField(r) ==> out == Fail(400) && docs == old(docs) && cache.entries == old(cache.entries)
      ensures !MissingField(r) ==>
        var cleared := CreateCleared(old(docs), r);
        var a := NewArticle(r, id, entryId, wording);
        && (ValidArticle(a) && IndexOfSlug(cleared, a.slug).None? ==>
              out == Ok(a) && docs == cleared + [a]
              && (reachable ==> cache.entries == Sweep(old(cache.entries), SiteFamilies)))
        && (!ValidArticle(a) || IndexOfSlug(cleared, a.slug).Some? ==>
              out == Fail(400) && docs == cleared
              && (reachable ==> cache.entries == Sweep(old(cache.entries), CreateEarly(r))))
    {
      if MissingField(r) {
        return Fail(400);
      }
      ClearForCreate(r, reachable);
      assert forall i :: 0 <= i < |docs| ==> docs[i].id != id;
      var a := NewArticle(r, id, entryId, wording);
      var accepted := ValidArticle(a) && IndexOfSlug(docs, a.slug).None?;
      if !accepted {
        return Fail(400);
      }
      assert a.isHeadline ==> forall i :: 0 <= i < |docs| ==> !docs[i].isHeadline;
      AppendKeepsInvariant(docs, a);
      docs := docs + [a];
      if reachable {
        CreateSweepSubsumed(old(cache.entries), r);
      }
      cache.DeleteByPatterns(SiteFamilies, reachable);
      out := Ok(a);
    }

    /**
     * The clearing an update does before it stores the article: a body that
     * makes a new headline clears every headline and deletes the headline
     * keys; a body that sets the category headline clears every category
     * headline sharing one of the stored article's categories and deletes
     * each of their headline keys.
     */
    method ClearForUpdate(existing: Stored, p: Patch, reachable: bool)
      modifies this, cache
      ensures docs == UpdateCleared(old(docs), existing, p)
      ensures cache.entries == (if reachable then Sweep(old(cache.entries), UpdateEarly(existing, p)) else old(cache.entries))
    {
      ghost var swept: seq<string> := [];
      if Truthy(p.isHeadline) && !existing.isHeadline {
        docs := ClearHeadlines(docs);
        cache.DeleteByPatterns(["headline:*"], reachable);
        swept := ["headline:*"];
      }
      if Truthy(p.isCategoryHeadline) {
        docs := ClearCategoryHeadlines(docs, existing.category);
        if reachable {
          SweepAppend(old(cache.entries), swept, CategoryHeadlineKeys(existing.category));
        }
        cache.DeleteByPatterns(CategoryHeadlineKeys(existing.category), reachable);
        swept := swept + CategoryHeadlineKeys(existing.category);
      }
      assert swept == UpdateEarly(existing, p);
    }

    /**
     * updateArticle by slug: 404 if none; the flag clearing; the body is
     * rewritten; 500 if the update validators refuse it and 400 if its slug
     * is another article's (the clearing stays either way); otherwise the
     * article found is updated in place and the per-article keys, the
     * listing pages and the three families are swept.
     */
    method UpdateArticle(slug: string, p: Patch, now: Millis, reachable: bool) returns (out: Outcome<Stored>)
      requires Valid()
      modifies this, cache
      ensures Valid()
      ensures !reachable ==> cache.entries == old(cache.entries)
      ensures IndexOfSlug(old(docs), slug).None? ==> out == Fail(404) && docs == old(docs) && cache.entries == old(cache.entries)
      ensures IndexOfSlug(old(docs), slug).Some? ==>
        var i := IndexOfSlug(old(docs), slug).value;
        var existing := old(docs)[i];
        var cleared := UpdateCleared(old(docs), existing, p);
        var u := Rewrite(p, existing, now, wording);
        var a := Apply(existing, u);
        var accepted := UpdateValid(u) && !SlugTaken(cleared, i, p.slug);
        && (accepted ==>
              out == Ok(a) && docs == cleared[i := a]
              && (reachable ==> cache.entries == Sweep(old(cache.entries), UpdateSweep(a))))
        && (!UpdateValid(u) ==> out == Fail(500))
        && (UpdateValid(u) && SlugTaken(cleared, i, p.slug) ==> out == Fail(400))
        && (!accepted ==>
              docs == cleared
              && (reachable ==> cache.entries == Sweep(old(cache.entries), UpdateEarly(existing, p))))
    {
      var found := IndexOfSlug(docs, slug);
      if found.None? {
        return Fail(404);
      }
      var i := found.value;
      var existing := docs[i];
      ClearForUpdate(existing, p, reachable);
      UpdateKeepsInvariant(old(docs), i, p, now, wording);
      var u := RewriteUpdate(p, existing, now, wording);
      if !UpdateValid(u) {
        return Fail(500);
      }
      if SlugTaken(docs, i, u.slug) {
        return Fail(400);
      }
      ClearedApply(old(docs), i, p, now, wording);
      var a := Apply(docs[i], u);
      docs := docs[i := a];
      if reachable {
        assert forall j :: 0 <= j < |SiteFamilies| ==> SiteFamilies[j] == UpdateSweep(a)[j + 3];
        FamiliesAfter(old(cache.entries), UpdateEarly(existing, p), UpdateSweep(a));
      }
      cache.DeleteByPatterns(UpdateSweep(a), reachable);
      out := Ok(a);
    }

    /**
     * addLiveUpdate: 400 on a missing text, 404 on an unknown article, 400
     * if it is not live, 500 if the save fails; otherwise the entry is
     * appended and the per-article keys are swept.
     */
    method AddLiveUpdate(id: nat, lu: LiveUpdate, entryId: nat, now: Millis, reachable: bool)
      returns (out: Outcome<LiveEntry>)
      requires Valid()
      modifies this, cache
      ensures Valid()
      ensures !reachable ==> cache.entries == old(cache.entries)
      ensures var e := UpdateEntry(lu, entryId, now);
        && (MissingUpdateField(lu) ==> out == Fail(400))
        && (!MissingUpdateField(lu) && IndexOfId(old(docs), id).None? ==> out == Fail(404))
        && (!MissingUpdateField(lu) && IndexOfId(old(docs), id).Some? ==>
              var i := IndexOfId(old(docs), id).value;
              var a := old(docs)[i];
              && (!a.isLive ==> out == Fail(400))
              && (a.isLive && WithLiveUpdate(a, e).Fail? ==> out == Fail(500))
              && (a.isLive && WithLiveUpdate(a, e).Ok? ==>
                    out == Ok(e) && docs == old(docs)[i := WithLiveUpdate(a, e).value]
                    && (reachable ==> cache.entries == Sweep(old(cache.entries), ArticleKeys(a)))))
      ensures out.Fail? ==> docs == old(docs) && cache.entries == old(cache.entries)
    {
      if MissingUpdateField(lu) {
        return Fail(400);
      }
      var found := IndexOfId(docs, id);
      if found.None? {
        return Fail(404);
      }
      var i := found.value;
      var a := docs[i];
      if !a.isLive {
        return Fail(400);
      }
      var e := UpdateEntry(lu, entryId, now);
      var saved := WithLiveUpdate(a, e);
      if saved.Fail? {
        return Fail(500);
      }
      ReplaceKeepsInvariant(docs, i, saved.value);
      docs := docs[i := saved.value];
      cache.DeleteByPatterns(ArticleKeys(saved.value), reachable);
      out := Ok(e);
    }

    /**
     * markAsKeyEvent: 404 on an unknown article or entry; otherwise the
     * first entry with the id becomes a key event and the per-article keys
     * are swept.
     */
    method MarkAsKeyEvent(id: nat, entryId: nat, reachable: bool) returns (out: Outcome<LiveEntry>)
      requires Valid()
      modifies this, cache
      ensures Valid()
      ensures !reachable ==> cache.entries == old(cache.entries)
      ensures IndexOfId(old(docs), id).None? ==> out == Fail(404)
      ensures IndexOfId(old(docs), id).Some? ==>
        var i := IndexOfId(old(docs), id).value;
        var m := MarkedKey(old(docs)[i], entryId);
        && (m.Fail? ==> out == Fail(m.status))
        && (m.Ok? ==>
              out.Ok? && out.value.isKey && out.value.id == entryId && docs == old(docs)[i := m.value]
              && (reachable ==> cache.entries == Sweep(old(cache.entries), ArticleKeys(old(docs)[i]))))
      ensures out.Fail? ==> docs == old(docs) && cache.entries == old(cache.entries)
    {
      var found := IndexOfId(docs, id);
      if found.None? {
        return Fail(404);
      }
      var i := found.value;
      var m := MarkedKey(docs[i], entryId);
      if m.Fail? {
        return Fail(m.status);
      }
      MarkedKeyOnlyThat(docs[i], entryId);
      var k := FirstEntry(docs[i].content.entries, entryId).value;
      ReplaceKeepsInvariant(docs, i, m.value);
      docs := docs[i := m.value];
      cache.DeleteByPatterns(ArticleKeys(m.value), reachable);
      out := Ok(m.value.content.entries[k]);
    }

    /** endLiveArticle: 404 on an unknown article; otherwise it is ended and its keys swept. */
    method EndLive(id: nat, reachable: bool) returns (out: Outcome<Stored>)
      requires Valid()
      modifies this, cache
      ensures Valid()
      ensures !reachable ==> cache.entries == old(cache.entries)
      ensures IndexOfId(old(docs), id).None? ==> out == Fail(404) && docs == old(docs) && cache.entries == old(cache.entries)
      ensures IndexOfId(old(docs), id).Some? ==>
        var i := IndexOfId(old(docs), id).value;
        && out == Ok(Ended(old(docs)[i])) && docs == old(docs)[i := Ended(old(docs)[i])]
        && (reachable ==> cache.entries == Sweep(old(cache.entries), ArticleKeys(old(docs)[i])))
    {
      var found := IndexOfId(docs, id);
      if found.None? {
        return Fail(404);
      }
      var i := found.value;
      var a := Ended(docs[i]);
      ReplaceKeepsInvariant(docs, i, a);
      docs := docs[i := a];
      cache.DeleteByPatterns(ArticleKeys(a), reachable);
      out := Ok(a);
    }

    /**
     * deleteArticle, corrected: 404 on an unknown article; otherwise it
     * leaves the store, and the three families and both per-article keys are
     * swept, so neither a listing nor the article itself is served stale.
     */
    method DeleteArticle(id: nat, reachable: bool) returns (out: Outcome<Stored>)
      requires Valid()
      modifies this, cache
      ensures Valid()
      ensures !reachable ==> cache.entries == old(cache.entries)
      ensures IndexOfId(old(docs), id).None? ==> out == Fail(404) && docs == old(docs) && cache.entries == old(cache.entries)
      ensures IndexOfId(old(docs), id).Some? ==>
        var i := IndexOfId(old(docs), id).value;
        && out == Ok(old(docs)[i]) && docs == RemoveAt(old(docs), i)
        && (reachable ==> cache.entries == Sweep(old(cache.entries), DeleteSweep(old(docs)[i])))
      ensures out.Ok? && reachable ==> ArticleKey(out.value.slug) !in cache.entries
      ensures out.Ok? ==> forall j :: 0 <= j < |docs| ==> docs[j].id != id && docs[j].slug != out.value.slug
    {
      var found := IndexOfId(docs, id);
      if found.None? {
        return Fail(404);
      }
      var i := found.value;
      var a := docs[i];
      RemoveKeepsInvariant(docs, i);
      assert forall j :: 0 <= j < |docs| - 1 ==> RemoveAt(docs, i)[j] == (if j < i then docs[j] else docs[j + 1]);
      docs := RemoveAt(docs, i);
      if reachable {
        DeleteSweepRemovesArticle(old(cache.entries), a, DefaultPage, DefaultListLimit);
      }
      cache.DeleteByPatterns(DeleteSweep(a), reachable);
      out := Ok(a);
    }

    /**
     * getArticles: page and limit default to 1 and 10 when missing, zero or
     * not numbers; a cached page is answered as stored; otherwise the page
     * is computed (a negative skip is refused by the store with 500), kept
     * for five days and answered uncached.
     */
    method GetArticles(parsedPage: Option<int>, parsedLimit: Option<int>, reachable: bool) returns (out: Outcome<Answer>)
      modifies cache
      ensures var page := ParsedOr(parsedPage, DefaultPage);
        var limit := ParsedOr(parsedLimit, DefaultListLimit);
        var key := ListKey(page, limit);
        && (old(cache.Lookup(key, reachable)).Some? ==>
              out == Ok(Answer(true, old(cache.Lookup(key, reachable)).value)) && cache.entries == old(cache.entries))
        && (old(cache.Lookup(key, reachable)).None? && Skip(page, limit) < 0 ==>
              out == Fail(500) && cache.entries == old(cache.entries))
        && (old(cache.Lookup(key, reachable)).None? && 0 <= Skip(page, limit) ==>
              out == Ok(Answer(false, ListPayload(docs, page, limit)))
              && cache.entries == (if reachable then old(cache.entries)[key := Entry(ListPayload(docs, page, limit), ListTtl)]
                                   else old(cache.entries)))
    {
      var page := ParsedOr(parsedPage, DefaultPage);
      var limit := ParsedOr(parsedLimit, DefaultListLimit);
      var key := ListKey(page, limit);
      var hit := cache.Get(key, reachable);
      if hit.Some? {
        return Ok(Answer(true, hit.value));
      }
      if Skip(page, limit) < 0 {
        return Fail(500);
      }
      var payload := ListPayload(docs, page, limit);
      cache.Set(key, payload, ListTtl, reachable);
      out := Ok(Answer(false, payload));
    }

    /**
     * getArticleById by slug: a cached article is answered as stored;
     * otherwise 404 if none has the slug, 500 if its key events cannot be
     * read, else the article and its key events, kept for an hour.
     */
    method GetArticleById(slug: string, reachable: bool) returns (out: Outcome<Answer>)
      modifies cache
      ensures var key := ArticleKey(slug);
        && (old(cache.Lookup(key, reachable)).Some? ==>
              out == Ok(Answer(true, old(cache.Lookup(key, reachable)).value)) && cache.entries == old(cache.entries))
        && (old(cache.Lookup(key, reachable)).None? && IndexOfSlug(docs, slug).None? ==>
              out == Fail(404) && cache.entries == old(cache.entries))
        && (old(cache.Lookup(key, reachable)).None? && IndexOfSlug(docs, slug).Some? ==>
              var a := docs[IndexOfSlug(docs, slug).value];
              && (KeyEvents(a).Fail? ==> out == Fail(500) && cache.entries == old(cache.entries))
              && (KeyEvents(a).Ok? ==>
                    var view := ArticleView(a, KeyEvents(a).value);
                    out == Ok(Answer(false, view))
                    && cache.entries == (if reachable then old(cache.entries)[key := Entry(view, ArticleTtl)] else old(cache.entries))))
    {
      var key := ArticleKey(slug);
      var hit := cache.Get(key, reachable);
      if hit.Some? {
        return Ok(Answer(true, hit.value));
      }
      var found := IndexOfSlug(docs, slug);
      if found.None? {
        return Fail(404);
      }
      var a := docs[found.value];
      var events := KeyEvents(a);
      if events.Fail? {
        return Fail(500);
      }
      var view := ArticleView(a, events.value);
      cache.Set(key, view, ArticleTtl, reachable);
      out := Ok(Answer(false, view));
    }
  }

  /**
   * A read after a delete: with the corrected sweep the deleted article is
   * no longer served, neither from the cache nor from the store.
   */
  method DeleteThenRead(desk: Newsroom, id: nat, reachable: bool) returns (read: Outcome<Answer>)
    requires desk.Valid() && IndexOfId(desk.docs, id).Some?
    modifies desk, desk.cache
    ensures read == Fail(404)
  {
    var slug := desk.docs[IndexOfId(desk.docs, id).value].slug;
    var deleted := desk.DeleteArticle(id, reachable);
    read := desk.GetArticleById(slug, reachable);
  }
}

=== FILE: product_cron.dfy ===
/**
 * One cycle of the product status job (middleware/productCron.js): the map
 * from promoted products to their promotion's thumbnail, the updates that
 * turn promoted products in stock into deals, and the status decision for
 * every product outside a promotion, with its change counters. The store's
 * queries become filters over the product list, and each `updateOne` of a
 * bulk write becomes an `Update` record in a list.
 */
module ProductCron {
  import opened Js
  import opened ContentItem

  datatype Promotion = Promotion(
    status: string,
    start: Millis,
    end: Millis,
    /** `products` when it is an array. */
    products: Option<seq<string>>,
    thumbnail: Option<string>)

  datatype Product = Product(
    id: string,
    status: string,
    quantity: int,
    createdAt: Option<Millis>,
    thumbnail: Option<string>)

  /** The fields one `updateOne` sets; a field left `None` is not set. */
  datatype Update = Update(id: string, status: Option<string>, thumbnail: Option<string>)

  /** The change counters of the non-promoted phase. */
  datatype Counts = Counts(newArrival: nat, soldOut: nat, active: nat)

  const Day: int := 24 * 60 * 60 * 1000
  const NewArrivalDays: int := 4

  /** The promotion query: status 'active', and now between start and end, both inclusive. */
  predicate Active(p: Promotion, now: Millis)
  {
    p.status == "active" && p.start <= now <= p.end
  }

  /** `promo.thumbnail || ''`. */
  function Thumb(p: Promotion): string
  {
    if p.thumbnail.Some? then p.thumbnail.value else ""
  }

  /** The map after one active promotion has been added: each of its products goes to its thumbnail. */
  function AddPromotion(m: map<string, string>, p: Promotion, now: Millis): map<string, string>
  {
    if Active(p, now) && p.products.Some? then m + map id | id in p.products.value :: Thumb(p) else m
  }

  /** The promotion map after the promotions in order; a later promotion overwrites an earlier one. */
  function PromotionMap(ps: seq<Promotion>, now: Millis): map<string, string>
  {
    if ps == [] then map[] else AddPromotion(PromotionMap(ps[..|ps| - 1], now), ps[|ps| - 1], now)
  }

  /** The promotion p of ps lists the product. */
  predicate Lists(p: Promotion, id: string, now: Millis)
  {
    Active(p, now) && p.products.Some? && id in p.products.value
  }

  /**
   * A product is in the map exactly when some active promotion lists it,
   * and then it goes to the thumbnail of the last such promotion.
   */
  lemma {:induction false} PromotionMapSpec(ps: seq<Promotion>, now: Millis, id: string)
    ensures id in PromotionMap(ps, now) <==> exists i :: 0 <= i < |ps| && Lists(ps[i], id, now)
    ensures forall i :: 0 <= i < |ps| && Lists(ps[i], id, now) && (forall j :: i < j < |ps| ==> !Lists(ps[j], id, now)) ==>
      id in PromotionMap(ps, now) && PromotionMap(ps, now)[id] == Thumb(ps[i])
  {
    if ps != [] {
      var init := ps[..|ps| - 1];
      var last := ps[|ps| - 1];
      PromotionMapSpec(init, now, id);
      assert forall i :: 0 <= i < |init| ==> init[i] == ps[i];
      if Lists(last, id, now) {
        assert PromotionMap(ps, now)[id] == Thumb(last);
      } else {
        assert id in PromotionMap(ps, now) <==> id in PromotionMap(init, now);
        assert id in PromotionMap(ps, now) ==> PromotionMap(ps, now)[id] == PromotionMap(init, now)[id];
      }
    }
  }

  /** Phase 1: the nested loops that fill the promotion map. */
  method BuildPromotionMap(ps: seq<Promotion>, now: Millis) returns (m: map<string, string>)
    ensures m == PromotionMap(ps, now)
  {
    m := map[];
    for i := 0 to |ps|
      invariant m == PromotionMap(ps[..i], now)
    {
      assert ps[..i + 1][..i] == ps[..i];
      var p := ps[i];
      if Active(p, now) && p.products.Some? {
        var ids := p.products.value;
        ghost var before := m;
        for j := 0 to |ids|
          invariant m == before + map id | id in ids[..j] :: Thumb(p)
        {
          assert ids[..j + 1] == ids[..j] + [ids[j]];
          m := m[ids[j] := Thumb(p)];
        }
        assert ids[..|ids|] == ids;
      }
    }
    assert ps[..|ps|] == ps;
  }

  /**
   * Phase 2 for one product: a promoted product in stock is set to 'deal'
   * with its promotion's thumbnail, and only when one of the two differs.
   */
  function DealUpdate(p: Product, m: map<string, string>): (r: Option<Update>)
    ensures r.Some? <==> p.id in m && p.quantity > 0 && (p.status != "deal" || p.thumbnail != Some(m[p.id]))
    ensures r.Some? ==> r.value == Update(p.id, Some("deal"), Some(m[p.id]))
  {
    if p.id in m && p.quantity > 0 && (p.status != "deal" || p.thumbnail != Some(m[p.id])) then
      Some(Update(p.id, Some("deal"), Some(m[p.id])))
    else None
  }

  /** `isNewArrival`: a creation date no earlier than four days before now; no date is never new. */
  predicate IsNewArrival(createdAt: Option<Millis>, now: Millis)
  {
    createdAt.Some? && createdAt.value >= now - NewArrivalDays * Day
  }

  /** The status a product outside every promotion should have. */
  function NewStatus(p: Product, now: Millis): (s: string)
    ensures s == "sold_out" <==> p.quantity <= 0
    ensures s == "new_arrival" <==> p.quantity > 0 && IsNewArrival(p.createdAt, now)
    ensures s == "active" <==> p.quantity > 0 && !IsNewArrival(p.createdAt, now)
  {
    if p.quantity <= 0 then "sold_out"
    else if IsNewArrival(p.createdAt, now) then "new_arrival"
    else "active"
  }

  /** `product.promotion_thumbnail && product.promotion_thumbnail !== ''`. */
  predicate HasThumbnail(p: Product)
  {
    p.thumbnail.Some? && p.thumbnail.value != ""
  }

  /**
   * Phase 3 for one product outside the map: a thumbnail is cleared, the
   * status is set only when it changes, and there is an update only when
   * one of the two happens.
   */
  function ReviewUpdate(p: Product, now: Millis): (r: Option<Update>)
    ensures r.Some? <==> HasThumbnail(p) || p.status != NewStatus(p, now)
    ensures r.Some? ==> r.value.id == p.id
    ensures r.Some? ==> (r.value.thumbnail == Some("") <==> HasThumbnail(p)) && (r.value.thumbnail.None? <==> !HasThumbnail(p))
    ensures r.Some? ==> (r.value.status == Some(NewStatus(p, now)) <==> p.status != NewStatus(p, now))
    ensures r.Some? ==> (r.value.status.None? <==> p.status == NewStatus(p, now))
  {
    var s := NewStatus(p, now);
    if HasThumbnail(p) || p.status != s then
      Some(Update(p.id, if p.status != s then Some(s) else None, if HasThumbnail(p) then Some("") else None))
    else None
  }

  /** The `$set` of an update applied to a product. */
  function Apply(p: Product, u: Update): (q: Product)
    requires u.id == p.id
    ensures q.id == p.id && q.quantity == p.quantity && q.createdAt == p.createdAt
    ensures q.status == (if u.status.Some? then u.status.value else p.status)
    ensures q.thumbnail == (if u.thumbnail.Some? then u.thumbnail else p.thumbnail)
  {
    p.(status := if u.status.Some? then u.status.value else p.status,
       thumbnail := if u.thumbnail.Some? then u.thumbnail else p.thumbnail)
  }

  /** A promoted product that was updated is a deal with the thumbnail, and the next cycle leaves it alone. */
  lemma DealSettles(p: Product, m: map<string, string>)
    requires DealUpdate(p, m).Some?
    ensures var q := Apply(p, DealUpdate(p, m).value);
      q.status == "deal" && q.thumbnail == Some(m[p.id]) && DealUpdate(q, m).None?
  {
  }

  /** A product outside every promotion, once updated, has its status and no thumbnail, and the next cycle leaves it alone. */
  lemma ReviewSettles(p: Product, now: Millis)
    requires ReviewUpdate(p, now).Some?
    ensures var q := Apply(p, ReviewUpdate(p, now).value);
      q.status == NewStatus(p, now) && !HasThumbnail(q) && ReviewUpdate(q, now).None?
  {
  }

  /** Phase 2 over the products: the updates in product order. */
  function DealUpdates(ps: seq<Product>, m: map<string, string>): (r: seq<Update>)
    ensures |r| <= |ps|
  {
    if ps == [] then []
    else
      var u := DealUpdate(ps[|ps| - 1], m);
      DealUpdates(ps[..|ps| - 1], m) + (if u.Some? then [u.value] else [])
  }

  /** Phase 3 over the products outside the map. */
  function ReviewUpdates(ps: seq<Product>, m: map<string, string>, now: Millis): (r: seq<Update>)
    ensures |r| <= |ps|
  {
    if ps == [] then []
    else
      var p := ps[|ps| - 1];
      var u := if p.id in m then None else ReviewUpdate(p, now);
      ReviewUpdates(ps[..|ps| - 1], m, now) + (if u.Some? then [u.value] else [])
  }

  /** `statusChanges[newStatus]++`. */
  function Bump(c: Counts, status: string): Counts
  {
    if status == "new_arrival" then c.(newArrival := c.newArrival + 1)
    else if status == "sold_out" then c.(soldOut := c.soldOut + 1)
    else c.(active := c.active + 1)
  }

  /** The counters after phase 3: one count per update, under the product's new status. */
  function ReviewCounts(ps: seq<Product>, m: map<string, string>, now: Millis): (c: Counts)
    ensures c.newArrival + c.soldOut + c.active == |ReviewUpdates(ps, m, now)|
  {
    if ps == [] then Counts(0, 0, 0)
    else
      var p := ps[|ps| - 1];
      var c := ReviewCounts(ps[..|ps| - 1], m, now);
      if p.id !in m && ReviewUpdate(p, now).Some? then Bump(c, NewStatus(p, now)) else c
  }

  /** Every update of either phase concerns some product, and says what the phase promises. */
  lemma {:induction false} UpdatesSpec(ps: seq<Product>, m: map<string, string>, now: Millis)
    ensures forall u :: u in DealUpdates(ps, m) ==>
      exists i :: 0 <= i < |ps| && DealUpdate(ps[i], m) == Some(u)
    ensures forall u :: u in ReviewUpdates(ps, m, now) ==>
      exists i :: 0 <= i < |ps| && ps[i].id !in m && ReviewUpdate(ps[i], now) == Some(u)
  {
    if ps != [] {
      var init := ps[..|ps| - 1];
      UpdatesSpec(init, m, now);
      assert forall i :: 0 <= i < |init| ==> init[i] == ps[i];
    }
  }

  /** Each product with an update of its phase has that update in the list. */
  lemma {:induction false} UpdatesComplete(ps: seq<Product>, m: map<string, string>, now: Millis, i: nat)
    requires i < |ps|
    ensures DealUpdate(ps[i], m).Some? ==> DealUpdate(ps[i], m).value in DealUpdates(ps, m)
    ensures ps[i].id !in m && ReviewUpdate(ps[i], now).Some? ==> ReviewUpdate(ps[i], now).value in ReviewUpdates(ps, m, now)
  {
    var init := ps[..|ps| - 1];
    if i < |ps| - 1 {
      assert init[i] == ps[i];
      UpdatesComplete(init, m, now, i);
    }
  }

  /**
   * A promoted product out of stock is left untouched: no update of either
   * phase names it, provided product ids are unique.
   */
  lemma PromotedOutOfStockUntouched(ps: seq<Product>, m: map<string, string>, now: Millis, k: nat)
    requires k < |ps| && ps[k].id in m && ps[k].quantity <= 0
    requires forall i, j :: 0 <= i < j < |ps| ==> ps[i].id != ps[j].id
    ensures forall u :: u in DealUpdates(ps, m) + ReviewUpdates(ps, m, now) ==> u.id != ps[k].id
  {
    UpdatesSpec(ps, m, now);
  }

  /** The result of one cycle: the two bulk writes and the counters. */
  datatype CycleResult = CycleResult(promotion: map<string, string>, deals: seq<Update>, reviews: seq<Update>, counts: Counts)

  /** Phase 2: one pass over the products in the map with stock, collecting the deal updates. */
  method DealPhase(ps: seq<Product>, m: map<string, string>) returns (deals: seq<Update>)
    ensures deals == DealUpdates(ps, m)
  {
    deals := [];
    for i := 0 to |ps|
      invariant deals == DealUpdates(ps[..i], m)
    {
      assert ps[..i + 1][..i] == ps[..i];
      var u := DealUpdate(ps[i], m);
      if u.Some? {
        deals := deals + [u.value];
      }
    }
    assert ps[..|ps|] == ps;
  }

  /** Phase 3: one pass over the products outside the map, collecting the updates and counting the new statuses. */
  method ReviewPhase(ps: seq<Product>, m: map<string, string>, now: Millis) returns (reviews: seq<Update>, counts: Counts)
    ensures reviews == ReviewUpdates(ps, m, now)
    ensures counts == ReviewCounts(ps, m, now)
  {
    reviews := [];
    counts := Counts(0, 0, 0);
    for i := 0 to |ps|
      invariant reviews == ReviewUpdates(ps[..i], m, now)
      invariant counts == ReviewCounts(ps[..i], m, now)
    {
      assert ps[..i + 1][..i] == ps[..i];
      var p := ps[i];
      if p.id !in m {
        var newStatus := NewStatus(p, now);
        var updates := ReviewUpdate(p, now);
        if updates.Some? {
          reviews := reviews + [updates.value];
          counts := Bump(counts, newStatus);
        }
      }
    }
    assert ps[..|ps|] == ps;
  }

  /** One cycle of the job, phase by phase, as the job runs it. */
  method Cycle(promos: seq<Promotion>, ps: seq<Product>, now: Millis) returns (r: CycleResult)
    ensures r.promotion == PromotionMap(promos, now)
    ensures r.deals == DealUpdates(ps, r.promotion)
    ensures r.reviews == ReviewUpdates(ps, r.promotion, now)
    ensures r.counts == ReviewCounts(ps, r.promotion, now)
  {
    var m := BuildPromotionMap(promos, now);
    var deals := DealPhase(ps, m);
    var reviews, counts := ReviewPhase(ps, m, now);
    r := CycleResult(m, deals, reviews, counts);
  }
}

=== FILE: rank_article.dfy ===
/**
 * The keyword-weight relevance scorer (utils/rankArticle.js). The weight
 * table is a parameter: its entries in the order `Object.entries` yields
 * them.
 */
module RankArticle {
  import opened Js
  import opened ContentItem

  /** `Object.entries(keywordRelevance)`. */
  type Weights = seq<(string, real)>

  /** The amplification applied to the accumulated keyword sum. */
  const Amplification: real := 4.5

  /** Object keys are unique. */
  predicate DistinctKeys(w: Weights)
  {
    forall i, j :: 0 <= i < j < |w| ==> w[i].0 != w[j].0
  }

  predicate NonNegativeWeights(w: Weights)
  {
    forall i :: 0 <= i < |w| ==> w[i].1 >= 0.0
  }

  /** `keywordRelevance[key]`: an exact-case property lookup. */
  function Lookup(w: Weights, key: string): (r: Option<real>)
    ensures r.Some? <==> exists i :: 0 <= i < |w| && w[i].0 == key
    ensures r.Some? ==> exists i :: 0 <= i < |w| && w[i] == (key, r.value)
  {
    if w == [] then None
    else if w[0].0 == key then Some(w[0].1)
    else Lookup(w[1..], key)
  }

  /** The lower-cased text the first pass searches: `${title} ${description}`. */
  function SearchText(title: string, description: string): string
  {
    Lower(title + " " + description)
  }

  /** What one table entry adds in the first pass. */
  function TextContribution(entry: (string, real), text: string): real
  {
    if Contains(text, Lower(entry.0)) then entry.1 else 0.0
  }

  /** The first pass over the first entries of the table. */
  function TextSum(w: Weights, text: string): real
  {
    if w == [] then 0.0
    else TextSum(w[..|w| - 1], text) + TextContribution(w[|w| - 1], text)
  }

  /** What one entry of `keywords` adds in the second pass. */
  function KeywordContribution(w: Weights, keyword: string): real
  {
    match Lookup(w, keyword)
    case Some(weight) => if weight != 0.0 then weight else 0.0
    case None => 0.0
  }

  /** The second pass over the article's `keywords`. */
  function KeywordSum(w: Weights, keywords: seq<string>): real
  {
    if keywords == [] then 0.0
    else KeywordSum(w, keywords[..|keywords| - 1]) + KeywordContribution(w, keywords[|keywords| - 1])
  }

  /** The relevance score of an article. */
  function Score(w: Weights, a: Article): real
  {
    (TextSum(w, SearchText(a.title, a.description)) + KeywordSum(w, a.keywords)) * Amplification
  }

  /**
   * rankArticle(article, source): the two accumulation loops and the final
   * multiplication. The credibility of the source is accepted and ignored,
   * and the article's tags are never read.
   */
  method Rank(article: Article, sourceCredibility: real, w: Weights) returns (score: real)
    ensures score == 4.5 * (TextSum(w, SearchText(article.title, article.description))
                            + KeywordSum(w, article.keywords))
    ensures score == Score(w, article)
  {
    var text := SearchText(article.title, article.description);
    var keywordScore := 0.0;
    var i := 0;
    while i < |w|
      invariant 0 <= i <= |w|
      invariant keywordScore == TextSum(w[..i], text)
    {
      assert w[..i + 1][..i] == w[..i];
      if Contains(text, Lower(w[i].0)) {
        keywordScore := keywordScore + w[i].1;
      }
      i := i + 1;
    }
    assert w[..|w|] == w;
    var textScore := keywordScore;
    var j := 0;
    while j < |article.keywords|
      invariant 0 <= j <= |article.keywords|
      invariant keywordScore == textScore + KeywordSum(w, article.keywords[..j])
    {
      assert article.keywords[..j + 1][..j] == article.keywords[..j];
      var weight := Lookup(w, article.keywords[j]);
      if weight.Some? && weight.value != 0.0 {
        keywordScore := keywordScore + weight.value;
      }
      j := j + 1;
    }
    assert article.keywords[..|article.keywords|] == article.keywords;
    score := keywordScore * 4.5;
  }

  lemma {:induction false} TextSumNonNegative(w: Weights, text: string)
    requires NonNegativeWeights(w)
    ensures TextSum(w, text) >= 0.0
  {
    if w != [] {
      TextSumNonNegative(w[..|w| - 1], text);
    }
  }

  lemma {:induction false} KeywordSumNonNegative(w: Weights, keywords: seq<string>)
    requires NonNegativeWeights(w)
    ensures KeywordSum(w, keywords) >= 0.0
  {
    if keywords != [] {
      KeywordSumNonNegative(w, keywords[..|keywords| - 1]);
      var k := keywords[|keywords| - 1];
      if Lookup(w, k).Some? {
        var i :| 0 <= i < |w| && w[i] == (k, Lookup(w, k).value);
      }
    }
  }

  /** With a table of non-negative weights every score is non-negative. */
  lemma ScoreNonNegative(w: Weights, a: Article)
    requires NonNegativeWeights(w)
    ensures Score(w, a) >= 0.0
  {
    TextSumNonNegative(w, SearchText(a.title, a.description));
    KeywordSumNonNegative(w, a.keywords);
  }

  /** The second pass is additive over `keywords`: a repeated entry adds again. */
  lemma {:induction false} KeywordSumAppend(w: Weights, k1: seq<string>, k2: seq<string>)
    ensures KeywordSum(w, k1 + k2) == KeywordSum(w, k1) + KeywordSum(w, k2)
    decreases |k2|
  {
    if k2 == [] {
      assert k1 + k2 == k1;
    } else {
      var front := k2[..|k2| - 1];
      assert (k1 + k2)[..|k1 + k2| - 1] == k1 + front;
      KeywordSumAppend(w, k1, front);
    }
  }

  /** Each entry of `keywords` adds its table weight, once per occurrence. */
  lemma KeywordRepeated(w: Weights, keywords: seq<string>, k: string, weight: real)
    requires Lookup(w, k) == Some(weight)
    ensures KeywordSum(w, keywords + [k, k]) == KeywordSum(w, keywords) + 2.0 * weight
  {
    KeywordSumAppend(w, keywords, [k, k]);
    KeywordSumAppend(w, [k], [k]);
    assert [k] + [k] == [k, k];
  }

  /** An entry of `keywords` missing from the table adds nothing. */
  lemma UnknownKeywordIgnored(w: Weights, keywords: seq<string>, k: string)
    requires forall i :: 0 <= i < |w| ==> w[i].0 != k
    ensures KeywordSum(w, keywords + [k]) == KeywordSum(w, keywords)
  {
    assert (keywords + [k])[..|keywords|] == keywords;
  }

  function PositivePart(w: Weights): real
  {
    if w == [] then 0.0
    else PositivePart(w[..|w| - 1]) + (if w[|w| - 1].1 > 0.0 then w[|w| - 1].1 else 0.0)
  }

  /**
   * However often a table keyword occurs in the text, the first pass adds its
   * weight at most once: the pass never exceeds the sum of the positive weights.
   */
  lemma {:induction false} TextSumAtMostOnce(w: Weights, text: string)
    ensures TextSum(w, text) <= PositivePart(w)
  {
    if w != [] {
      TextSumAtMostOnce(w[..|w| - 1], text);
    }
  }

  /** The first pass is decided by the lower-cased text alone. */
  lemma {:induction false} LowerIdempotent(s: string)
    ensures Lower(Lower(s)) == Lower(s)
  {
    if s != [] {
      LowerIdempotent(s[1..]);
      assert Lower(s)[1..] == Lower(s[1..]);
    }
  }

  /** Upper or lower case in title and description makes no difference to the score. */
  lemma ScoreCaseInsensitive(w: Weights, a: Article)
    ensures Score(w, a) == Score(w, a.(title := Lower(a.title), description := Lower(a.description)))
  {
    LowerConcat(a.title, " " + a.description);
    LowerConcat(" ", a.description);
    LowerIdempotent(a.title + " " + a.description);
    assert Lower(Lower(a.title) + " " + Lower(a.description)) == Lower(a.title + " " + a.description) by {
      LowerConcat(Lower(a.title), " " + Lower(a.description));
      LowerConcat(" ", Lower(a.description));
      LowerIdempotent(a.title);
      LowerIdempotent(a.description);
    }
  }

  /** No table keyword can match in the text " " of an empty article. */
  predicate NoBlankKeyword(w: Weights)
  {
    forall i :: 0 <= i < |w| ==> !Contains(" ", Lower(w[i].0))
  }

  lemma {:induction false} TextSumNoMatch(w: Weights, text: string)
    requires forall i :: 0 <= i < |w| ==> !Contains(text, Lower(w[i].0))
    ensures TextSum(w, text) == 0.0
  {
    if w != [] {
      TextSumNoMatch(w[..|w| - 1], text);
    }
  }

  /**
   * An article with no title, description or keywords scores 0 (given that no
   * table keyword is empty or a single space, which would match the " " that
   * joins title and description).
   */
  lemma EmptyArticleScoresZero(w: Weights, a: Article)
    requires NoBlankKeyword(w)
    requires a.title == "" && a.description == "" && a.keywords == []
    ensures Score(w, a) == 0.0
  {
    assert SearchText(a.title, a.description) == " ";
    TextSumNoMatch(w, " ");
  }
}

=== FILE: section_properties.dfy ===
/**
 * What the category/tag blend of the feed assembler guarantees: a first
 * block of at most six items in date order, a score-ordered mixed block
 * that is not de-duplicated, and a tail of fresh items only, which a limit
 * of 24 or less never shows.
 */
module SectionProperties {
  import opened Js
  import opened ContentItem
  import opened RankArticle
  import opened Sorting
  import opened Feed
  import opened FeedProperties

  // ---------------------------------------------------------------------
  // Membership through the list operations

  lemma TakeIn<T>(s: seq<T>, n: nat, x: T)
    requires x in Take(s, n)
    ensures x in s
  {
    var i :| 0 <= i < |Take(s, n)| && Take(s, n)[i] == x;
    assert s[i] == x;
  }

  lemma {:induction false} FreshItemsMember(s: seq<Scored>, x: Scored)
    ensures x in FreshItems(s) <==> x in s && x.isFresh
  {
    if s != [] {
      FreshItemsMember(s[1..], x);
      assert s == [s[0]] + s[1..];
    }
  }

  lemma SortMember(s: seq<Scored>, key: Scored -> real, x: Scored)
    ensures x in SortDesc(s, key) <==> x in s
  {
    SortDescPermutes(s, key);
    assert x in SortDesc(s, key) <==> x in multiset(SortDesc(s, key));
  }

  /** If an element of s is not among the first n, then there are n of them. */
  lemma TakeFull(s: seq<Scored>, n: nat, x: Scored)
    requires x in s
    requires x.article.id !in ItemIds(Take(s, n))
    ensures |Take(s, n)| == n
  {
    if |s| <= n {
      ItemIdsMember(s, x.article.id);
    }
  }

  /** Every element of a list that sorts above the n-th keeps its place ahead of the rest. */
  lemma PrefixDominates(s: seq<Scored>, n: nat, x: Scored, y: Scored, key: Scored -> real)
    requires SortedDesc(s, key)
    requires x in Take(s, n)
    requires y in s && y !in Take(s, n)
    ensures key(x) >= key(y)
  {
    var t := Take(s, n);
    var i :| 0 <= i < |t| && t[i] == x;
    var j :| 0 <= j < |s| && s[j] == y;
    assert forall k :: 0 <= k < |t| ==> t[k] == s[k];
    assert s[i] == x;
  }

  lemma IdsOfPermutation(a: seq<Scored>, b: seq<Scored>)
    requires multiset(a) == multiset(b)
    ensures ItemIds(a) == ItemIds(b)
  {
    forall id ensures id in ItemIds(a) <==> id in ItemIds(b) {
      ItemIdsMember(a, id);
      ItemIdsMember(b, id);
      forall x ensures x in a <==> x in b {
        assert x in a <==> x in multiset(a);
        assert x in b <==> x in multiset(b);
      }
    }
  }

  // ---------------------------------------------------------------------
  // The first block

  /**
   * The first block: the first (up to) three fresh items in the candidates'
   * order, then up to three of the best-scored items not already chosen,
   * re-sorted newest first.
   */
  lemma {:induction false} FirstSixBlock(all: seq<Article>, now: Millis, w: Weights, limit: int)
    ensures var s := BuildSections(all, now, w, limit);
      && s.firstSixLatest <= s.freshItems
      && |s.firstSixLatest| == (if |s.freshItems| < 3 then |s.freshItems| else 3)
      && |s.firstSixRanked| <= 3
      && ItemIds(s.firstSixRanked) !! ItemIds(s.firstSixLatest)
      && |s.firstSix| == |s.firstSixLatest| + |s.firstSixRanked| <= TopSectionSize
      && multiset(s.firstSix) == multiset(s.firstSixLatest) + multiset(s.firstSixRanked)
      && SortedDesc(s.firstSix, DateKey)
  {
    var s := BuildSections(all, now, w, limit);
    var pair := s.firstSixLatest + s.firstSixRanked;
    SortDescPermutes(pair, DateKey);
    SortDescSorted(pair, DateKey);
    assert s.firstSix == SortDesc(pair, DateKey);
    TakeIds(s.ranked, ItemIds(s.firstSixLatest), 3);
  }

  /**
   * When the candidates arrive newest first, as the query sorts them, the
   * fresh picks of the first block are the newest fresh items: none left
   * out of them is newer.
   */
  lemma {:induction false} FirstSixLatestNewest(all: seq<Article>, now: Millis, w: Weights, limit: int, x: Scored, y: Scored)
    requires NewestFirst(all)
    requires var s := BuildSections(all, now, w, limit);
      && x in s.firstSixLatest
      && y in ProcessAll(all, now, w) && y.isFresh && y !in s.firstSixLatest
    ensures DateKey(x) >= DateKey(y)
  {
    var s := BuildSections(all, now, w, limit);
    var processed := ProcessAll(all, now, w);
    ProcessedNewestFirst(all, now, w);
    FreshItemsSorted(processed, DateKey);
    FreshItemsMember(processed, y);
    PrefixDominates(s.freshItems, 3, x, y, DateKey);
  }

  /** A newest-first candidate list processes into a newest-first list. */
  lemma ProcessedNewestFirst(all: seq<Article>, now: Millis, w: Weights)
    requires NewestFirst(all)
    ensures SortedDesc(ProcessAll(all, now, w), DateKey)
  {
    var processed := ProcessAll(all, now, w);
    forall i, j | 0 <= i < j < |processed| ensures DateKey(processed[i]) >= DateKey(processed[j]) {
      assert all[i].publishedAt >= all[j].publishedAt;
    }
  }

  lemma TakeIds(s: seq<Scored>, placed: set<string>, n: nat)
    ensures ItemIds(Take(Without(s, placed), n)) !! placed
  {
    var t := Without(s, placed);
    WithoutIds(s, placed);
    assert t == Take(t, n) + t[|Take(t, n)|..];
    ItemIdsAppend(Take(t, n), t[|Take(t, n)|..]);
  }

  /** Every item of the first block is one of the fresh items or one of the ranked picks. */
  lemma FirstSixMember(all: seq<Article>, now: Millis, w: Weights, limit: int, x: Scored)
    requires x in BuildSections(all, now, w, limit).firstSix
    ensures var s := BuildSections(all, now, w, limit);
      (x in s.firstSixLatest && x.isFresh) || x in s.firstSixRanked
  {
    var s := BuildSections(all, now, w, limit);
    FirstSixBlock(all, now, w, limit);
    assert x in multiset(s.firstSix);
    if x in s.firstSixLatest {
      TakeIn(s.freshItems, 3, x);
      FreshItemsMember(ProcessAll(all, now, w), x);
    }
  }

  /**
   * The ranked picks of the first block are the best-scored items outside
   * the fresh picks: no item left out of them scores higher.
   */
  lemma {:induction false} FirstSixRankedBest(all: seq<Article>, now: Millis, w: Weights, limit: int, x: Scored, y: Scored)
    requires var s := BuildSections(all, now, w, limit);
      && x in s.firstSixRanked
      && y in ProcessAll(all, now, w) && y.article.id !in ItemIds(s.firstSixLatest)
      && y !in s.firstSixRanked
    ensures x.score >= y.score
  {
    var s := BuildSections(all, now, w, limit);
    var processed := ProcessAll(all, now, w);
    var rest := Without(s.ranked, ItemIds(s.firstSixLatest));
    SortMember(processed, ScoreKey, y);
    WithoutMember(s.ranked, ItemIds(s.firstSixLatest), y);
    SortDescSorted(processed, ScoreKey);
    WithoutSorted(s.ranked, ItemIds(s.firstSixLatest), ScoreKey);
    PrefixDominates(rest, 3, x, y, ScoreKey);
  }

  // ---------------------------------------------------------------------
  // The mixed block

  /**
   * The mixed block is the next nine fresh items and the next nine ranked
   * items outside the first block, together, ordered by score: a
   * permutation of the two lists, not a de-duplicated union.
   */
  lemma {:induction false} MixedBlock(all: seq<Article>, now: Millis, w: Weights, limit: int)
    ensures var s := BuildSections(all, now, w, limit);
      && |s.mixedLatest| <= MixedLatestCount
      && |s.mixedRanked| <= MixedRankedCount
      && var freshLeft := Without(s.freshItems, ItemIds(s.firstSix));
      var rankedLeft := Without(s.ranked, ItemIds(s.firstSix));
      && s.mixedLatest <= freshLeft
      && |s.mixedLatest| == (if |freshLeft| < MixedLatestCount then |freshLeft| else MixedLatestCount)
      && s.mixedRanked <= rankedLeft
      && |s.mixedRanked| == (if |rankedLeft| < MixedRankedCount then |rankedLeft| else MixedRankedCount)
      && |s.mixed| == |s.mixedLatest| + |s.mixedRanked|
      && multiset(s.mixed) == multiset(s.mixedLatest) + multiset(s.mixedRanked)
      && SortedDesc(s.mixed, ScoreKey)
      && (forall x :: x in s.mixedLatest ==> x.isFresh && x.article.id !in ItemIds(s.firstSix))
      && (forall x :: x in s.mixedRanked ==> x.article.id !in ItemIds(s.firstSix))
  {
    var s := BuildSections(all, now, w, limit);
    var processed := ProcessAll(all, now, w);
    SortDescPermutes(s.mixedLatest + s.mixedRanked, ScoreKey);
    SortDescSorted(s.mixedLatest + s.mixedRanked, ScoreKey);
    forall x | x in s.mixedLatest ensures x.isFresh && x.article.id !in ItemIds(s.firstSix) {
      TakeIn(Without(s.freshItems, ItemIds(s.firstSix)), MixedLatestCount, x);
      WithoutMember(s.freshItems, ItemIds(s.firstSix), x);
      FreshItemsMember(processed, x);
    }
    forall x | x in s.mixedRanked ensures x.article.id !in ItemIds(s.firstSix) {
      TakeIn(Without(s.ranked, ItemIds(s.firstSix)), MixedRankedCount, x);
      WithoutMember(s.ranked, ItemIds(s.firstSix), x);
    }
  }

  /**
   * The ranked picks of the mixed block are the best-scored items outside
   * the first block: no item left out of them scores higher.
   */
  lemma {:induction false} MixedRankedBest(all: seq<Article>, now: Millis, w: Weights, limit: int, x: Scored, y: Scored)
    requires var s := BuildSections(all, now, w, limit);
      && x in s.mixedRanked
      && y in ProcessAll(all, now, w) && y.article.id !in ItemIds(s.firstSix)
      && y !in s.mixedRanked
    ensures x.score >= y.score
  {
    var s := BuildSections(all, now, w, limit);
    var processed := ProcessAll(all, now, w);
    var rest := Without(s.ranked, ItemIds(s.firstSix));
    SortMember(processed, ScoreKey, y);
    WithoutMember(s.ranked, ItemIds(s.firstSix), y);
    SortDescSorted(processed, ScoreKey);
    WithoutSorted(s.ranked, ItemIds(s.firstSix), ScoreKey);
    PrefixDominates(rest, MixedRankedCount, x, y, ScoreKey);
  }

  lemma {:induction false} FreshItemsSorted(s: seq<Scored>, key: Scored -> real)
    requires SortedDesc(s, key)
    ensures SortedDesc(FreshItems(s), key)
  {
    if s != [] {
      FreshItemsSorted(s[1..], key);
      var r := FreshItems(s[1..]);
      if s[0].isFresh {
        forall i | 0 <= i < |r| ensures key(s[0]) >= key(r[i]) {
          FreshItemsMember(s[1..], r[i]);
          var j :| 0 <= j < |s[1..]| && s[1..][j] == r[i];
          assert s[j + 1] == r[i];
        }
        assert forall i :: 1 <= i < |[s[0]] + r| ==> ([s[0]] + r)[i] == r[i - 1];
      }
    }
  }

  /**
   * When the candidates arrive newest first, as the query sorts them, the
   * fresh picks of the mixed block are the newest fresh items outside the
   * first block: no such item left out of them is newer.
   */
  lemma {:induction false} MixedLatestNewest(all: seq<Article>, now: Millis, w: Weights, limit: int, x: Scored, y: Scored)
    requires NewestFirst(all)
    requires var s := BuildSections(all, now, w, limit);
      && x in s.mixedLatest
      && y in ProcessAll(all, now, w) && y.isFresh && y.article.id !in ItemIds(s.firstSix)
      && y !in s.mixedLatest
    ensures DateKey(x) >= DateKey(y)
  {
    var s := BuildSections(all, now, w, limit);
    var processed := ProcessAll(all, now, w);
    var rest := Without(s.freshItems, ItemIds(s.firstSix));
    ProcessedNewestFirst(all, now, w);
    FreshItemsSorted(processed, DateKey);
    FreshItemsMember(processed, y);
    WithoutMember(s.freshItems, ItemIds(s.firstSix), y);
    WithoutSorted(s.freshItems, ItemIds(s.firstSix), DateKey);
    PrefixDominates(rest, MixedLatestCount, x, y, DateKey);
  }

  /**
   * An item picked both as a remaining fresh item and as a remaining ranked
   * item occurs twice in the mixed block.
   */
  lemma MixedRepeats(all: seq<Article>, now: Millis, w: Weights, limit: int, x: Scored)
    requires x in BuildSections(all, now, w, limit).mixedLatest
    requires x in BuildSections(all, now, w, limit).mixedRanked
    ensures multiset(BuildSections(all, now, w, limit).mixed)[x] >= 2
  {
    MixedBlock(all, now, w, limit);
  }

  // ---------------------------------------------------------------------
  // The tail and the whole list

  /**
   * The tail candidates are exactly the fresh items that neither block
   * placed. The tail holds only such items: the first limit - 24 of them
   * in their order for a limit of at least 24, and for a smaller limit the
   * candidates less the last 24 - limit of them.
   */
  lemma {:induction false} TailBlock(all: seq<Article>, now: Millis, w: Weights, limit: int)
    ensures var s := BuildSections(all, now, w, limit);
      && (forall x :: x in s.tailCandidates <==>
            x in ProcessAll(all, now, w) && x.isFresh && x.article.id !in ItemIds(s.firstSix + s.mixed))
      && (forall x :: x in s.remainingLatest ==>
            x.isFresh && x in ProcessAll(all, now, w) && x.article.id !in ItemIds(s.firstSix + s.mixed))
      && s.remainingLatest <= s.tailCandidates
      && (limit >= MixedSectionSize ==> s.remainingLatest == Take(s.tailCandidates, limit - MixedSectionSize))
      && (limit < MixedSectionSize ==>
            |s.remainingLatest| == if |s.tailCandidates| + limit < MixedSectionSize then 0
                                   else |s.tailCandidates| + limit - MixedSectionSize)
  {
    var s := BuildSections(all, now, w, limit);
    forall x ensures x in s.tailCandidates <==>
      x in ProcessAll(all, now, w) && x.isFresh && x.article.id !in ItemIds(s.firstSix + s.mixed)
    {
      WithoutMember(s.freshItems, ItemIds(s.firstSix + s.mixed), x);
      FreshItemsMember(ProcessAll(all, now, w), x);
    }
    forall x | x in s.remainingLatest
      ensures x.isFresh && x in ProcessAll(all, now, w) && x.article.id !in ItemIds(s.firstSix + s.mixed)
    {
      assert x in s.tailCandidates by {
        var i :| 0 <= i < |s.remainingLatest| && s.remainingLatest[i] == x;
        assert s.tailCandidates[i] == x;
      }
      WithoutMember(s.freshItems, ItemIds(s.firstSix + s.mixed), x);
      FreshItemsMember(ProcessAll(all, now, w), x);
    }
  }

  /**
   * A stale item reaches the category/tag feed only as one of the ranked
   * picks of the first block or of the mixed block.
   */
  lemma {:induction false} StaleOnlyWhenRanked(all: seq<Article>, now: Millis, w: Weights, limit: int, x: Scored)
    requires x in SectionBlend(all, now, w, limit).articles
    requires !x.isFresh
    ensures var s := BuildSections(all, now, w, limit);
      x in s.firstSixRanked || x in s.mixedRanked
  {
    var s := BuildSections(all, now, w, limit);
    var whole := s.firstSix + s.mixed + s.remainingLatest;
    assert x in whole by {
      var r := SectionBlend(all, now, w, limit).articles;
      var i :| 0 <= i < |r| && r[i] == x;
      assert whole[i] == x;
    }
    TailBlock(all, now, w, limit);
    MixedBlock(all, now, w, limit);
    if x in s.firstSix {
      FirstSixMember(all, now, w, limit, x);
    } else if x in s.mixed {
      assert x in multiset(s.mixed);
    }
  }

  /**
   * With a limit of 24 or less the tail never shows: a tail item exists
   * only when both blocks are full (6 + 9 + 9 = 24 items). The reported
   * tail count still counts the items a negative slice end leaves.
   */
  lemma {:induction false} TailHiddenUpTo24(all: seq<Article>, now: Millis, w: Weights, limit: int)
    requires 0 <= limit <= MixedSectionSize
    ensures var s := BuildSections(all, now, w, limit);
      var feed := SectionBlend(all, now, w, limit);
      && feed.articles == Take(s.firstSix + s.mixed, limit)
      && feed.meta.sections.remaining
         == if limit == MixedSectionSize || |s.tailCandidates| < MixedSectionSize - limit then 0
            else |s.tailCandidates| - (MixedSectionSize - limit)
  {
    var s := BuildSections(all, now, w, limit);
    if s.tailCandidates != [] {
      BlocksFull(all, now, w, limit);
    }
    HiddenTail(s.firstSix + s.mixed, s.tailCandidates, limit);
  }

  lemma HiddenTail(blocks: seq<Scored>, tail: seq<Scored>, limit: int)
    requires 0 <= limit <= MixedSectionSize
    requires tail == [] || |blocks| == MixedSectionSize
    ensures SliceTo(blocks + SliceTo(tail, limit - MixedSectionSize), limit) == Take(blocks, limit)
    ensures |SliceTo(tail, limit - MixedSectionSize)|
         == if limit == MixedSectionSize || |tail| < MixedSectionSize - limit then 0
            else |tail| - (MixedSectionSize - limit)
  {
    var rem := SliceTo(tail, limit - MixedSectionSize);
    if tail == [] {
      assert blocks + rem == blocks;
    } else {
      assert Take(blocks + rem, limit) == Take(blocks, limit);
    }
  }

  /** A non-empty tail means both blocks are full. */
  lemma {:induction false} BlocksFull(all: seq<Article>, now: Millis, w: Weights, limit: int)
    requires BuildSections(all, now, w, limit).tailCandidates != []
    ensures var s := BuildSections(all, now, w, limit);
      |s.firstSix + s.mixed| == MixedSectionSize
  {
    var s := BuildSections(all, now, w, limit);
    var processed := ProcessAll(all, now, w);
    var x := s.tailCandidates[0];
    ItemIdsAppend(s.firstSix, s.mixed);
    WithoutMember(s.freshItems, ItemIds(s.firstSix + s.mixed), x);
    FreshItemsMember(processed, x);
    SortMember(processed, ScoreKey, x);
    FirstSixBlock(all, now, w, limit);
    MixedBlock(all, now, w, limit);

    var pair := s.firstSixLatest + s.firstSixRanked;
    IdsOfPermutation(s.firstSix, pair);
    ItemIdsAppend(s.firstSixLatest, s.firstSixRanked);
    TakeFull(s.freshItems, 3, x);
    WithoutMember(s.ranked, ItemIds(s.firstSixLatest), x);
    TakeFull(Without(s.ranked, ItemIds(s.firstSixLatest)), 3, x);

    IdsOfPermutation(s.mixed, s.mixedLatest + s.mixedRanked);
    ItemIdsAppend(s.mixedLatest, s.mixedRanked);
    WithoutMember(s.freshItems, ItemIds(s.firstSix), x);
    TakeFull(Without(s.freshItems, ItemIds(s.firstSix)), MixedLatestCount, x);
    WithoutMember(s.ranked, ItemIds(s.firstSix), x);
    TakeFull(Without(s.ranked, ItemIds(s.firstSix)), MixedRankedCount, x);
  }

  /** Every item of the category/tag feed is one of the candidates, scored. */
  lemma {:induction false} SectionBlendFromCandidates(all: seq<Article>, now: Millis, w: Weights, limit: int, x: Scored)
    requires x in SectionBlend(all, now, w, limit).articles
    ensures x.article in all
    ensures x == Process(x.article, now, w)
  {
    var s := BuildSections(all, now, w, limit);
    var processed := ProcessAll(all, now, w);
    var whole := s.firstSix + s.mixed + s.remainingLatest;
    assert x in whole by {
      var r := SectionBlend(all, now, w, limit).articles;
      var i :| 0 <= i < |r| && r[i] == x;
      assert whole[i] == x;
    }
    TailBlock(all, now, w, limit);
    MixedBlock(all, now, w, limit);
    assert x in processed by {
      if x in s.firstSix {
        FirstSixMember(all, now, w, limit, x);
        if x in s.firstSixRanked {
          TakeIn(Without(s.ranked, ItemIds(s.firstSixLatest)), 3, x);
          WithoutMember(s.ranked, ItemIds(s.firstSixLatest), x);
          SortMember(processed, ScoreKey, x);
        } else {
          TakeIn(s.freshItems, 3, x);
          FreshItemsMember(processed, x);
        }
      } else if x in s.mixed {
        assert x in multiset(s.mixed);
        if x in s.mixedLatest {
          TakeIn(Without(s.freshItems, ItemIds(s.firstSix)), MixedLatestCount, x);
          WithoutMember(s.freshItems, ItemIds(s.firstSix), x);
          FreshItemsMember(processed, x);
        } else {
          TakeIn(Without(s.ranked, ItemIds(s.firstSix)), MixedRankedCount, x);
          WithoutMember(s.ranked, ItemIds(s.firstSix), x);
          SortMember(processed, ScoreKey, x);
        }
      }
    }
    var i :| 0 <= i < |processed| && processed[i] == x;
    assert all[i] == x.article;
  }
}

=== FILE: sorting.dfy ===
/**
 * `Array.prototype.sort` with a comparator `(a, b) => key(b) - key(a)`:
 * a stable sort into non-increasing key order, written as insertion sort.
 */
module Sorting {

  /** Places x before the first element whose key is not larger than x's. */
  function Insert<T>(x: T, s: seq<T>, key: T -> real): seq<T>
  {
    if s == [] || key(s[0]) <= key(x) then [x] + s
    else [s[0]] + Insert(x, s[1..], key)
  }

  function SortDesc<T>(s: seq<T>, key: T -> real): seq<T>
  {
    if s == [] then [] else Insert(s[0], SortDesc(s[1..], key), key)
  }

  predicate SortedDesc<T>(s: seq<T>, key: T -> real)
  {
    forall i, j :: 0 <= i < j < |s| ==> key(s[i]) >= key(s[j])
  }

  /** The elements of s whose key is v, in their order in s. */
  function WithKey<T>(s: seq<T>, key: T -> real, v: real): seq<T>
  {
    if s == [] then []
    else (if key(s[0]) == v then [s[0]] else []) + WithKey(s[1..], key, v)
  }

  lemma {:induction false} InsertPermutes<T>(x: T, s: seq<T>, key: T -> real)
    ensures multiset(Insert(x, s, key)) == multiset{x} + multiset(s)
  {
    if s != [] && key(s[0]) > key(x) {
      InsertPermutes(x, s[1..], key);
      assert s == [s[0]] + s[1..];
    }
  }

  lemma {:induction false} InsertSorted<T>(x: T, s: seq<T>, key: T -> real)
    requires SortedDesc(s, key)
    ensures SortedDesc(Insert(x, s, key), key)
  {
    if s != [] && key(s[0]) > key(x) {
      InsertSorted(x, s[1..], key);
      InsertPermutes(x, s[1..], key);
      var r := Insert(x, s[1..], key);
      forall i | 0 <= i < |r| ensures key(s[0]) >= key(r[i]) {
        assert r[i] in multiset(r);
        if r[i] != x {
          assert r[i] in multiset(s[1..]);
          var j :| 0 <= j < |s[1..]| && s[1..][j] == r[i];
          assert s[1..][j] == s[j + 1];
        }
      }
    }
  }

  lemma {:induction false} InsertStable<T>(x: T, s: seq<T>, key: T -> real, v: real)
    ensures WithKey(Insert(x, s, key), key, v) == (if key(x) == v then [x] else []) + WithKey(s, key, v)
  {
    if s == [] || key(s[0]) <= key(x) {
      assert ([x] + s)[1..] == s;
    } else {
      InsertStable(x, s[1..], key, v);
      assert ([s[0]] + Insert(x, s[1..], key))[1..] == Insert(x, s[1..], key);
    }
  }

  /** The sorted list is a permutation of its input. */
  lemma {:induction false} SortDescPermutes<T>(s: seq<T>, key: T -> real)
    ensures multiset(SortDesc(s, key)) == multiset(s)
    ensures |SortDesc(s, key)| == |s|
  {
    if s != [] {
      SortDescPermutes(s[1..], key);
      InsertPermutes(s[0], SortDesc(s[1..], key), key);
      assert s == [s[0]] + s[1..];
    }
  }

  /** The sorted list is in non-increasing key order. */
  lemma {:induction false} SortDescSorted<T>(s: seq<T>, key: T -> real)
    ensures SortedDesc(SortDesc(s, key), key)
  {
    if s != [] {
      SortDescSorted(s[1..], key);
      InsertSorted(s[0], SortDesc(s[1..], key), key);
    }
  }

  /** Stability: the elements sharing one key keep their input order. */
  lemma {:induction false} SortDescStable<T>(s: seq<T>, key: T -> real, v: real)
    ensures WithKey(SortDesc(s, key), key, v) == WithKey(s, key, v)
  {
    if s != [] {
      SortDescStable(s[1..], key, v);
      InsertStable(s[0], SortDesc(s[1..], key), key, v);
    }
  }

  /** All three properties of the sort together. */
  lemma SortDescSpec<T>(s: seq<T>, key: T -> real)
    ensures |SortDesc(s, key)| == |s|
    ensures multiset(SortDesc(s, key)) == multiset(s)
    ensures SortedDesc(SortDesc(s, key), key)
    ensures forall v :: WithKey(SortDesc(s, key), key, v) == WithKey(s, key, v)
  {
    SortDescPermutes(s, key);
    SortDescSorted(s, key);
    forall v ensures WithKey(SortDesc(s, key), key, v) == WithKey(s, key, v) {
      SortDescStable(s, key, v);
    }
  }
}

=== FILE: spf_feed.dfy ===
/**
 * The cached feed handlers of controllers/spf/feed.controller.js: the same
 * blends as the uncached handlers, behind a cache keyed by the handler's
 * family and parameters, with the headline exclusions of the general and
 * category feeds.
 */
module SpfFeed {
  import opened Js
  import opened ContentItem
  import opened RankArticle
  import opened Feed
  import opened FeedHandlers
  import opened KeyValueCache
  import opened FeedProperties
  import opened SectionProperties

  /** Computed feeds are kept for an hour. */
  const FeedTtl: nat := 3600

  datatype Response = Response(cached: bool, data: FeedData)

  function MainKey(limit: int): string
  {
    CacheKey("feed:main", [IntToString(limit)])
  }

  function CategoryKey(category: string, limit: int): string
  {
    CacheKey("feed:category", [category, IntToString(limit)])
  }

  function TagKey(tag: string, limit: int): string
  {
    CacheKey("feed:tag", [tag, IntToString(limit)])
  }

  /** The keys are the family, then the parameter values in order, joined with ':'. */
  lemma KeyShapes(category: string, tag: string, limit: int)
    ensures MainKey(limit) == "feed:main:" + IntToString(limit)
    ensures CategoryKey(category, limit) == "feed:category:" + category + ":" + IntToString(limit)
    ensures TagKey(tag, limit) == "feed:tag:" + tag + ":" + IntToString(limit)
  {
    JoinCons(category, [IntToString(limit)], ":");
    JoinCons(tag, [IntToString(limit)], ":");
  }

  /** The three families never share a key, so one feed never answers for another. */
  lemma KeyFamiliesDisjoint(category: string, tag: string, l1: int, l2: int, l3: int)
    ensures MainKey(l1) != CategoryKey(category, l2)
    ensures MainKey(l1) != TagKey(tag, l3)
    ensures CategoryKey(category, l2) != TagKey(tag, l3)
  {
    KeyShapes(category, tag, l1);
    KeyShapes(category, tag, l2);
    KeyShapes(category, tag, l3);
    assert MainKey(l1)[5] == 'm';
    assert CategoryKey(category, l2)[5] == 'c';
    assert TagKey(tag, l3)[5] == 't';
  }

  /** `isHeadline: { $ne: true }`. */
  function NonHeadlines(store: seq<Article>): (r: seq<Article>)
    ensures forall a :: a in r <==> a in store && !a.isHeadline
    ensures |r| <= |store|
  {
    if store == [] then []
    else (if store[0].isHeadline then [] else [store[0]]) + NonHeadlines(store[1..])
  }

  /** `isCategoryHeadline: { $ne: true }`. */
  function NonCategoryHeadlines(store: seq<Article>): (r: seq<Article>)
    ensures forall a :: a in r <==> a in store && !a.isCategoryHeadline
    ensures |r| <= |store|
  {
    if store == [] then []
    else (if store[0].isCategoryHeadline then [] else [store[0]]) + NonCategoryHeadlines(store[1..])
  }

  /** The payload each handler computes on a miss. */
  function MainPayload(store: seq<Article>, now: Millis, w: Weights, limit: int): FeedData
  {
    MainFeed(GeneralBlend(NonHeadlines(store), now, w, limit))
  }

  function CategoryPayload(store: seq<Article>, category: string, now: Millis, w: Weights, limit: int): FeedData
  {
    CategoryFeed(category, SectionBlend(NonCategoryHeadlines(CategoryCandidates(store, category)), now, w, limit))
  }

  function TagPayload(store: seq<Article>, tag: string, now: Millis, w: Weights, limit: int): FeedData
  {
    TagFeed(tag, SectionBlend(TagCandidates(store, tag), now, w, limit))
  }

  /**
   * The miss path shared by the three handlers: compute, store for an hour,
   * answer uncached. A hit answers with the stored payload and ranks nothing.
   */
  method Serve(cache: Cache<FeedData>, key: string, payload: FeedData, reachable: bool) returns (resp: Response)
    modifies cache
    ensures old(cache.Lookup(key, reachable)).Some? ==>
      resp == Response(true, old(cache.Lookup(key, reachable)).value) && cache.entries == old(cache.entries)
    ensures old(cache.Lookup(key, reachable)).None? ==>
      resp == Response(false, payload)
      && cache.entries == (if reachable then old(cache.entries)[key := Entry(payload, FeedTtl)] else old(cache.entries))
  {
    var hit := cache.Get(key, reachable);
    if hit.Some? {
      return Response(true, hit.value);
    }
    cache.Set(key, payload, FeedTtl, reachable);
    resp := Response(false, payload);
  }

  /**
   * The getCache of this file as written: the stored text is handed to
   * `极JSON.parse`, an identifier declared nowhere, so a stored value throws
   * a ReferenceError that the catch answers with null. Every read is a miss.
   */
  method GetAsWritten(cache: Cache<FeedData>, key: string, reachable: bool) returns (r: Option<FeedData>)
    ensures r.None?
  {
    var stored := cache.Get(key, reachable);
    if stored.Some? {
      r := None;
    } else {
      r := None;
    }
  }

  /**
   * The handlers' cache step as written: the read always misses, so the
   * payload is computed, stored for an hour and answered uncached, exactly
   * as Serve does on a miss.
   */
  method ServeAsWritten(cache: Cache<FeedData>, key: string, payload: FeedData, reachable: bool) returns (resp: Response)
    modifies cache
    ensures resp == Response(false, payload)
    ensures cache.entries == (if reachable then old(cache.entries)[key := Entry(payload, FeedTtl)] else old(cache.entries))
  {
    var hit := GetAsWritten(cache, key, reachable);
    cache.Set(key, payload, FeedTtl, reachable);
    resp := Response(false, payload);
  }

  /**
   * Two requests for the same key in a row, as written: both are computed
   * afresh and answered uncached, the second from the store as it is by
   * then, and its payload replaces the first in the cache.
   */
  method RepeatedRequestAsWritten(cache: Cache<FeedData>, key: string, payload: FeedData, later: FeedData, reachable: bool)
    returns (first: Response, second: Response)
    modifies cache
    ensures first == Response(false, payload) && second == Response(false, later)
    ensures cache.entries == (if reachable then old(cache.entries)[key := Entry(later, FeedTtl)] else old(cache.entries))
  {
    first := ServeAsWritten(cache, key, payload, reachable);
    second := ServeAsWritten(cache, key, later, reachable);
  }

  /**
   * Two requests for the same key in a row: while the store is reachable the
   * second is answered from the cache with the first one's payload, whatever
   * the store holds by then.
   */
  method RepeatedRequest(cache: Cache<FeedData>, key: string, payload: FeedData, later: FeedData, reachable: bool)
    returns (first: Response, second: Response)
    modifies cache
    ensures reachable ==> second == Response(true, first.data)
    ensures !reachable ==> !first.cached && !second.cached && second.data == later
  {
    first := Serve(cache, key, payload, reachable);
    second := Serve(cache, key, later, reachable);
  }

  /** getFeed: keyed by the limit; headlines are left out of the candidates. */
  method GetFeed(cache: Cache<FeedData>, store: seq<Article>, now: Millis, w: Weights, parsed: Option<int>, reachable: bool)
    returns (resp: Response)
    modifies cache
    ensures var key := MainKey(ParsedOr(parsed, DefaultFeedLimit));
      && (old(cache.Lookup(key, reachable)).Some? ==>
            resp == Response(true, old(cache.Lookup(key, reachable)).value) && cache.entries == old(cache.entries))
      && (old(cache.Lookup(key, reachable)).None? ==>
            var data := MainPayload(store, now, w, ParsedOr(parsed, DefaultFeedLimit));
            resp == Response(false, data)
            && cache.entries == (if reachable then old(cache.entries)[key := Entry(data, FeedTtl)] else old(cache.entries)))
  {
    var limit := ParsedOr(parsed, DefaultFeedLimit);
    resp := Serve(cache, MainKey(limit), MainPayload(store, now, w, limit), reachable);
  }

  /** getFeedByCategory: keyed by category and limit; category headlines are left out. */
  method GetFeedByCategory(cache: Cache<FeedData>, store: seq<Article>, category: string, now: Millis, w: Weights,
                           parsed: Option<int>, reachable: bool)
    returns (resp: Response)
    modifies cache
    ensures var key := CategoryKey(category, ParsedOr(parsed, DefaultSectionLimit));
      && (old(cache.Lookup(key, reachable)).Some? ==>
            resp == Response(true, old(cache.Lookup(key, reachable)).value) && cache.entries == old(cache.entries))
      && (old(cache.Lookup(key, reachable)).None? ==>
            var data := CategoryPayload(store, category, now, w, ParsedOr(parsed, DefaultSectionLimit));
            resp == Response(false, data)
            && cache.entries == (if reachable then old(cache.entries)[key := Entry(data, FeedTtl)] else old(cache.entries)))
  {
    var limit := ParsedOr(parsed, DefaultSectionLimit);
    resp := Serve(cache, CategoryKey(category, limit), CategoryPayload(store, category, now, w, limit), reachable);
  }

  /** getFeedByTags: keyed by tag and limit; no headline exclusion. */
  method GetFeedByTags(cache: Cache<FeedData>, store: seq<Article>, tag: string, now: Millis, w: Weights,
                       parsed: Option<int>, reachable: bool)
    returns (resp: Response)
    modifies cache
    ensures var key := TagKey(tag, ParsedOr(parsed, DefaultSectionLimit));
      && (old(cache.Lookup(key, reachable)).Some? ==>
            resp == Response(true, old(cache.Lookup(key, reachable)).value) && cache.entries == old(cache.entries))
      && (old(cache.Lookup(key, reachable)).None? ==>
            var data := TagPayload(store, tag, now, w, ParsedOr(parsed, DefaultSectionLimit));
            resp == Response(false, data)
            && cache.entries == (if reachable then old(cache.entries)[key := Entry(data, FeedTtl)] else old(cache.entries)))
  {
    var limit := ParsedOr(parsed, DefaultSectionLimit);
    resp := Serve(cache, TagKey(tag, limit), TagPayload(store, tag, now, w, limit), reachable);
  }

  /** No headline reaches the general feed, and no category headline the category feed. */
  lemma ExclusionsHold(store: seq<Article>, category: string, now: Millis, w: Weights, limit: int)
    ensures forall e :: e in MainPayload(store, now, w, limit).general.articles ==>
      (e.Latest? ==> !e.doc.isHeadline) && (e.Ranked? ==> !e.item.article.isHeadline)
    ensures forall x :: x in CategoryPayload(store, category, now, w, limit).sectioned.articles ==>
      !x.article.isCategoryHeadline && InCategory(x.article, category)
  {
    var all := NonHeadlines(store);
    forall e | e in MainPayload(store, now, w, limit).general.articles
      ensures (e.Latest? ==> !e.doc.isHeadline) && (e.Ranked? ==> !e.item.article.isHeadline)
    {
      GeneralBlendMember(all, now, w, limit, e);
    }
    var cands := NonCategoryHeadlines(CategoryCandidates(store, category));
    forall x | x in CategoryPayload(store, category, now, w, limit).sectioned.articles
      ensures !x.article.isCategoryHeadline && InCategory(x.article, category)
    {
      SectionBlendFromCandidates(cands, now, w, limit, x);
    }
  }
}

=== FILE: tag_note.dfy ===
/**
 * The tag-note job (middleware/tagNoteCron.js): a short note built from
 * phrase templates for the product's status and its shipping and returns
 * features, written back to every product whose note differs. The random
 * choice of a phrase within a template list is a parameter: one `Choices`
 * value per product, holding the three indices `Math.random` would draw.
 */
module TagNote {
  import opened Js

  datatype TagProduct = TagProduct(
    status: Option<string>,
    freeShipping: bool,
    returnsEligible: bool,
    tagNote: Option<string>)

  /** The indices drawn for the status, free-shipping and returns phrases. */
  datatype Choices = Choices(status: nat, shipping: nat, returnsEligible: nat)

  /** `Math.floor(Math.random() * 3)` lies in 0..2 for each draw. */
  predicate Drawn(c: Choices)
  {
    c.status < 3 && c.shipping < 3 && c.returnsEligible < 3
  }

  const Separator: string := " • "
  const Fallback: string := "🌟 Quality product - ready to ship"

  /** A phrase as the generator picks it: a template list and an index in it. */
  datatype Phrase = StatusPhrase(status: string, index: nat) | ShippingPhrase(index: nat) | ReturnsPhrase(index: nat)

  /** The statuses with a template list; any other status gets no status phrase. */
  predicate HasTemplates(status: string)
  {
    status == "new_arrival" || status == "deal" || status == "active" || status == "sold_out"
  }

  function NewArrivalText(i: nat): (t: string)
    requires i < 3
    ensures t != [] && IsAsciiUpper(t[0])
  {
    // written as two literals so that the first character is visible to the verifier
    if i == 0 then "Brand new arrival! " + "Just added to our collection"
    else if i == 1 then "New release! Be among the first to own this"
    else "Fresh stock just landed - limited quantities"
  }

  function DealText(i: nat): (t: string)
    requires i < 3
    ensures t != [] && IsAsciiUpper(t[0])
  {
    if i == 0 then "Special deal! Limited-time promotion"
    else if i == 1 then "Exclusive offer - save while supplies last"
    else "Flash sale price - won't last long!"
  }

  function ActiveText(i: nat): (t: string)
    requires i < 3
    ensures t != [] && IsAsciiUpper(t[0])
  {
    if i == 0 then "Customer favorite - highly rated"
    else if i == 1 then "Bestseller - order now for fast delivery"
    else "Top choice in this category"
  }

  function SoldOutText(i: nat): (t: string)
    requires i < 3
    ensures t != [] && IsAsciiUpper(t[0])
  {
    if i == 0 then "Temporarily out of stock"
    else if i == 1 then "Restocking soon - check back later"
    else "Next shipment expected soon"
  }

  function FreeShippingText(i: nat): (t: string)
    requires i < 3
    ensures t != [] && IsAsciiUpper(t[0])
  {
    if i == 0 then "FREE shipping on this item"
    else if i == 1 then "Shipping included - no extra fees"
    else "Free delivery to your doorstep"
  }

  function ReturnsText(i: nat): (t: string)
    requires i < 3
    ensures t != [] && IsAsciiUpper(t[0])
  {
    if i == 0 then "Easy returns - shop with confidence"
    else if i == 1 then "Hassle-free 30-day return policy"
    else "Protected by our satisfaction guarantee"
  }

  /** A phrase names an existing template. */
  predicate ValidPhrase(ph: Phrase)
  {
    ph.index < 3 && (ph.StatusPhrase? ==> HasTemplates(ph.status))
  }

  /** The template text of a phrase; every template starts with a capital letter. */
  function PhraseText(ph: Phrase): (t: string)
    requires ValidPhrase(ph)
    ensures t != [] && IsAsciiUpper(t[0])
  {
    match ph
    case StatusPhrase(status, i) =>
      if status == "new_arrival" then NewArrivalText(i)
      else if status == "deal" then DealText(i)
      else if status == "active" then ActiveText(i)
      else SoldOutText(i)
    case ShippingPhrase(i) => FreeShippingText(i)
    case ReturnsPhrase(i) => ReturnsText(i)
  }

  /** The product's status has a template list. */
  predicate HasStatusPhrase(p: TagProduct)
  {
    p.status.Some? && HasTemplates(p.status.value)
  }

  /** Feature phrases are added unless the status is 'deal' or 'sold_out'. */
  predicate FeaturesShown(p: TagProduct)
  {
    p.status != Some("deal") && p.status != Some("sold_out")
  }

  /** The phrases in the order the generator pushes them. */
  function Parts(p: TagProduct, c: Choices): (r: seq<Phrase>)
    requires Drawn(c)
    ensures |r| <= 3
    ensures forall ph :: ph in r ==> ValidPhrase(ph)
  {
    (if HasStatusPhrase(p) then [StatusPhrase(p.status.value, c.status)] else [])
    + (if FeaturesShown(p) && p.freeShipping then [ShippingPhrase(c.shipping)] else [])
    + (if FeaturesShown(p) && p.returnsEligible then [ReturnsPhrase(c.returnsEligible)] else [])
  }

  /** The texts of the phrases, in order. */
  function Texts(parts: seq<Phrase>): (r: seq<string>)
    requires forall ph :: ph in parts ==> ValidPhrase(ph)
    ensures |r| == |parts|
    ensures forall i :: 0 <= i < |parts| ==> r[i] == PhraseText(parts[i])
  {
    seq(|parts|, i requires 0 <= i < |parts| => PhraseText(parts[i]))
  }

  /** `generateProductTagNote`: the phrases joined, or the fallback when there are none. */
  function Note(p: TagProduct, c: Choices): string
    requires Drawn(c)
  {
    var parts := Parts(p, c);
    if parts == [] then Fallback else Join(Texts(parts), Separator)
  }

  /** `generateProductTagNote` as written: the phrases pushed one by one, then joined. */
  method GenerateTagNote(p: TagProduct, c: Choices) returns (note: string)
    requires Drawn(c)
    ensures note == Note(p, c)
  {
    var tags: seq<string> := [];
    ghost var phrases: seq<Phrase> := [];
    if p.status.Some? && HasTemplates(p.status.value) {
      phrases := [StatusPhrase(p.status.value, c.status)];
      tags := [PhraseText(StatusPhrase(p.status.value, c.status))];
    }
    assert tags == Texts(phrases);
    if !(p.status == Some("deal") || p.status == Some("sold_out")) {
      if p.freeShipping {
        PushText(tags, phrases, ShippingPhrase(c.shipping));
        tags := tags + [FreeShippingText(c.shipping)];
        phrases := phrases + [ShippingPhrase(c.shipping)];
      }
      if p.returnsEligible {
        PushText(tags, phrases, ReturnsPhrase(c.returnsEligible));
        tags := tags + [ReturnsText(c.returnsEligible)];
        phrases := phrases + [ReturnsPhrase(c.returnsEligible)];
      }
    }
    assert phrases == Parts(p, c);
    note := if |tags| > 0 then Join(tags, Separator) else Fallback;
  }

  /** Pushing a phrase's text keeps the texts in step with the phrases. */
  lemma PushText(tags: seq<string>, phrases: seq<Phrase>, ph: Phrase)
    requires (forall q :: q in phrases ==> ValidPhrase(q)) && ValidPhrase(ph)
    requires tags == Texts(phrases)
    ensures tags + [PhraseText(ph)] == Texts(phrases + [ph])
  {
  }

  /** The first phrase starts the joined note. */
  lemma {:induction false} JoinStartsWithFirst(parts: seq<string>, sep: string)
    requires parts != [] && parts[0] != []
    ensures Join(parts, sep) != [] && Join(parts, sep)[0] == parts[0][0]
  {
  }

  /**
   * Which phrases the note is made of: a status phrase exactly when the
   * status has templates, then the free-shipping and the returns phrase
   * when the status is neither 'deal' nor 'sold_out' and the feature is
   * set, each at the index drawn for it.
   */
  lemma PartsSpec(p: TagProduct, c: Choices)
    requires Drawn(c)
    ensures var r := Parts(p, c);
      |r| == (if HasStatusPhrase(p) then 1 else 0)
           + (if FeaturesShown(p) && p.freeShipping then 1 else 0)
           + (if FeaturesShown(p) && p.returnsEligible then 1 else 0)
    ensures HasStatusPhrase(p) ==> Parts(p, c)[0] == StatusPhrase(p.status.value, c.status)
    ensures HasStatusPhrase(p) <==> Parts(p, c) != [] && Parts(p, c)[0].StatusPhrase?
    ensures var k := if HasStatusPhrase(p) then 1 else 0;
      FeaturesShown(p) && p.freeShipping ==> Parts(p, c)[k] == ShippingPhrase(c.shipping)
    ensures FeaturesShown(p) && p.returnsEligible ==> Parts(p, c)[|Parts(p, c)| - 1] == ReturnsPhrase(c.returnsEligible)
    ensures !FeaturesShown(p) ==> forall ph :: ph in Parts(p, c) ==> ph.StatusPhrase?
  {
  }

  /**
   * The note is the fallback exactly when there is no phrase; otherwise it
   * starts with the first phrase's capital letter. The note is never empty.
   */
  lemma NoteFallbackIff(p: TagProduct, c: Choices)
    requires Drawn(c)
    ensures Note(p, c) != []
    ensures Note(p, c) == Fallback <==> Parts(p, c) == []
    ensures Parts(p, c) != [] ==> Note(p, c)[0] == PhraseText(Parts(p, c)[0])[0]
  {
    var parts := Parts(p, c);
    if parts != [] {
      assert parts[0] in parts;
      var texts := Texts(parts);
      JoinStartsWithFirst(texts, Separator);
      assert Fallback[0] == '🌟';
    }
  }

  /** The note does not depend on the note stored before. */
  lemma NoteIgnoresStoredNote(p: TagProduct, c: Choices, old_note: Option<string>)
    requires Drawn(c)
    ensures Note(p.(tagNote := old_note), c) == Note(p, c)
  {
  }

  /** One product after the job: the new note is written only when it differs. */
  function Retag(p: TagProduct, c: Choices): (q: TagProduct)
    requires Drawn(c)
    ensures q.tagNote == Some(Note(p, c))
    ensures q.status == p.status && q.freeShipping == p.freeShipping && q.returnsEligible == p.returnsEligible
    ensures q == p <==> p.tagNote == Some(Note(p, c))
  {
    if Some(Note(p, c)) != p.tagNote then p.(tagNote := Some(Note(p, c))) else p
  }

  predicate AllDrawn(cs: seq<Choices>)
  {
    forall i :: 0 <= i < |cs| ==> Drawn(cs[i])
  }

  /** The stored note of a product already is the note the job generates for it. */
  predicate Settled(p: TagProduct, c: Choices)
    requires Drawn(c)
  {
    p.tagNote == Some(Note(p, c))
  }

  /** The number of products whose note the job rewrites. */
  function Changed(ps: seq<TagProduct>, cs: seq<Choices>): (n: nat)
    requires |cs| == |ps| && AllDrawn(cs)
    ensures n <= |ps|
  {
    if ps == [] then 0
    else
      var k := |ps| - 1;
      Changed(ps[..k], cs[..k]) + (if Settled(ps[k], cs[k]) then 0 else 1)
  }

  /** The store after the job: each product retagged. */
  function Retagged(ps: seq<TagProduct>, cs: seq<Choices>): (r: seq<TagProduct>)
    requires |cs| == |ps| && AllDrawn(cs)
    ensures |r| == |ps|
  {
    seq(|ps|, i requires 0 <= i < |ps| => Retag(ps[i], cs[i]))
  }

  /** No product is rewritten exactly when every stored note already is the generated one. */
  lemma {:induction false} ChangedZeroIff(ps: seq<TagProduct>, cs: seq<Choices>)
    requires |cs| == |ps| && AllDrawn(cs)
    ensures Changed(ps, cs) == 0 <==> forall i :: 0 <= i < |ps| ==> Settled(ps[i], cs[i])
  {
    if ps != [] {
      var k := |ps| - 1;
      var front, fronts := ps[..k], cs[..k];
      ChangedZeroIff(front, fronts);
      if Changed(ps, cs) == 0 {
        forall i | 0 <= i < |ps|
          ensures Settled(ps[i], cs[i])
        {
          if i < k {
            assert front[i] == ps[i] && fronts[i] == cs[i];
          }
        }
      } else if Settled(ps[k], cs[k]) {
        var i :| 0 <= i < k && !Settled(front[i], fronts[i]);
        assert front[i] == ps[i] && fronts[i] == cs[i];
      }
    }
  }

  /** Running the job again with the same draws rewrites nothing. */
  lemma RetaggedSettles(ps: seq<TagProduct>, cs: seq<Choices>)
    requires |cs| == |ps| && AllDrawn(cs)
    ensures Changed(Retagged(ps, cs), cs) == 0
    ensures Retagged(Retagged(ps, cs), cs) == Retagged(ps, cs)
  {
    var r := Retagged(ps, cs);
    forall i | 0 <= i < |ps|
      ensures r[i].tagNote == Some(Note(r[i], cs[i]))
    {
      NoteIgnoresStoredNote(ps[i], cs[i], Some(Note(ps[i], cs[i])));
    }
    ChangedZeroIff(r, cs);
  }

  /**
   * The job's loop over the product cursor: every product is processed,
   * and the note is written only where it differs.
   */
  method UpdateTagNotes(a: array<TagProduct>, cs: seq<Choices>) returns (processed: nat, updated: nat)
    requires |cs| == a.Length && AllDrawn(cs)
    modifies a
    ensures a[..] == Retagged(old(a[..]), cs)
    ensures processed == a.Length
    ensures updated == Changed(old(a[..]), cs)
  {
    processed, updated := 0, 0;
    for i := 0 to a.Length
      invariant processed == i
      invariant a[..i] == Retagged(old(a[..i]), cs[..i])
      invariant a[i..] == old(a[i..])
      invariant updated == Changed(old(a[..i]), cs[..i])
    {
      assert old(a[..i + 1])[..i] == old(a[..i]) && cs[..i + 1][..i] == cs[..i];
      assert old(a[..i + 1])[i] == old(a[i]) == a[i];
      processed := processed + 1;
      var newTag := GenerateTagNote(a[i], cs[i]);
      if Some(newTag) != a[i].tagNote {
        a[i] := a[i].(tagNote := Some(newTag));
        updated := updated + 1;
      }
      assert a[..i + 1] == a[..i] + [a[i]];
    }
    assert a[..] == a[..a.Length] && old(a[..]) == old(a[..a.Length]) && cs == cs[..a.Length];
  }
}
